=== FILE: README.md ===
# World-Fork-Core versioning engine in Dafny

World-Fork-Core keeps JSON "units" (id, type, title, fields, …) on
branches of commits. This project models the part of it that decides
what a commit, a diff and a merge mean:

- the RFC 6901 JSON Pointer codec (`src/core/jsonPointer.ts`);
- the structural diff of two unit maps (`src/core/diff.ts`);
- the three-way merge with its conflicts (`src/core/merge.ts`);
- the ancestor walk and common-ancestor search over the commit graph (`src/repo/commitRepo.ts`);
- the `branch:`/`commit:` ref grammar (`src/server/ref.ts`);
- the path get/set helpers, the preview gate and the conflict-resolution loop (`src/server/app.ts`);
- the commit and merge-commit transactions with their expected-head guard (`src/server/app.ts`);
- the older unescaped path helpers and the unguarded commit and merge sequences (`src/server/index.ts`).

Modules, one per file:

| file | module | what it holds |
|---|---|---|
| wrappers.dfy | Wrappers | `Option` and `Result` |
| decimal.dfy | Decimal | canonical decimal indices up to 2^53 (`String(Number(t)) === t`) |
| json.dfy | Json | the value type `Undef \| Null \| Bool \| Num \| Str \| Arr \| Obj`, member lookup and update, deep `isEqual` |
| pointer.dfy | Pointer | `escapeToken`, `unescapeToken`, `toPointer`, `fromPointer`, `split`/`join` |
| route.dfy | Routes | the keys and indices a recursion descends, `joinPath`, navigation |
| diff.dfy | Diff | `diffValues`, `diffUnits` |
| merge.dfy | Merge | `mergeValues`, `mergeUnits` |
| graph.dfy | CommitGraph | `getCommitAncestors`, `findCommonAncestor` over a parent map |
| ref.dfy | Refs | `parseRef` |
| paths.dfy | Paths | `getValueAtTokens`, `setValueAtTokens`, `getValueAtPath`, `setValueAtPath`, current and legacy |
| resolve.dfy | Resolve | the preview gate and the resolution loop |
| store.dfy | Repo | the abstract store, the commit and merge transactions, the legacy sequences |

Modelling choices:

- `undefined` is a value, `Undef`, because missing keys and indices compare as `undefined` and merged arrays can hold it.
- Objects and unit maps are association lists in key order, and lookup takes the first match.
- Numbers are integers.
- Diff and merge carry the route of keys and indices they descended. The path string is computed from the route exactly as `joinPath` builds it.
- The commit lookups of `commitRepo.ts` are a finite map from commit id to its two optional parents.
- The database is an abstract store: branches, commit records, per-commit unit snapshots, per-branch unit states and the set of unit ids.
- Each `prisma.$transaction` is one atomic step, and each `nanoid()` id is a parameter assumed fresh.
- The `src/server/index.ts` sequences are separate writes with no rollback.
- The source's `isArrayIndex` (`String(Number(t)) === t`) is modelled as "canonical non-negative decimal of value at most 2^53", the range in which a double holds every integer exactly.
- An index token reaches an array element only below 2^32 - 1, the JavaScript array length limit (`Paths.IsElement`). From there on it names an ordinary property of the array.

## Model

| member | source | states |
|---|---|---|
| Decimal.ParseNatToString | src/server/app.ts:506 | the rendering of every number is canonical and reads back as that number, and it passes `isArrayIndex` exactly when the number is at most 2^53 |
| Decimal.LongTokensRejected | src/server/app.ts:506 | a canonical decimal of 17 or more digits is above 2^53 and rejected; `"1000000000000000000000"`, which `String(Number(t))` writes as `"1e+21"`, is one |
| Decimal.NatToStringParse | src/server/app.ts:506 | every canonical decimal, and so every accepted index token, is the rendering of the number it denotes |
| Json.At | src/core/diff.ts:37 | `xs[i]` is the element in range and `undefined` past the end |
| Json.SetAt | src/server/app.ts:568 | `xs[i] = v` sets position `i`, grows the array to `i + 1` when needed, fills holes with `undefined` and keeps every other position |
| Json.Get | src/core/diff.ts:18 | a key that is not present reads as `undefined` |
| Json.Put | src/server/app.ts:1373 | `obj[k] = v` makes `k` read `v`, leaves every other key as it was, adds `k` to the keys and keeps keys distinct |
| Json.KeyUnion | src/core/diff.ts:42 | the key set of two objects is duplicate-free and holds exactly the keys of either |
| Json.KeyUnion3 | src/core/merge.ts:67 | the key set of three objects is duplicate-free and holds exactly the keys of any of them |
| Json.Equal | src/core/diff.ts:8-25 | `isEqual` never equates values of different kinds and compares primitives by identity; `Json.EqualReflexive`, `Json.EqualSymmetric` and `Json.EqualTransitive` make it an equivalence, `Json.EqualGet` makes equal objects agree key by key, and `Diff.DiffEmptyIffEqual` makes it exactly an empty diff |
| Json.EqualReflexive | src/core/diff.ts:8-25 | `isEqual(a, a)` for every value |
| Json.EqualSymmetric | src/core/diff.ts:8-25 | `isEqual(a, b)` implies `isEqual(b, a)` |
| Json.EqualTransitive | src/core/diff.ts:8-25 | `isEqual` is transitive |
| Json.EqualGet | src/core/diff.ts:15-22 | equal objects agree, up to `isEqual`, on every key, a missing key counting as `undefined` |
| Pointer.Split | src/core/jsonPointer.ts:17 | `split` always yields at least one piece, and no piece holds the separator |
| Pointer.EscapeToken | src/core/jsonPointer.ts:1 | an escaped token holds no `/`, and a token without `~` or `/` is unchanged; `Pointer.UnescapeEscape` makes `unescapeToken` undo it for every string, and `Pointer.EscapeTokenShape` adds that each `~` starts `~0` or `~1` |
| Pointer.UnescapeToken | src/core/jsonPointer.ts:3 | decoding never lengthens a token and leaves one without `~` unchanged; `Pointer.EscapeUnescape` makes `escapeToken` undo it on well-escaped slash-free tokens |
| Pointer.ToPointer | src/core/jsonPointer.ts:5-6 | the pointer is `""` exactly for no tokens and otherwise starts with `/`; `Pointer.FromToPointer` decodes every encoded list back to itself |
| Pointer.FromPointer | src/core/jsonPointer.ts:8-19 | decoding fails exactly for a non-empty string not starting with `/`, and yields no tokens exactly for `""`; `Pointer.FromPointerTokenCount` gives one token per `/`, and `Pointer.ToFromPointer` re-encodes a well-formed pointer to itself |
| Pointer.EscapeTokenShape | src/core/jsonPointer.ts:1 | an escaped token holds no `/`, and each of its `~` is followed by `0` or `1` |
| Pointer.EscapeExamples | src/core/__tests__/jsonPointer.test.ts:6-7 | `a/b` escapes to `a~1b` and `x~y` to `x~0y` |
| Pointer.UnescapeExamples | src/core/__tests__/jsonPointer.test.ts:8-9 | `a~1b` unescapes to `a/b` and `x~0y` to `x~y` |
| Pointer.EscapePlain | src/core/jsonPointer.ts:1 | a token without `~` or `/` escapes to itself |
| Pointer.UnescapeEscape | src/core/jsonPointer.ts:1-3 | unescaping an escaped token gives the token back, for every string, because `~1` is decoded before `~0` |
| Pointer.EscapeUnescape | src/core/jsonPointer.ts:1-3 | escaping the unescaping of a well-escaped, slash-free token gives it back |
| Pointer.UnescapeWithoutEscapes | src/core/jsonPointer.ts:3 | a token with no `~0` or `~1` unescapes to itself, so unknown escapes such as `~2` pass through |
| Pointer.JoinSplit | src/core/jsonPointer.ts:15-18 | joining the pieces of a split gives the string back |
| Pointer.SplitJoin | src/core/jsonPointer.ts:5-18 | splitting a join of separator-free tokens gives the tokens back |
| Pointer.SplitCount | src/core/jsonPointer.ts:17 | a split has one piece more than the string has separators |
| Pointer.ToPointerOne | src/core/jsonPointer.ts:5-6 | no tokens give `""`, and one token gives `/` followed by the escaped token |
| Pointer.ToPointerCons | src/core/jsonPointer.ts:5-6 | a further token adds `/` and its escape in front of the rest |
| Pointer.ThreeTokenExample | src/core/__tests__/jsonPointer.test.ts:14-20 | `fields`, `a/b`, `x~y` encode to `/fields/a~1b/x~0y` and decode back |
| Pointer.FromPointerErrors | src/core/jsonPointer.ts:8-14 | `""` decodes to no tokens, a non-empty pointer not starting with `/` is an error, and these are the only cases of each |
| Pointer.FromPointerTokenCount | src/core/jsonPointer.ts:15-18 | a decoded pointer has exactly as many tokens as it has `/` characters |
| Pointer.FromToPointer | src/core/jsonPointer.ts:5-19 | decoding an encoded token list gives the list back, for every list, including `[""]` and `"/"` |
| Pointer.ToFromPointer | src/core/jsonPointer.ts:5-19 | encoding a decoded well-formed pointer gives the pointer back |
| Routes.RawPathIsJoin | src/core/diff.ts:27-28 | the path `joinPath` builds step by step is `/` followed by the raw tokens joined by `/` |
| Routes.RawPathIsPointerWhenPlain | src/core/diff.ts:27-28 | when no key holds `~` or `/`, the raw path equals the RFC 6901 pointer of the route |
| Routes.PointerOfRoundTrip | src/core/jsonPointer.ts:5-19 | the escaped path of a route always decodes to the route's tokens |
| Routes.JoinPath | src/core/diff.ts:27-28 | the joined path has one `/` more than the base and the key together, so each `/` inside a key becomes a separator, and it starts with `/` when the base is empty or does; `Routes.RawPathIsJoin` gives the whole path of a route |
| Diff.DiffValues | src/core/diff.ts:30-49 | every change belongs to the unit, lies under the current route, has `from` and `to` not `isEqual`, and does not have both arrays or both objects |
| Diff.DiffUnits | src/core/diff.ts:51-65 | every change names a unit of either map and is a leaf change |
| Diff.DiffSelf | src/core/diff.ts:30-33 | a value diffed against itself yields no change |
| Diff.DiffUnitsSelf | src/core/diff.ts:51-65 | `diffUnits(U, U)` is empty |
| Diff.DiffEmptyIffEqual | src/core/diff.ts:30-49 | for values without `undefined` inside, the diff is empty exactly when the values are `isEqual` |
| Diff.DiffChangesAreSubvalues | src/core/diff.ts:34-47 | each change's `from` and `to` are exactly what the two values hold along the change's keys and indices |
| Diff.DiffItemsCoversIndices | src/core/diff.ts:34-39 | the array diff contains the diff of every index up to the longer length |
| Diff.DiffUnitsOfUnit | src/core/diff.ts:56-62 | the changes of one unit are that unit's own diff from the root, and a unit in neither map has none |
| Diff.OneSidedUnit | src/core/diff.ts:48-62 | a unit on one side only yields exactly one change, at path `""`, with `undefined` on the missing side |
| Diff.RawPathOfSlashKey | src/core/diff.ts:27-28 | as written, a key `a/b` under `fields` gets path `/fields/a/b`, the same path as keys `a` then `b`, and it decodes to the three tokens `fields`, `a`, `b` |
| Diff.RawPathOfSlashKeyAt | src/core/diff.ts:27-28 | as written, for any plain names `f`, `a`, `b`, the key `a/b` under `f` gets the path of the three keys `f`, `a`, `b`, which decodes to those three tokens and not to the two keys descended |
| Diff.PointerPathRoundTrip | src/core/__tests__/diff.test.ts:31-54 | the escaped change path decodes to exactly the change's keys and indices |
| Diff.PointerPathUnderFields | src/core/__tests__/diff.test.ts:31-54 | the escaped path of a key under `fields` is `/fields/` plus the escaped key |
| Diff.PointerPathOfSlashKey | src/core/__tests__/diff.test.ts:53 | the escaped paths of `a/b` and `x~y` under `fields` are `/fields/a~1b` and `/fields/x~0y` |
| Merge.MergeValues | src/core/merge.ts:35-92 | every conflict lies under the route, belongs to the unit and has pairwise non-equal sides not all arrays or all objects; the result is defined when both heads are, and undefined when both heads are (a one-sided delete may also give undefined) |
| Merge.MergeItems | src/core/merge.ts:58-62 | the array loop yields one entry per remaining index |
| Merge.MergeKeys | src/core/merge.ts:70-76 | the object loop keeps only defined values, under distinct keys drawn from the key set |
| Merge.MergeUnits | src/core/merge.ts:94-120 | merged units have distinct ids from the union of the inputs and no undefined unit, and every conflict names a unit of the union and is a real conflict |
| Merge.MergeIdentical | src/core/merge.ts:42-44 | `merge(b, X, X)` is `X` with no conflicts |
| Merge.MergeTakesTheirs | src/core/merge.ts:46-48 | `merge(b, b', X)` with `b'` equal to `b` has no conflicts and gives theirs (exactly `X` when the heads differ) |
| Merge.MergeKeepsOurs | src/core/merge.ts:50-52 | `merge(b, X, b')` with `b'` equal to `b` is `X` with no conflicts |
| Merge.ConflictHere | src/core/merge.ts:80-91 | there is a conflict at the route itself exactly when the three sides diverge and are not all arrays or all objects, and then the result is ours with that single conflict recorded verbatim |
| Merge.MergeArrays | src/core/merge.ts:54-64 | three diverging arrays merge to an array of the longest length whose every entry is the merge of the entries at that index |
| Merge.MergeObjects | src/core/merge.ts:66-78 | three diverging objects merge to an object whose every key reads the merge of that key, whose keys come from the three and are distinct, and where undefined results are left out |
| Merge.ConflictsAreSubvalues | src/core/merge.ts:54-91 | each conflict's base, ours and theirs are exactly what the three values hold along its keys and indices |
| Merge.MergedKeepsOurs | src/core/merge.ts:35-92 | wherever a conflict is recorded, the merged value holds ours along the conflict's route |
| Merge.UnitConflictsKeepOurs | src/core/merge.ts:94-120 | for every conflict between units, the merged unit and the ours unit both read the conflict's ours value along its route |
| Merge.DisjointFieldEdits | src/core/merge.ts:66-77 | when each key is changed on at most one side, the merge has no conflicts and every key takes the changed side |
| Merge.MergeUnitsOfUnit | src/core/merge.ts:107-117 | each merged unit and its conflicts are those of merging that unit's three versions from the root |
| Merge.UnitDeletedOnOneSide | src/core/merge.ts:112-115 | a unit deleted by ours and unchanged by theirs is left out of the merged units, with no conflict |
| Merge.UnitCreatedOnOneSide | src/core/merge.ts:107-115 | a unit new on one side only is taken from that side, with no conflict |
| Merge.ArrayDropLeavesHole | src/core/merge.ts:54-63 | an entry dropped by theirs and edited by ours leaves an `undefined` entry in the merged array |
| CommitGraph.Ancestors | src/repo/commitRepo.ts:23-43 | the result holds the start (when given), is closed under both parents, holds exactly the commits reachable from the start, and is listed in visit order without duplicates |
| CommitGraph.FindCommonAncestor | src/repo/commitRepo.ts:45-72 | no answer when either id is missing; an answer is reachable from both and is as few parent steps from B as any common ancestor (`CommitGraph.Nearest`: nothing met in fewer steps from B is an ancestor of A); no answer means nothing reachable from B is an ancestor of A; B itself when B is an ancestor of A; X for X and X |
| CommitGraph.LevelReachable | src/repo/commitRepo.ts:54-68 | a commit the breadth-first search meets some number of parent steps from B is an ancestor of B |
| CommitGraph.ReachableLevel | src/repo/commitRepo.ts:54-68 | every ancestor of B is met some number of parent steps from B, so the step count in `CommitGraph.Nearest` covers every common ancestor |
| Refs.IndexOf | src/server/ref.ts:7 | `indexOf(":")` is the first colon, or the length when there is none |
| Refs.ParseRef | src/server/ref.ts:3-20 | a parsed ref comes from a given string holding a colon and has a non-empty id |
| Refs.ParseRefRejects | src/server/ref.ts:4-10 | undefined, the empty string and a string without `:` give null |
| Refs.ParseRefSplit | src/server/ref.ts:7-19 | `t:id` with a colon-free `t` parses to `t` and the whole rest, and to null when `t` is not `branch`/`commit` or `id` is empty |
| Refs.ParseFormat | src/server/ref.ts:7-19 | formatting a ref with a non-empty id and parsing it gives the ref back |
| Refs.FormatParse | src/server/ref.ts:7-19 | a string that parses is the formatting of what it parses to |
| Refs.ParseRefBranch | src/server/__tests__/ref.test.ts:7 | `branch:main` is the branch `main` |
| Refs.ParseRefCommit | src/server/__tests__/ref.test.ts:11 | `commit:commit_123` is the commit `commit_123` |
| Refs.ParseRefColonInId | src/server/ref.ts:7-12 | `commit:a:b` is the commit `a:b`, split at the first colon only |
| Refs.ParseRefRejectsExamples | src/server/__tests__/ref.test.ts:15-17 | `main`, `branch:` and `tag:main` give null |
| Paths.Assign | src/server/app.ts:566-571 | the final assignment keeps the container's kind and makes the token read the value, except that a token naming no element of an array (not an index, or an index from 2^32 - 1 on) leaves it unchanged |
| Paths.SetIn | src/server/app.ts:544-572 | the write loop returns a container of the kind it was given |
| Paths.SetAtTokens | src/server/app.ts:540-573 | no tokens give the value itself; otherwise the target keeps its kind |
| Paths.LegacyTokens | src/server/app.ts:503-504 | a non-empty path yields at least one token |
| Paths.ChildAssignOther | src/server/app.ts:566-571 | assigning at one token leaves what every other token reads unchanged |
| Paths.SetGetRoundTrip | src/server/app.ts:508-573 | reading back the tokens just written gives the written value, when every array on the way is met with an element token (an index below 2^32 - 1) |
| Paths.FreshWritable | src/server/app.ts:550-563 | a write into an empty object or a freshly created container always lands in the legacy loop, and in the current loop when every index token is below 2^32 - 1 |
| Paths.PropertyIndex | src/server/app.ts:506-571 | an index from 2^32 - 1 up to 2^53 passes `isArrayIndex`, so a missing node before it becomes `[]`, but on an array it reaches no element: it reads undefined and the write leaves the elements unchanged |
| Paths.LongTokenMakesObject | src/server/app.ts:506-563 | a token of 17 or more digits, `"1000000000000000000000"` among them, is no index, so a missing node before it becomes `{}` |
| Paths.SetInFrame | src/server/app.ts:544-572 | a write leaves unchanged every value read along a token path that diverges from the written one |
| Paths.CreatedContainer | src/server/app.ts:548-564 | below an object member or an array element, a missing or non-container intermediate becomes an array exactly when arrays are made and the next token passes `isArrayIndex`, and an object otherwise |
| Paths.PathsAgreeWithoutTilde | src/server/app.ts:523-538 | on a path without `~`, the pointer reading and the raw reading find the same value and write at the same tokens |
| Paths.PathRoundTrip | src/server/app.ts:523-581 | after `setValueAtPath` of a defined value, `getValueAtPath` at the same path returns it (a falsy value written at the root reads as undefined) |
| Paths.LegacyPathRoundTrip | src/server/index.ts:348-381 | after the legacy `setValueAtPath`, the legacy `getValueAtPath` at the same path returns the value |
| Paths.SingleTokenPaths | src/server/app.ts:530-537 | a one-token path is written under the unescaped token by the current helpers and the raw token by the legacy ones, and a key spelled like an escaped path is not found, with no fallback |
| Paths.EscapedKeyExample | src/server/app.ts:530-537 | `/a~1b` writes key `a/b` in the current helpers and key `a~1b` in the legacy ones, and reads a literal `a~1b` key only in the legacy ones |
| Paths.ArrayCreatedForIndex | src/server/app.ts:555-562 | writing `a/0/b` into `{}` makes `a` an array holding `{b: v}` |
| Paths.LegacyObjectForIndex | src/server/index.ts:352-361 | the legacy write of `/a/0/b` into `{}` makes `a` an object with key `"0"` |
| Paths.GetAtTokens | src/server/app.ts:508-521 | reading through one or more tokens finds something only inside a container; `Paths.SetGetRoundTrip` reads back what `setValueAtTokens` wrote and `Paths.SetInFrame` what it left alone |
| Paths.GetAtTokensAppend | src/server/app.ts:508-521 | reading along two token lists in turn is reading along their concatenation |
| Paths.GetValueAtPath | src/server/app.ts:523-538 | a falsy target reads undefined, `""` reads the whole target, and any other path reads at the pointer's tokens or at the raw split of the path; `Paths.PathRoundTrip` reads back what `setValueAtPath` wrote |
| Paths.PointerReadWins | src/server/app.ts:530-535 | a pointer path with an escape `~0` or `~1`, or one whose pointer reading is defined, reads at its pointer tokens |
| Paths.RawReadFallback | src/server/app.ts:530-537 | the result differs from the pointer reading only when the path parsed, the pointer reading is undefined and the path has no escape; exactly then the raw split is read |
| Paths.SetValueAtPath | src/server/app.ts:575-581 | the path `""` gives the value itself and any other path keeps the target's kind; `Paths.PathRoundTrip` reads the value back |
| Paths.LegacyGetValueAtPath | src/server/index.ts:365-381 | a falsy target reads undefined, `""` reads the whole target, and a non-empty path finds something only inside a container; `Paths.LegacyPathRoundTrip` reads back what the legacy write stored |
| Paths.LegacySetValueAtPath | src/server/index.ts:348-363 | the path `""` gives the value itself and any other path keeps the target's kind; `Paths.LegacyObjectForIndex` shows it never makes arrays |
| Resolve.Spread | src/server/app.ts:1376 | spreading an object copies it, spreading an array gives one index-keyed member per element, and anything else gives an object |
| Resolve.CurrentUnit | src/server/app.ts:1361 | the unit being resolved is the resolved unit so far, or `{}` when it is undefined or null |
| Resolve.ResolvedValue | src/server/app.ts:1361-1370 | a manual resolution settles on its value; a head choice settles on undefined when that head's unit is falsy or missing, and on the whole unit at the root path otherwise |
| Resolve.ApplyOne | src/server/app.ts:1360-1382 | one resolution changes only its own unit, adds that unit's id, and keeps unit ids distinct |
| Resolve.ApplyAll | src/server/app.ts:1358-1383 | the loop keeps unit ids distinct and adds exactly the ids the resolutions name |
| Resolve.ApplyAllConcat | src/server/app.ts:1360 | the resolutions are applied in the order given: two lists in turn are their concatenation |
| Resolve.UntouchedUnitKeepsMerged | src/server/app.ts:1358-1383 | a unit no resolution names keeps its merged value |
| Resolve.RootResolution | src/server/app.ts:1369-1373 | a root resolution stores the manual value verbatim, or the chosen head's whole unit, or undefined when that head lacks the unit |
| Resolve.PathResolution | src/server/app.ts:1369-1380 | after a resolution below the root whose settled value is defined, that value is readable at its path in the unit, provided every array on the path (`Paths.Writable` of the spread unit at the write tokens) meets an element token |
| Resolve.LastRootResolutionWins | src/server/app.ts:1360-1373 | a manual root resolution at the end fixes the unit whatever came before |
| Resolve.LastPathResolutionWins | src/server/app.ts:1360-1380 | the last resolution at a path decides what the path reads, whatever came before, when its settled value is defined and every array on the path (`Paths.Writable`) meets an element token |
| Resolve.EmptyResolutionsKeepOurs | src/server/app.ts:1354-1383 | an empty resolution list commits, and for every conflict, nested ones such as `/title` included, the committed unit reads the conflict's ours value along its route, as ours itself does |
| Resolve.RootConflictKeepsOurs | src/server/app.ts:1354-1383 | a conflict on a whole unit, such as a delete against an edit, commits the ours unit itself under an empty resolution list |
| Resolve.Decide | src/server/app.ts:1354-1383 | a preview, carrying the conflicts and the merged units, comes exactly when there are conflicts and no resolution list; an empty list, or no conflicts, commits the merged units unchanged |
| Repo.GuardedHead | src/server/app.ts:1163-1173 | without an expectation the head read earlier is used; with one, a missing branch is `BRANCH_NOT_FOUND`, and the guard passes exactly when the expected head is the current one, else `HEAD_CHANGED` with branch, expected and current head |
| Repo.MoveHead | src/server/app.ts:1207 | updating the head succeeds exactly for an existing branch and changes only that branch's head |
| Repo.CommitTx | src/server/app.ts:1162-1211 | a failed commit leaves the store unchanged, and a successful one returns the fresh id, now recorded |
| Repo.CommitOutcome | src/server/app.ts:1175-1207 | a commit succeeds exactly when the branch exists and any expected head is current; it then records the parent head and no second parent, snapshots exactly the branch's states, and moves only that head |
| Repo.StaleHeadRefused | src/server/app.ts:429-434 | a stale expected head yields `HEAD_CHANGED` naming the branch, the expected head and the current one, and writes nothing |
| Repo.CommitKeepsWellFormed | src/server/app.ts:1175-1183 | a commit keeps every parent and head pointing at an existing commit |
| Repo.GuardedRace | src/server/__tests__/write-api.test.ts:56-104 | of two commits expecting the same head, the second gets `HEAD_CHANGED` whose actual head is the first commit, and writes nothing |
| Repo.UnguardedRaceLosesCommit | src/server/app.ts:1163-1207 | two commits without an expected head, working from the same earlier read, both succeed and the first is not an ancestor of the new head |
| Repo.UnitsById | src/server/app.ts:1410-1416 | the resolved units are keyed by their own string `id`, every unit's id is a key, and this fails exactly when some unit has none |
| Repo.MergeCommitTx | src/server/app.ts:1385-1460 | a failed merge commit leaves the store unchanged, and a successful one returns the fresh id, now recorded |
| Repo.MergeCommitOutcome | src/server/app.ts:1400-1457 | a merge commit succeeds exactly when the guard passes, every unit has an id and the branch exists; it records parents (ours head, theirs head), snapshots exactly the resolved units, writes them over ours' states, and leaves other states and branches alone |
| Repo.MergeStaleHeadRefused | src/server/__tests__/write-api.test.ts:156-172 | a merge against a stale expected head yields `HEAD_CHANGED` with the current head and writes nothing |
| Repo.MergeKeepsWellFormed | src/server/app.ts:1400-1408 | a merge commit keeps every parent and head pointing at an existing commit |
| Repo.LegacyCommitIsUnguarded | src/server/index.ts:806-820 | on an existing branch the legacy commit ends where an unguarded transaction does |
| Repo.LegacyCommit | src/server/index.ts:806-820 | the record, whose parent is the head read earlier, and the snapshot of the branch's states are written whether or not the head then moves; it succeeds exactly for an existing branch and then moves only that head |
| Repo.LegacyMergeIsUnguarded | src/server/index.ts:954-976 | with valid units on an existing branch the legacy merge ends where an unguarded transaction does |
| Repo.LegacyMergeLeavesOrphan | src/server/index.ts:954-966 | a unit without an id fails the legacy merge after its commit exists, leaving a commit no head reaches, where the transaction writes nothing |
| Repo.LegacyMerge | src/server/index.ts:954-976 | the merge record with parents (ours head read earlier, theirs head) is always written; success comes exactly when every unit has an id and the branch exists, and moves the head; a unit without an id fails with no snapshot written and no head moved |

## Left out

- HTTP routing, request validation, status codes, authentication, tenants and pagination are not modelled. They are request plumbing around the core.
- The enriched conflict payload (unit summary, ref context, `pathTokens`) is not modelled. It is presentation only.
- World lookup and the `WORLD_NOT_FOUND` and `INVALID_INPUT` replies are not modelled. They happen before the modelled steps.
- `createBranch` and reads through refs are not modelled.
- JSON serialisation is not modelled.
  - Unit contents are stored as values, not as `JSON.stringify` text.
  - An `undefined` array entry, such as the hole `Merge.ArrayDropLeavesHole` exhibits, would be stored as `null` in the source. The model keeps `Undef`.
- Floating-point numbers and NaN are not modelled; numbers are integers.
- `isArrayIndex` follows `Number` coercion in the source, so it also accepts tokens such as `"-1"`, `"1.5"` or `"NaN"`. The model accepts canonical non-negative decimals up to 2^53 only.
- Decimal.ParseNatToString: between 2^53 and 10^21 the source accepts a rendering exactly when the nearest double prints back the same digits, so `"9007199254740994"` passes and `"9007199254740993"` does not. The model rejects every token above 2^53, because double rounding is not modelled. From 10^21 on, where `String` writes `"1e+21"`, the model agrees with the source (`Decimal.LongTokensRejected`).
- Json.Get: inherited names such as `constructor` and `toString` read as absent in the model. In the source a plain object's missing key reads what `Object.prototype` holds under that name (`src/core/merge.ts:18`, `src/core/merge.ts:71`, `src/core/merge.ts:108-110`, `src/server/app.ts:517`), so a unit id such as `constructor` merges differently. Prototype lookup is not modelled.
- Paths.FreshWritable: for the current helpers it needs every index token below 2^32 - 1 (`Paths.ElementIndices`). At or above that limit the source creates an array and then writes an array property (`Paths.PropertyIndex`), which is not modelled.
- Sparse-array holes and array properties such as `length` are not modelled. The source reads and writes a token that names no element (not an index, or an index from 2^32 - 1 on) on an array as an array property (`src/server/app.ts:517`, `src/server/app.ts:561-570`). Such a property reads back in memory but is dropped when the unit is serialised to JSON. The model reads `undefined` there and leaves the array unchanged on such a write.
- `Object.keys` lists integer-like keys first. The model keeps insertion order.
- Aliasing is not modelled. `{ ...currentUnit }` at `src/server/app.ts:1376` is a shallow copy, so nested writes also reach the merged and head snapshots. The model has value semantics.
- Duplicate unit ids in resolved contents are not modelled faithfully. When two resolved units carry the same `id`, the model keeps the later one for both snapshots and states. The source's snapshot order on read-back is unspecified.
- Timestamps (`createdAt`) are left out.
- Concurrency is modelled only as atomic steps in sequence. Interleavings inside a transaction depend on the database's isolation, and the model takes the `updateMany` recheck as always passing.
- Repo.CommitTx: a database failure of the unguarded head update is modelled as `RecordNotFound`. The source reports it as an unhandled error.
- Repo.MergeCommitTx: a resolved unit that is not an object with a string `id` is modelled as `InvalidUnit`. In the source it surfaces as a thrown `TypeError` or a database validation error.
- Paths.SetGetRoundTrip: holds only when every existing array on the path meets an element token (`Paths.Writable`). Otherwise the source writes an array property, which reads back in memory but is dropped when the unit is serialised. Array properties are not modelled.
- Resolve.PathResolution: stated only when the settled value is defined and `Paths.Writable(Spread(CurrentUnit(..)), Paths.WriteTokens(path), true)` holds. A write through an array with a token that names no element becomes an array property in the source, which is not modelled.
- Resolve.LastPathResolutionWins: stated under the same two conditions as `Resolve.PathResolution`, for the same reason.

## Findings

| source | as written | input that shows it | evidently intended | confidence | as-written member | corrected member |
|---|---|---|---|---|---|---|
| src/core/diff.ts:27-28 | `joinPath` appends the raw key, so change and conflict paths are not escaped | a unit whose `fields` has key `a/b`: its change path is `/fields/a/b`, the path of keys `a` then `b` | RFC 6901 escaping, `/fields/a~1b` and `/fields/x~0y`, as `src/core/__tests__/diff.test.ts:53` expects | high, not executed | Diff.RawPathOfSlashKey | Diff.PointerPathOfSlashKey |

The diff and merge models keep the raw path as the code builds it (`Change.Path`, `Conflict.Path`). They also carry the route, from which the corrected escaped path (`PointerPath`) is computed. `Diff.PointerPathRoundTrip` proves that the corrected path always decodes to the change's keys. `Diff.RawPathOfSlashKey` shows that the raw path does not. The same `joinPath` is used in `src/core/merge.ts:27-28`.

=== FILE: decimal.dfy ===
/**
 * Decimal rendering and recognition of array indices.
 *
 * `String(i)` renders an array index while building a path, and
 * `isArrayIndex` decides whether a path token addresses an array element.
 * The source's `isArrayIndex` is `String(Number(t)) === t`. Every integer up
 * to 2^53 is exact in a double and prints back digit for digit, so up to
 * there the test accepts exactly the canonical decimal form (no sign, no
 * leading zero except "0" itself). Above 2^53 the double is rounded, and
 * from 10^21 on `String` switches to exponent notation; the model accepts
 * no token above 2^53.
 */
module Decimal {

  predicate IsDigit(c: char) {
    '0' <= c <= '9'
  }

  function DigitChar(d: nat): (c: char)
    requires d < 10
    ensures IsDigit(c)
  {
    "0123456789"[d]
  }

  function DigitValue(c: char): (d: nat)
    requires IsDigit(c)
    ensures d < 10
  {
    (c as int - '0' as int) as nat
  }

  /** `String(n)` for a non-negative integer below 10^21, such as an array position. */
  function NatToString(n: nat): (s: string)
    decreases n
  {
    if n < 10 then [DigitChar(n)] else NatToString(n / 10) + [DigitChar(n % 10)]
  }

  /** 2^53, the largest of the run of integers that a double holds exactly. */
  const MaxExact: nat := 9007199254740992

  /** The canonical decimal form of a non-negative integer. */
  predicate IsCanonical(t: string) {
    && t != []
    && (forall i | 0 <= i < |t| :: IsDigit(t[i]))
    && (t[0] == '0' ==> |t| == 1)
  }

  /** `isArrayIndex(t)`: a canonical decimal that survives `Number` and `String` unchanged. */
  predicate IsArrayIndex(t: string) {
    IsCanonical(t) && ParseIndex(t) <= MaxExact
  }

  /** `Number(t)` for a token that `IsArrayIndex` accepts. */
  function ParseIndex(t: string): nat
    requires forall i | 0 <= i < |t| :: IsDigit(t[i])
    decreases |t|
  {
    if t == [] then 0 else ParseIndex(t[..|t| - 1]) * 10 + DigitValue(t[|t| - 1])
  }

  lemma DigitRoundTrip(d: nat)
    requires d < 10
    ensures DigitValue(DigitChar(d)) == d
  {
  }

  lemma {:induction false} NatToStringDigits(n: nat)
    ensures forall i | 0 <= i < |NatToString(n)| :: IsDigit(NatToString(n)[i])
    ensures NatToString(n) != []
    ensures NatToString(n)[0] == '0' ==> n == 0
    decreases n
  {
    if n >= 10 {
      NatToStringDigits(n / 10);
    }
  }

  /**
   * Rendering a number gives a canonical decimal that reads back as the
   * number, `Number(String(n)) == n`, and it passes `isArrayIndex` exactly
   * when the number is at most 2^53.
   */
  lemma {:induction false} ParseNatToString(n: nat)
    ensures IsCanonical(NatToString(n))
    ensures ParseIndex(NatToString(n)) == n
    ensures IsArrayIndex(NatToString(n)) <==> n <= MaxExact
    decreases n
  {
    NatToStringDigits(n);
    var s := NatToString(n);
    if n < 10 {
      DigitRoundTrip(n);
    } else {
      ParseNatToString(n / 10);
      assert s[..|s| - 1] == NatToString(n / 10);
      DigitRoundTrip(n % 10);
    }
  }

  /** A canonical index token is the rendering of the index it denotes: `String(Number(t)) == t`. */
  lemma {:induction false} NatToStringParse(t: string)
    requires IsCanonical(t)
    ensures NatToString(ParseIndex(t)) == t
    decreases |t|
  {
    if |t| == 1 {
      var d := DigitValue(t[0]);
      assert "0123456789"[d] == t[0];
    } else {
      var p := t[..|t| - 1];
      assert p[0] == t[0];
      assert IsCanonical(p);
      NatToStringParse(p);
      var d := DigitValue(t[|t| - 1]);
      var n := ParseIndex(t);
      assert n == ParseIndex(p) * 10 + d;
      assert p[0] != '0';
      NatToStringDigits(ParseIndex(p));
      assert ParseIndex(p) != 0;
      assert n / 10 == ParseIndex(p) && n % 10 == d;
      assert "0123456789"[d] == t[|t| - 1];
      assert t == p + [t[|t| - 1]];
    }
  }

  function Pow10(k: nat): (r: nat)
    ensures r >= 1
  {
    if k == 0 then 1 else 10 * Pow10(k - 1)
  }

  /** A canonical decimal of `k + 1` digits, other than "0", denotes at least 10^k. */
  lemma {:induction false} ParseIndexAtLeast(t: string)
    requires IsCanonical(t) && t[0] != '0'
    ensures ParseIndex(t) >= Pow10(|t| - 1)
    decreases |t|
  {
    if |t| > 1 {
      var p := t[..|t| - 1];
      assert p[0] == t[0];
      ParseIndexAtLeast(p);
    }
  }

  /**
   * A canonical decimal of 17 or more digits is above 2^53, so `isArrayIndex`
   * rejects it; `"1000000000000000000000"`, which `String(Number(t))` writes
   * as `"1e+21"`, is one.
   */
  lemma LongTokensRejected(t: string)
    requires IsCanonical(t) && |t| >= 17
    ensures !IsArrayIndex(t)
    ensures !IsArrayIndex("1000000000000000000000")
  {
    assert Pow10(16) == 10000000000000000 by {
      assert Pow10(4) == 10000;
      assert Pow10(8) == 100000000 by { Pow10Add(4, 4); }
      Pow10Add(8, 8);
    }
    ParseIndexAtLeast(t);
    Pow10Mono(16, |t| - 1);
    var e := "1000000000000000000000";
    assert IsCanonical(e) by {
      assert forall i | 0 <= i < |e| :: IsDigit(e[i]);
    }
    ParseIndexAtLeast(e);
    Pow10Mono(16, |e| - 1);
  }

  lemma {:induction false} Pow10Add(a: nat, b: nat)
    ensures Pow10(a + b) == Pow10(a) * Pow10(b)
    decreases b
  {
    if b > 0 {
      Pow10Add(a, b - 1);
    }
  }

  lemma {:induction false} Pow10Mono(a: nat, b: nat)
    requires a <= b
    ensures Pow10(a) <= Pow10(b)
    decreases b - a
  {
    if a < b {
      Pow10Mono(a, b - 1);
    }
  }
}

=== FILE: diff.dfy ===
/**
 * The structural diff of src/core/diff.ts: a recursive walk over two unit
 * maps that emits one change per leaf-level difference.
 */
module Diff {
  import opened Json
  import opened Routes
  import opened Wrappers
  import Pointer

  /** One difference. The path is the route's raw `joinPath` string. */
  datatype Change = Change(unitId: string, route: seq<Step>, from: Value, to: Value) {
    /** The path as `joinPath` builds it. */
    function Path(): string {
      RawPath(route)
    }

    /** The path as the RFC 6901 pointer the change is documented to carry. */
    function PointerPath(): string {
      PointerOf(route)
    }
  }

  function Max(a: nat, b: nat): nat {
    if a < b then b else a
  }

  /** What every emitted change satisfies: a real difference between two values that are not both arrays or both objects. */
  predicate IsLeafChange(c: Change) {
    && !Equal(c.from, c.to)
    && !(c.from.Arr? && c.to.Arr?)
    && !(c.from.Obj? && c.to.Obj?)
  }

  /** `diffValues(from, to, path, changes, unitId)`: the changes it pushes, in order. */
  function DiffValues(a: Value, b: Value, route: seq<Step>, unitId: string): (r: seq<Change>)
    ensures forall c | c in r :: c.unitId == unitId && IsLeafChange(c) && route <= c.route
    decreases Size(a) + Size(b), 1
  {
    if Equal(a, b) then []
    else if a.Arr? && b.Arr? then
      SizeOfArrays(a, b);
      DiffItems(a.items, b.items, 0, route, unitId)
    else if a.Obj? && b.Obj? then
      SizeOfObjects(a, b);
      DiffKeys(a.members, b.members, KeyUnion(a.members, b.members), 0, route, unitId)
    else [Change(unitId, route, a, b)]
  }

  /** The array loop: indices `i .. max(len(from), len(to)) - 1`. */
  function DiffItems(xs: seq<Value>, ys: seq<Value>, i: nat, route: seq<Step>, unitId: string): (r: seq<Change>)
    requires i <= Max(|xs|, |ys|)
    ensures forall c | c in r :: c.unitId == unitId && IsLeafChange(c) && route <= c.route
    decreases ItemsSize(xs) + ItemsSize(ys) + 1, Max(|xs|, |ys|) - i
  {
    if i == Max(|xs|, |ys|) then []
    else
      var here := DiffValues(At(xs, i), At(ys, i), route + [Index(i)], unitId);
      assert forall c | c in here :: route <= c.route by {
        forall c | c in here ensures route <= c.route {
          assert c.route[..|route| + 1][..|route|] == c.route[..|route|];
        }
      }
      here + DiffItems(xs, ys, i + 1, route, unitId)
  }

  /** The object loop over the key union, from position `j`. */
  function DiffKeys(am: seq<Member>, bm: seq<Member>, keys: seq<string>, j: nat, route: seq<Step>, unitId: string): (r: seq<Change>)
    requires j <= |keys|
    ensures forall c | c in r :: c.unitId == unitId && IsLeafChange(c) && route <= c.route
    decreases MembersSize(am) + MembersSize(bm) + 1, |keys| - j
  {
    if j == |keys| then []
    else
      var k := keys[j];
      var here := DiffValues(Get(am, k), Get(bm, k), route + [Key(k)], unitId);
      assert forall c | c in here :: route <= c.route by {
        forall c | c in here ensures route <= c.route {
          assert c.route[..|route| + 1][..|route|] == c.route[..|route|];
        }
      }
      here + DiffKeys(am, bm, keys, j + 1, route, unitId)
  }

  /** `diffUnits(fromUnits, toUnits)`. */
  function DiffUnits(fromUnits: seq<Member>, toUnits: seq<Member>): (r: seq<Change>)
    ensures forall c | c in r :: c.unitId in Keys(fromUnits) + Keys(toUnits) && IsLeafChange(c)
  {
    DiffEach(fromUnits, toUnits, KeyUnion(fromUnits, toUnits), 0)
  }

  function DiffEach(fromUnits: seq<Member>, toUnits: seq<Member>, ids: seq<string>, j: nat): (r: seq<Change>)
    requires j <= |ids|
    ensures forall c | c in r :: c.unitId in ids[j..] && IsLeafChange(c)
    decreases |ids| - j
  {
    if j == |ids| then []
    else
      var u := ids[j];
      DiffValues(Get(fromUnits, u), Get(toUnits, u), [], u) + DiffEach(fromUnits, toUnits, ids, j + 1)
  }

  /** The changes of one unit. */
  function ChangesOf(cs: seq<Change>, u: string): (r: seq<Change>)
    ensures forall c | c in r :: c in cs && c.unitId == u
    ensures forall c | c in cs && c.unitId == u :: c in r
  {
    if cs == [] then []
    else (if cs[0].unitId == u then [cs[0]] else []) + ChangesOf(cs[1..], u)
  }

  // ---------------------------------------------------------------------------
  // Properties.

  /** A value has no difference with itself. */
  lemma DiffSelf(v: Value, route: seq<Step>, unitId: string)
    ensures DiffValues(v, v, route, unitId) == []
  {
    EqualReflexive(v);
  }

  /** `diffUnits(U, U) == []`. */
  lemma DiffUnitsSelf(units: seq<Member>)
    ensures DiffUnits(units, units) == []
  {
    DiffEachSelf(units, KeyUnion(units, units), 0);
  }

  lemma {:induction false} DiffEachSelf(units: seq<Member>, ids: seq<string>, j: nat)
    requires j <= |ids|
    ensures DiffEach(units, units, ids, j) == []
    decreases |ids| - j
  {
    if j < |ids| {
      DiffSelf(Get(units, ids[j]), [], ids[j]);
      DiffEachSelf(units, ids, j + 1);
    }
  }

  /**
   * Each change holds exactly the sub-values reached in both inputs along
   * the keys and indices the recursion descended.
   */
  lemma {:induction false} DiffChangesAreSubvalues(a: Value, b: Value, route: seq<Step>, unitId: string)
    ensures ChangesBelow(DiffValues(a, b, route, unitId), route, a, b)
    decreases Size(a) + Size(b), 1
  {
    var cs := DiffValues(a, b, route, unitId);
    if Equal(a, b) {
      assert cs == [];
    } else if a.Arr? && b.Arr? {
      SizeOfArrays(a, b);
      assert cs == DiffItems(a.items, b.items, 0, route, unitId);
      DiffItemsSubvalues(a.items, b.items, 0, route, unitId);
    } else if a.Obj? && b.Obj? {
      SizeOfObjects(a, b);
      var keys := KeyUnion(a.members, b.members);
      assert cs == DiffKeys(a.members, b.members, keys, 0, route, unitId);
      DiffKeysSubvalues(a.members, b.members, keys, 0, route, unitId);
    } else {
      assert cs == [Change(unitId, route, a, b)];
      assert route[|route|..] == [];
    }
  }

  /** Each change carries what `a` and `b` hold along its route below `route`. */
  ghost predicate ChangesBelow(cs: seq<Change>, route: seq<Step>, a: Value, b: Value) {
    forall c | c in cs ::
      && |route| <= |c.route|
      && Navigate(a, c.route[|route|..]) == c.from
      && Navigate(b, c.route[|route|..]) == c.to
  }

  lemma SizeOfArrays(a: Value, b: Value)
    requires a.Arr? && b.Arr?
    ensures Size(a) + Size(b) == ItemsSize(a.items) + ItemsSize(b.items) + 2
  {
  }

  lemma SizeOfObjects(a: Value, b: Value)
    requires a.Obj? && b.Obj?
    ensures Size(a) + Size(b) == MembersSize(a.members) + MembersSize(b.members) + 2
  {
  }

  /** Changes found one step below `route` carry what the two values hold along their routes. */
  lemma LiftChanges(cs: seq<Change>, route: seq<Step>, s: Step, a: Value, b: Value)
    requires forall c | c in cs :: route + [s] <= c.route
    requires ChangesBelow(cs, route + [s], Navigate(a, [s]), Navigate(b, [s]))
    ensures ChangesBelow(cs, route, a, b)
  {
    forall c | c in cs
      ensures && |route| <= |c.route|
              && Navigate(a, c.route[|route|..]) == c.from
              && Navigate(b, c.route[|route|..]) == c.to
    {
      NavigatePast(a, route, s, c.route);
      NavigatePast(b, route, s, c.route);
    }
  }

  /** Subvalue facts of two change lists combine. */
  lemma ChangesConcat(cs: seq<Change>, ds: seq<Change>, route: seq<Step>, a: Value, b: Value)
    requires ChangesBelow(cs, route, a, b) && ChangesBelow(ds, route, a, b)
    ensures ChangesBelow(cs + ds, route, a, b)
  {
    forall c | c in cs + ds
      ensures && |route| <= |c.route|
              && Navigate(a, c.route[|route|..]) == c.from
              && Navigate(b, c.route[|route|..]) == c.to
    {
      if c in cs {
      } else {
        assert c in ds;
      }
    }
  }

  lemma {:induction false} DiffItemsSubvalues(xs: seq<Value>, ys: seq<Value>, i: nat, route: seq<Step>, unitId: string)
    requires i <= Max(|xs|, |ys|)
    ensures ChangesBelow(DiffItems(xs, ys, i, route, unitId), route, Arr(xs), Arr(ys))
    decreases ItemsSize(xs) + ItemsSize(ys) + 1, Max(|xs|, |ys|) - i
  {
    if i < Max(|xs|, |ys|) {
      var sub := route + [Index(i)];
      var here := DiffValues(At(xs, i), At(ys, i), sub, unitId);
      var later := DiffItems(xs, ys, i + 1, route, unitId);
      assert DiffItems(xs, ys, i, route, unitId) == here + later;
      DiffChangesAreSubvalues(At(xs, i), At(ys, i), sub, unitId);
      DiffItemsSubvalues(xs, ys, i + 1, route, unitId);
      NavigateIndex(xs, i);
      NavigateIndex(ys, i);
      LiftChanges(here, route, Index(i), Arr(xs), Arr(ys));
      ChangesConcat(here, later, route, Arr(xs), Arr(ys));
    }
  }

  lemma {:induction false} DiffKeysSubvalues(am: seq<Member>, bm: seq<Member>, keys: seq<string>, j: nat, route: seq<Step>, unitId: string)
    requires j <= |keys|
    ensures ChangesBelow(DiffKeys(am, bm, keys, j, route, unitId), route, Obj(am), Obj(bm))
    decreases MembersSize(am) + MembersSize(bm) + 1, |keys| - j
  {
    if j < |keys| {
      var k := keys[j];
      var sub := route + [Key(k)];
      var here := DiffValues(Get(am, k), Get(bm, k), sub, unitId);
      var later := DiffKeys(am, bm, keys, j + 1, route, unitId);
      assert DiffKeys(am, bm, keys, j, route, unitId) == here + later;
      DiffChangesAreSubvalues(Get(am, k), Get(bm, k), sub, unitId);
      DiffKeysSubvalues(am, bm, keys, j + 1, route, unitId);
      NavigateKey(am, k);
      NavigateKey(bm, k);
      LiftChanges(here, route, Key(k), Obj(am), Obj(bm));
      ChangesConcat(here, later, route, Obj(am), Obj(bm));
    }
  }

  /**
   * For values as `JSON.parse` produces them, the diff is empty exactly when
   * the values are deep-equal. (An array holding undefined is the exception
   * the requirement excludes: `[undefined]` and `[]` differ but yield no change.)
   */
  lemma {:induction false} DiffEmptyIffEqual(a: Value, b: Value, route: seq<Step>, unitId: string)
    requires Defined(a) && Defined(b)
    ensures DiffValues(a, b, route, unitId) == [] <==> Equal(a, b)
    decreases Size(a) + Size(b), 1
  {
    if Equal(a, b) {
    } else if a.Arr? && b.Arr? {
      var xs, ys := a.items, b.items;
      var i: nat;
      if |xs| == |ys| {
        i :| 0 <= i < |xs| && !Equal(At(xs, i), At(ys, i));
      } else {
        i := if |xs| < |ys| then |xs| else |ys|;
        assert !Equal(At(xs, i), At(ys, i));
      }
      DiffItemsNonEmpty(xs, ys, 0, i, route, unitId);
    } else if a.Obj? && b.Obj? {
      var am, bm := a.members, b.members;
      var k :| k in Keys(am) + Keys(bm) && !Equal(Get(am, k), Get(bm, k));
      var keys := KeyUnion(am, bm);
      var j :| 0 <= j < |keys| && keys[j] == k;
      DiffKeysNonEmpty(am, bm, keys, 0, j, route, unitId);
    }
  }

  lemma DefinedAt(xs: seq<Value>, i: nat)
    requires Defined(Arr(xs))
    ensures Defined(At(xs, i))
    ensures i < |xs| ==> At(xs, i) != Undef
  {
  }

  lemma DefinedGet(ms: seq<Member>, k: string)
    requires Defined(Obj(ms))
    ensures Defined(Get(ms, k))
    ensures k in Keys(ms) ==> Get(ms, k) != Undef
  {
    var i := IndexOfKey(ms, k);
    if i < |ms| {
      assert ms[i].val != Undef;
    }
  }

  lemma {:induction false} DiffItemsNonEmpty(xs: seq<Value>, ys: seq<Value>, i: nat, w: nat, route: seq<Step>, unitId: string)
    requires Defined(Arr(xs)) && Defined(Arr(ys))
    requires i <= w < Max(|xs|, |ys|)
    requires !Equal(At(xs, w), At(ys, w))
    ensures DiffItems(xs, ys, i, route, unitId) != []
    decreases ItemsSize(xs) + ItemsSize(ys) + 1, Max(|xs|, |ys|) - i
  {
    if i == w {
      DefinedAt(xs, w);
      DefinedAt(ys, w);
      DiffEmptyIffEqual(At(xs, w), At(ys, w), route + [Index(w)], unitId);
    } else {
      DiffItemsNonEmpty(xs, ys, i + 1, w, route, unitId);
    }
  }

  lemma {:induction false} DiffKeysNonEmpty(am: seq<Member>, bm: seq<Member>, keys: seq<string>, j: nat, w: nat, route: seq<Step>, unitId: string)
    requires Defined(Obj(am)) && Defined(Obj(bm))
    requires j <= w < |keys|
    requires !Equal(Get(am, keys[w]), Get(bm, keys[w]))
    ensures DiffKeys(am, bm, keys, j, route, unitId) != []
    decreases MembersSize(am) + MembersSize(bm) + 1, |keys| - j
  {
    var k := keys[j];
    var here := DiffValues(Get(am, k), Get(bm, k), route + [Key(k)], unitId);
    assert DiffKeys(am, bm, keys, j, route, unitId) == here + DiffKeys(am, bm, keys, j + 1, route, unitId);
    if j == w {
      DefinedGet(am, k);
      DefinedGet(bm, k);
      DiffEmptyIffEqual(Get(am, k), Get(bm, k), route + [Key(k)], unitId);
    } else {
      DiffKeysNonEmpty(am, bm, keys, j + 1, w, route, unitId);
    }
  }

  /** The array walk covers every index below the longer length: each index's changes all appear. */
  lemma {:induction false} DiffItemsCoversIndices(xs: seq<Value>, ys: seq<Value>, i: nat, route: seq<Step>, unitId: string)
    requires i <= Max(|xs|, |ys|)
    ensures forall w, c | i <= w < Max(|xs|, |ys|) && c in DiffValues(At(xs, w), At(ys, w), route + [Index(w)], unitId) ::
      c in DiffItems(xs, ys, i, route, unitId)
    decreases Max(|xs|, |ys|) - i
  {
    if i < Max(|xs|, |ys|) {
      DiffItemsCoversIndices(xs, ys, i + 1, route, unitId);
    }
  }

  /** Within `diffUnits`, the changes of one unit are that unit's own `diffValues` from the root. */
  lemma DiffUnitsOfUnit(fromUnits: seq<Member>, toUnits: seq<Member>, u: string)
    ensures ChangesOf(DiffUnits(fromUnits, toUnits), u) ==
      if u in Keys(fromUnits) + Keys(toUnits) then DiffValues(Get(fromUnits, u), Get(toUnits, u), [], u) else []
  {
    var ids := KeyUnion(fromUnits, toUnits);
    if u in Keys(fromUnits) + Keys(toUnits) {
      var j :| 0 <= j < |ids| && ids[j] == u;
      DiffEachOfUnit(fromUnits, toUnits, ids, 0, u, j);
    } else {
      DiffEachOfOtherUnit(fromUnits, toUnits, ids, 0, u);
    }
  }

  lemma {:induction false} ChangesOfConcat(x: seq<Change>, y: seq<Change>, u: string)
    ensures ChangesOf(x + y, u) == ChangesOf(x, u) + ChangesOf(y, u)
  {
    if x != [] {
      assert (x + y)[1..] == x[1..] + y;
      ChangesOfConcat(x[1..], y, u);
    } else {
      assert x + y == y;
    }
  }

  lemma {:induction false} ChangesOfOwn(cs: seq<Change>, u: string)
    requires forall c | c in cs :: c.unitId == u
    ensures ChangesOf(cs, u) == cs
  {
    if cs != [] {
      ChangesOfOwn(cs[1..], u);
    }
  }

  lemma {:induction false} ChangesOfNone(cs: seq<Change>, u: string)
    requires forall c | c in cs :: c.unitId != u
    ensures ChangesOf(cs, u) == []
  {
    if cs != [] {
      ChangesOfNone(cs[1..], u);
    }
  }

  lemma {:induction false} DiffEachOfUnit(f: seq<Member>, t: seq<Member>, ids: seq<string>, j: nat, u: string, w: nat)
    requires Distinct(ids)
    requires j <= w < |ids| && ids[w] == u
    ensures ChangesOf(DiffEach(f, t, ids, j), u) == DiffValues(Get(f, u), Get(t, u), [], u)
    decreases |ids| - j
  {
    var here := DiffValues(Get(f, ids[j]), Get(t, ids[j]), [], ids[j]);
    ChangesOfConcat(here, DiffEach(f, t, ids, j + 1), u);
    if j == w {
      ChangesOfOwn(here, u);
      DiffEachOfOtherUnit(f, t, ids, j + 1, u);
    } else {
      ChangesOfNone(here, u);
      DiffEachOfUnit(f, t, ids, j + 1, u, w);
    }
  }

  lemma {:induction false} DiffEachOfOtherUnit(f: seq<Member>, t: seq<Member>, ids: seq<string>, j: nat, u: string)
    requires j <= |ids|
    requires u !in ids[j..]
    ensures ChangesOf(DiffEach(f, t, ids, j), u) == []
  {
    ChangesOfNone(DiffEach(f, t, ids, j), u);
  }

  /**
   * A unit present on one side only gives exactly one change, at the empty
   * path, with undefined on the missing side.
   */
  lemma OneSidedUnit(fromUnits: seq<Member>, toUnits: seq<Member>, u: string)
    requires (u in Keys(fromUnits) && u !in Keys(toUnits) && Get(fromUnits, u) != Undef)
          || (u !in Keys(fromUnits) && u in Keys(toUnits) && Get(toUnits, u) != Undef)
    ensures ChangesOf(DiffUnits(fromUnits, toUnits), u) == [Change(u, [], Get(fromUnits, u), Get(toUnits, u))]
    ensures Get(fromUnits, u) == Undef || Get(toUnits, u) == Undef
    ensures Change(u, [], Get(fromUnits, u), Get(toUnits, u)).Path() == ""
  {
    DiffUnitsOfUnit(fromUnits, toUnits, u);
  }

  // ---------------------------------------------------------------------------
  // Raw paths versus pointer paths.

  /**
   * As written, a key holding `/` yields a path that reads back as more
   * tokens: the change to key `a/b` under `f` is reported at `/f/a/b`, the
   * path of key `b` under key `a` under `f`, and that path decodes to three
   * tokens rather than to the change's two keys.
   */
  lemma RawPathOfSlashKeyAt(f: string, a: string, b: string)
    requires '/' !in f && '/' !in a && '/' !in b
    requires '~' !in f && '~' !in a && '~' !in b
    ensures RawPath([Key(f), Key(a + "/" + b)]) == RawPath([Key(f), Key(a), Key(b)])
    ensures Pointer.FromPointer(RawPath([Key(f), Key(a + "/" + b)])) == Ok([f, a, b])
    ensures Pointer.FromPointer(RawPath([Key(f), Key(a + "/" + b)])) != Ok(Tokens([Key(f), Key(a + "/" + b)]))
  {
    var x := "/" + f + "/";
    RawPathTwoKeys(f, a + "/" + b);
    RawPathThreeKeys(f, a, b);
    Assoc(x, a + "/", b);
    Assoc(x, a, "/");
    assert RawPath([Key(f), Key(a + "/" + b)]) == "/" + f + "/" + a + "/" + b;
    Pointer.EscapePlain(f);
    Pointer.EscapePlain(a);
    Pointer.EscapePlain(b);
    Pointer.ToPointerThree(f, a, b);
    Pointer.FromToPointer([f, a, b]);
    assert |Tokens([Key(f), Key(a + "/" + b)])| == 2;
  }

  /** The instance of the repository's test: field `a/b` under `fields`. */
  lemma RawPathOfSlashKey()
    ensures Change("unitA", [Key("fields"), Key("a/b")], Num(1), Num(2)).Path() == "/" + "fields" + "/" + "a" + "/" + "b"
    ensures RawPath([Key("fields"), Key("a/b")]) == RawPath([Key("fields"), Key("a"), Key("b")])
    ensures Pointer.FromPointer(Change("unitA", [Key("fields"), Key("a/b")], Num(1), Num(2)).Path()) == Ok(["fields", "a", "b"])
  {
    assert "a/b" == "a" + "/" + "b";
    RawPathOfSlashKeyAt("fields", "a", "b");
    RawPathThreeKeys("fields", "a", "b");
  }

  /**
   * The corrected path: the escaped pointer of the route's tokens. It reads
   * back as exactly those tokens, so distinct routes get distinct paths.
   */
  lemma PointerPathRoundTrip(c: Change)
    ensures Pointer.FromPointer(c.PointerPath()) == Ok(Tokens(c.route))
  {
    PointerOfRoundTrip(c.route);
  }

  /** The corrected path of a field under `fields`. */
  lemma PointerPathUnderFields(k: string)
    ensures Change("unitA", [Key("fields"), Key(k)], Num(1), Num(2)).PointerPath() == "/" + "fields" + "/" + Pointer.EscapeToken(k)
  {
    PointerOfTwoKeys("fields", k);
    Pointer.EscapePlain("fields");
  }

  /** The corrected paths of the fields `a/b` and `x~y`. */
  lemma PointerPathOfSlashKey()
    ensures Change("unitA", [Key("fields"), Key("a/b")], Num(1), Num(2)).PointerPath() == "/" + "fields" + "/" + "a~1b"
    ensures Change("unitA", [Key("fields"), Key("x~y")], Num(1), Num(2)).PointerPath() == "/" + "fields" + "/" + "x~0y"
  {
    Pointer.EscapeExamples();
    PointerPathUnderFields("a/b");
    PointerPathUnderFields("x~y");
  }
}

=== FILE: graph.dfy ===
/**
 * The commit graph walks of src/repo/commitRepo.ts. The commit table is a
 * finite map from id to the two optional parent ids; an id without a
 * record has no parents, as a `findUnique` returning null does.
 */
module CommitGraph {
  import opened Wrappers

  type CommitId = string

  datatype Parents = Parents(first: Option<CommitId>, second: Option<CommitId>)

  type Graph = map<CommitId, Parents>

  /** A parent id the walks follow: present and not the empty string. */
  function Followed(p: Option<CommitId>): (r: seq<CommitId>)
    ensures forall x | x in r :: x != ""
    ensures r == [] <==> p.None? || p.value == ""
  {
    if p.Some? && p.value != "" then [p.value] else []
  }

  /** The ids pushed after visiting `c`: `parentCommitId`, then `parentCommitId2`. */
  function ParentList(g: Graph, c: CommitId): (r: seq<CommitId>)
    ensures forall x | x in r :: x != ""
    ensures c !in g ==> r == []
  {
    if c in g then Followed(g[c].first) + Followed(g[c].second) else []
  }

  /** Each step of the path goes from a commit to one of its followed parents. */
  predicate IsPath(g: Graph, path: seq<CommitId>) {
    |path| >= 1 && forall i | 0 <= i < |path| - 1 :: path[i + 1] in ParentList(g, path[i])
  }

  /** `c` is `a` or an ancestor of `a`, `a` being a real id. */
  ghost predicate Reachable(g: Graph, a: CommitId, c: CommitId) {
    a != "" && exists path | IsPath(g, path) :: path[0] == a && path[|path| - 1] == c
  }

  /** Every id a walk from `start` can meet. */
  function Universe(g: Graph, start: CommitId): set<CommitId> {
    {start} + set c, p | c in g && p in ParentList(g, c) :: p
  }

  predicate Closed(g: Graph, s: set<CommitId>) {
    forall c, p | c in s && p in ParentList(g, c) :: p in s
  }

  /** Every followed parent of a member of `s` is in `s` or still pending. */
  predicate ClosedBut(g: Graph, s: set<CommitId>, pending: seq<CommitId>) {
    forall c | c in s :: Covered(ParentList(g, c), s, pending)
  }

  predicate Covered(ps: seq<CommitId>, s: set<CommitId>, pending: seq<CommitId>) {
    forall p | p in ps :: p in s || p in pending
  }

  /** `rest` is what remains of `before` once one copy of `current` is taken off. */
  predicate Popped(before: seq<CommitId>, rest: seq<CommitId>, current: CommitId) {
    && current in before
    && (forall x | x in before :: x in rest || x == current)
    && (forall x | x in rest :: x in before)
  }

  lemma SkipKeeps(g: Graph, s: set<CommitId>, before: seq<CommitId>, rest: seq<CommitId>, current: CommitId)
    requires ClosedBut(g, s, before) && Popped(before, rest, current)
    requires current == "" || current in s
    ensures ClosedBut(g, s, rest)
  {
    forall c | c in s ensures Covered(ParentList(g, c), s, rest) {
      assert Covered(ParentList(g, c), s, before);
    }
  }

  lemma VisitKeeps(g: Graph, s: set<CommitId>, before: seq<CommitId>, rest: seq<CommitId>, current: CommitId)
    requires ClosedBut(g, s, before) && Popped(before, rest, current)
    ensures ClosedBut(g, s + {current}, rest + ParentList(g, current))
  {
    var s', pending' := s + {current}, rest + ParentList(g, current);
    forall c | c in s' ensures Covered(ParentList(g, c), s', pending') {
      if c != current {
        assert Covered(ParentList(g, c), s, before);
      }
    }
  }

  lemma SplitLast(xs: seq<CommitId>)
    requires xs != []
    ensures Popped(xs, xs[..|xs| - 1], xs[|xs| - 1])
  {
    assert xs == xs[..|xs| - 1] + [xs[|xs| - 1]];
  }

  lemma SplitFirst(xs: seq<CommitId>)
    requires xs != []
    ensures Popped(xs, xs[1..], xs[0])
  {
    assert xs == [xs[0]] + xs[1..];
  }

  predicate NoDuplicates(xs: seq<CommitId>) {
    forall i, j | 0 <= i < j < |xs| :: xs[i] != xs[j]
  }

  lemma ReachSelf(g: Graph, a: CommitId)
    requires a != ""
    ensures Reachable(g, a, a)
  {
    assert IsPath(g, [a]);
  }

  lemma ReachStep(g: Graph, a: CommitId, c: CommitId, p: CommitId)
    requires Reachable(g, a, c) && p in ParentList(g, c)
    ensures Reachable(g, a, p)
  {
    var path :| IsPath(g, path) && path[0] == a && path[|path| - 1] == c;
    var longer := path + [p];
    assert IsPath(g, longer) by {
      forall i | 0 <= i < |longer| - 1 ensures longer[i + 1] in ParentList(g, longer[i]) {
        if i < |path| - 1 {
          assert longer[i] == path[i] && longer[i + 1] == path[i + 1];
        }
      }
    }
    assert longer[0] == a && longer[|longer| - 1] == p;
  }

  /** A set closed under parents holds everything reachable from its members. */
  lemma ClosedHoldsReachable(g: Graph, s: set<CommitId>, a: CommitId, c: CommitId)
    requires Closed(g, s) && a in s && Reachable(g, a, c)
    ensures c in s
  {
    var path :| IsPath(g, path) && path[0] == a && path[|path| - 1] == c;
    var i := 0;
    while i < |path| - 1
      invariant 0 <= i < |path|
      invariant path[i] in s
    {
      i := i + 1;
    }
  }

  lemma InUniverse(g: Graph, start: CommitId, c: CommitId, p: CommitId)
    requires p in ParentList(g, c)
    ensures p in Universe(g, start)
  {
    assert c in g;
  }

  /** Everything the walk holds or has pending lies in the universe. */
  predicate Bounded(u: set<CommitId>, r: set<CommitId>, pending: seq<CommitId>) {
    r <= u && forall x | x in pending :: x in u
  }

  /** Everything the walk holds or has pending (bar an empty id) is reachable from `start`. */
  ghost predicate Sound(g: Graph, start: CommitId, r: set<CommitId>, pending: seq<CommitId>) {
    && (forall x | x in pending :: x == "" || Reachable(g, start, x))
    && (forall c | c in r :: Reachable(g, start, c))
  }

  /** `order` lists the members of `r` once each. */
  predicate Lists(order: seq<CommitId>, r: set<CommitId>) {
    && NoDuplicates(order)
    && (forall c | c in r :: c in order)
    && (forall c | c in order :: c in r)
  }

  /** What a walk from `start` keeps true between iterations. */
  ghost predicate WalkState(g: Graph, start: CommitId, u: set<CommitId>, r: set<CommitId>, order: seq<CommitId>, pending: seq<CommitId>) {
    && Bounded(u, r, pending)
    && Sound(g, start, r, pending)
    && ClosedBut(g, r, pending)
    && (start != "" ==> start in r || start in pending)
    && Lists(order, r)
  }

  lemma WalkSkip(g: Graph, start: CommitId, u: set<CommitId>, r: set<CommitId>, order: seq<CommitId>, before: seq<CommitId>, rest: seq<CommitId>, current: CommitId)
    requires WalkState(g, start, u, r, order, before) && Popped(before, rest, current)
    requires current == "" || current in r
    ensures WalkState(g, start, u, r, order, rest)
  {
    SkipKeeps(g, r, before, rest, current);
  }

  lemma WalkVisit(g: Graph, start: CommitId, u: set<CommitId>, r: set<CommitId>, order: seq<CommitId>, before: seq<CommitId>, rest: seq<CommitId>, current: CommitId)
    requires u == Universe(g, start)
    requires WalkState(g, start, u, r, order, before) && Popped(before, rest, current)
    requires current != "" && current !in r
    ensures WalkState(g, start, u, r + {current}, order + [current], rest + ParentList(g, current))
    ensures |u - (r + {current})| < |u - r|
  {
    VisitState(g, start, u, r, order, before, rest, current);
    assert current in u;
    VisitShrinks(u, r, current);
  }

  lemma VisitShrinks(u: set<CommitId>, r: set<CommitId>, current: CommitId)
    requires current in u && current !in r
    ensures |u - (r + {current})| < |u - r|
  {
    assert u - (r + {current}) == (u - r) - {current};
  }

  lemma VisitState(g: Graph, start: CommitId, u: set<CommitId>, r: set<CommitId>, order: seq<CommitId>, before: seq<CommitId>, rest: seq<CommitId>, current: CommitId)
    requires u == Universe(g, start)
    requires WalkState(g, start, u, r, order, before) && Popped(before, rest, current)
    requires current != "" && current !in r
    ensures WalkState(g, start, u, r + {current}, order + [current], rest + ParentList(g, current))
  {
    var r', pending' := r + {current}, rest + ParentList(g, current);
    assert Bounded(u, r', pending') by {
      VisitBounded(g, start, u, r, before, rest, current);
    }
    assert Sound(g, start, r', pending') by {
      VisitSound(g, start, r, before, rest, current);
    }
    assert ClosedBut(g, r', pending') by {
      VisitKeeps(g, r, before, rest, current);
    }
    assert Lists(order + [current], r') by {
      VisitLists(order, r, current);
    }
    assert start != "" ==> start in r' || start in pending' by {
      if start != "" && start !in r' {
        assert start in before && start != current;
      }
    }
  }

  lemma VisitBounded(g: Graph, start: CommitId, u: set<CommitId>, r: set<CommitId>, before: seq<CommitId>, rest: seq<CommitId>, current: CommitId)
    requires u == Universe(g, start)
    requires Bounded(u, r, before) && Popped(before, rest, current)
    ensures Bounded(u, r + {current}, rest + ParentList(g, current))
  {
    forall x | x in rest + ParentList(g, current) ensures x in u {
      if x in ParentList(g, current) {
        InUniverse(g, start, current, x);
      }
    }
  }

  lemma VisitSound(g: Graph, start: CommitId, r: set<CommitId>, before: seq<CommitId>, rest: seq<CommitId>, current: CommitId)
    requires Sound(g, start, r, before) && Popped(before, rest, current)
    requires current != ""
    ensures Sound(g, start, r + {current}, rest + ParentList(g, current))
  {
    forall x | x in rest + ParentList(g, current) ensures x == "" || Reachable(g, start, x) {
      if x in ParentList(g, current) {
        ReachStep(g, start, current, x);
      }
    }
  }

  lemma VisitLists(order: seq<CommitId>, r: set<CommitId>, current: CommitId)
    requires Lists(order, r) && current !in r
    ensures Lists(order + [current], r + {current})
  {
  }

  /**
   * `getCommitAncestors(start)`: a stack walk that pops the last id, skips
   * empty or visited ids, and pushes the followed parents of the rest.
   * Returns the visited set and the order of visits.
   */
  method Ancestors(g: Graph, start: CommitId) returns (r: set<CommitId>, order: seq<CommitId>)
    ensures start == "" ==> r == {}
    ensures start != "" ==> start in r
    ensures Closed(g, r)
    ensures forall c :: c in r <==> Reachable(g, start, c)
    ensures NoDuplicates(order)
    ensures forall c :: c in r <==> c in order
  {
    r, order := {}, [];
    var stack := [start];
    ghost var u := Universe(g, start);
    WalkStart(g, start, u);
    while |stack| > 0
      invariant WalkState(g, start, u, r, order, stack)
      decreases |u - r|, |stack|
    {
      var current := stack[|stack| - 1];
      ghost var before := stack;
      SplitLast(stack);
      stack := stack[..|stack| - 1];
      if current == "" || current in r {
        WalkSkip(g, start, u, r, order, before, stack, current);
        continue;
      }
      WalkVisit(g, start, u, r, order, before, stack, current);
      r := r + {current};
      order := order + [current];
      stack := stack + ParentList(g, current);
    }
    WalkDone(g, start, u, r, order);
  }

  lemma WalkStart(g: Graph, start: CommitId, u: set<CommitId>)
    requires u == Universe(g, start)
    ensures WalkState(g, start, u, {}, [], [start])
  {
    if start != "" {
      ReachSelf(g, start);
    }
  }

  /** A finished walk holds exactly the commits reachable from its start. */
  lemma WalkDone(g: Graph, start: CommitId, u: set<CommitId>, r: set<CommitId>, order: seq<CommitId>)
    requires WalkState(g, start, u, r, order, [])
    ensures start == "" ==> r == {}
    ensures start != "" ==> start in r
    ensures Closed(g, r)
    ensures forall c :: c in r <==> Reachable(g, start, c)
    ensures NoDuplicates(order)
    ensures forall c :: c in r <==> c in order
  {
    assert ClosedBut(g, r, []);
    forall c | Reachable(g, start, c) ensures c in r {
      ClosedHoldsReachable(g, r, start, c);
    }
  }

  // ---------------------------------------------------------------------------
  // Distances from a commit.

  /** The followed parents of the members of `s`. */
  function Next(g: Graph, s: set<CommitId>): set<CommitId> {
    set c, p | c in s && p in ParentList(g, c) :: p
  }

  lemma NextHas(g: Graph, s: set<CommitId>, c: CommitId, p: CommitId)
    requires c in s && p in ParentList(g, c)
    ensures p in Next(g, s)
  {
  }

  lemma NextFrom(g: Graph, s: set<CommitId>, p: CommitId) returns (c: CommitId)
    requires p in Next(g, s)
    ensures c in s && p in ParentList(g, c)
  {
    c :| c in s && p in ParentList(g, c);
  }

  /** The ids reached from `start` in exactly `n` parent steps. */
  function Level(g: Graph, start: CommitId, n: nat): set<CommitId>
    decreases n
  {
    if n == 0 then {start} else Next(g, Level(g, start, n - 1))
  }

  /** Whatever is met in some number of steps is reachable. */
  lemma {:induction false} LevelReachable(g: Graph, start: CommitId, n: nat, c: CommitId)
    requires start != "" && c in Level(g, start, n)
    ensures Reachable(g, start, c)
    decreases n
  {
    if n == 0 {
      ReachSelf(g, start);
    } else {
      var p := NextFrom(g, Level(g, start, n - 1), c);
      LevelReachable(g, start, n - 1, p);
      ReachStep(g, start, p, c);
    }
  }

  /** Whatever is reachable is met in some number of steps. */
  lemma ReachableLevel(g: Graph, start: CommitId, c: CommitId)
    requires Reachable(g, start, c)
    ensures exists n: nat :: c in Level(g, start, n)
  {
    var path :| IsPath(g, path) && path[0] == start && path[|path| - 1] == c;
    var i := 0;
    while i < |path| - 1
      invariant 0 <= i < |path|
      invariant path[i] in Level(g, start, i)
    {
      assert path[i + 1] in ParentList(g, path[i]);
      NextHas(g, Level(g, start, i), path[i], path[i + 1]);
      i := i + 1;
    }
  }

  /** No step leads to the empty id. */
  lemma LevelIds(g: Graph, start: CommitId, n: nat, c: CommitId)
    requires start != "" && c in Level(g, start, n)
    ensures c != ""
  {
    if n > 0 {
      var p := NextFrom(g, Level(g, start, n - 1), c);
    }
  }

  /** `c` is met `n` steps from `b`, and nothing met in fewer steps from `b` is an ancestor of `a`. */
  ghost predicate NearestAt(g: Graph, a: CommitId, b: CommitId, c: CommitId, n: nat) {
    c in Level(g, b, n) && forall m: nat, x | m < n && x in Level(g, b, m) :: !Reachable(g, a, x)
  }

  /** `c` is a common ancestor of `a` and `b` as few parent steps from `b` as any. */
  ghost predicate Nearest(g: Graph, a: CommitId, b: CommitId, c: CommitId) {
    exists n: nat :: NearestAt(g, a, b, c, n)
  }

  /** The breadth-first queue with each entry's distance from `b`: `id` is queued at distance `d`. */
  predicate Queued(queue: seq<CommitId>, dist: seq<nat>, id: CommitId, d: nat) {
    exists i | 0 <= i < |queue| && i < |dist| :: queue[i] == id && dist[i] == d
  }

  function Labels(n: nat, d: nat): (r: seq<nat>)
    ensures |r| == n && forall i | 0 <= i < n :: r[i] == d
  {
    seq(n, _ => d)
  }

  /** Distances in ascending order, each `d` or `d + 1`. */
  predicate Banded(dist: seq<nat>, d: nat) {
    && (forall i | 0 <= i < |dist| :: d <= dist[i] <= d + 1)
    && (forall i, j | 0 <= i < j < |dist| :: dist[i] <= dist[j])
  }

  /** When the front distance is `d + 1`, every distance is. */
  lemma BandedAdvance(dist: seq<nat>, d: nat)
    requires Banded(dist, d) && dist != [] && dist[0] == d + 1
    ensures Banded(dist, d + 1) && forall i | 0 <= i < |dist| :: dist[i] == d + 1
  {
    forall i | 0 <= i < |dist| ensures dist[i] == d + 1 {
      if i > 0 {
        assert dist[0] <= dist[i];
      }
    }
  }

  /**
   * What the breadth-first walk from `b` keeps true while it works through
   * distance `d`: the queue is sorted by distance, holding distances `d` and
   * `d + 1` only; everything nearer than `d` is visited; everything at `d`
   * is visited or still queued at `d`.
   */
  ghost predicate Layered(g: Graph, b: CommitId, d: nat, visited: set<CommitId>, queue: seq<CommitId>, dist: seq<nat>) {
    && |dist| == |queue|
    && (forall i | 0 <= i < |queue| :: queue[i] in Level(g, b, dist[i]))
    && Banded(dist, d)
    && Below(g, b, d, visited)
    && Frontier(g, b, d, visited, queue, dist)
  }

  /** Everything fewer than `d` steps from `b` is visited. */
  ghost predicate Below(g: Graph, b: CommitId, d: nat, visited: set<CommitId>) {
    forall m: nat, c | m < d && c in Level(g, b, m) :: c in visited
  }

  /** Everything `d` steps from `b` is visited or queued at distance `d`. */
  ghost predicate Frontier(g: Graph, b: CommitId, d: nat, visited: set<CommitId>, queue: seq<CommitId>, dist: seq<nat>) {
    forall c | c in Level(g, b, d) :: c in visited || Queued(queue, dist, c, d)
  }

  lemma LayeredStart(g: Graph, b: CommitId)
    ensures Layered(g, b, 0, {}, [b], [0])
  {
    var queue: seq<CommitId>, dist: seq<nat> := [b], [0];
    assert queue[0] == b && dist[0] == 0;
    assert Queued(queue, dist, b, 0);
  }

  /** With nothing queued at distance `d`, everything at `d` is visited. */
  lemma BelowAdvance(g: Graph, b: CommitId, d: nat, visited: set<CommitId>, queue: seq<CommitId>, dist: seq<nat>)
    requires Below(g, b, d, visited) && Frontier(g, b, d, visited, queue, dist)
    requires forall i | 0 <= i < |dist| :: dist[i] == d + 1
    ensures Below(g, b, d + 1, visited)
  {
    forall c | c in Level(g, b, d) ensures c in visited {
      assert !Queued(queue, dist, c, d);
    }
  }

  /** Once everything at `d` is visited, the parents of those ids are visited or queued. */
  lemma FrontierAdvance(g: Graph, b: CommitId, d: nat, visited: set<CommitId>, queue: seq<CommitId>, dist: seq<nat>)
    requires Below(g, b, d + 1, visited) && ClosedBut(g, visited, queue)
    requires |dist| == |queue| && forall i | 0 <= i < |dist| :: dist[i] == d + 1
    ensures Frontier(g, b, d + 1, visited, queue, dist)
  {
    forall c | c in Level(g, b, d + 1) && c !in visited ensures Queued(queue, dist, c, d + 1) {
      var p := NextFrom(g, Level(g, b, d), c);
      assert p in visited;
      assert Covered(ParentList(g, p), visited, queue);
      var i :| 0 <= i < |queue| && queue[i] == c;
      assert dist[i] == d + 1;
    }
  }

  /** Once the queue holds only distance `d + 1`, the walk moves on to distance `d + 1`. */
  lemma LayeredAdvance(g: Graph, b: CommitId, d: nat, visited: set<CommitId>, queue: seq<CommitId>, dist: seq<nat>)
    requires Layered(g, b, d, visited, queue, dist) && ClosedBut(g, visited, queue)
    requires queue != [] && dist[0] == d + 1
    ensures Layered(g, b, d + 1, visited, queue, dist)
  {
    BandedAdvance(dist, d);
    BelowAdvance(g, b, d, visited, queue, dist);
    FrontierAdvance(g, b, d, visited, queue, dist);
  }

  /** Taking the front entry, at distance `d`, off the queue and marking it visited. */
  lemma LayeredPop(g: Graph, b: CommitId, d: nat, visited: set<CommitId>, queue: seq<CommitId>, dist: seq<nat>, visited': set<CommitId>)
    requires Layered(g, b, d, visited, queue, dist)
    requires queue != [] && dist[0] == d
    requires visited <= visited' && queue[0] in visited'
    ensures Layered(g, b, d, visited', queue[1..], dist[1..])
  {
    forall c | c in Level(g, b, d) ensures c in visited' || Queued(queue[1..], dist[1..], c, d) {
      if c !in visited' {
        var i :| 0 <= i < |queue| && i < |dist| && queue[i] == c && dist[i] == d;
        assert queue[1..][i - 1] == c && dist[1..][i - 1] == d;
      }
    }
  }

  /** Queuing the parents of an entry at distance `d` puts them at distance `d + 1`. */
  lemma QueuedAppend(queue: seq<CommitId>, dist: seq<nat>, more: seq<CommitId>, labels: seq<nat>, c: CommitId, d: nat)
    requires |queue| == |dist| && Queued(queue, dist, c, d)
    ensures Queued(queue + more, dist + labels, c, d)
  {
    var i :| 0 <= i < |queue| && i < |dist| && queue[i] == c && dist[i] == d;
    assert (queue + more)[i] == c && (dist + labels)[i] == d;
  }

  /** Appending entries at distance `d + 1` keeps the distances sorted and within `d` and `d + 1`. */
  lemma BandAppend(dist: seq<nat>, n: nat, d: nat)
    requires Banded(dist, d)
    ensures Banded(dist + Labels(n, d + 1), d)
  {
    var labels := Labels(n, d + 1);
    var dist' := dist + labels;
    forall i | 0 <= i < |dist'| ensures d <= dist'[i] <= d + 1 {
      if i < |dist| {
        assert dist'[i] == dist[i];
      } else {
        assert dist'[i] == labels[i - |dist|];
      }
    }
    forall i, j | 0 <= i < j < |dist'| ensures dist'[i] <= dist'[j] {
      if j < |dist| {
        assert dist'[i] == dist[i] && dist'[j] == dist[j];
      } else {
        assert dist'[j] == labels[j - |dist|];
        if i < |dist| {
          assert dist'[i] == dist[i];
        } else {
          assert dist'[i] == labels[i - |dist|];
        }
      }
    }
  }

  /** The parents of an entry at distance `d` are at distance `d + 1`. */
  lemma LevelAppend(g: Graph, b: CommitId, d: nat, queue: seq<CommitId>, dist: seq<nat>, current: CommitId)
    requires |dist| == |queue| && forall i | 0 <= i < |queue| :: queue[i] in Level(g, b, dist[i])
    requires current in Level(g, b, d)
    ensures forall i | 0 <= i < |queue + ParentList(g, current)| ::
      (queue + ParentList(g, current))[i] in Level(g, b, (dist + Labels(|ParentList(g, current)|, d + 1))[i])
  {
    var ps := ParentList(g, current);
    var queue', dist' := queue + ps, dist + Labels(|ps|, d + 1);
    forall i | 0 <= i < |queue'| ensures queue'[i] in Level(g, b, dist'[i]) {
      if i < |queue| {
        assert queue'[i] == queue[i] && dist'[i] == dist[i];
      } else {
        assert queue'[i] == ps[i - |queue|] && dist'[i] == d + 1;
        NextHas(g, Level(g, b, d), current, ps[i - |queue|]);
      }
    }
  }

  /** Queuing the parents of an entry at distance `d` puts them at distance `d + 1`. */
  lemma LayeredPush(g: Graph, b: CommitId, d: nat, visited: set<CommitId>, queue: seq<CommitId>, dist: seq<nat>, current: CommitId)
    requires Layered(g, b, d, visited, queue, dist) && current in Level(g, b, d)
    ensures Layered(g, b, d, visited, queue + ParentList(g, current), dist + Labels(|ParentList(g, current)|, d + 1))
  {
    var ps := ParentList(g, current);
    var labels := Labels(|ps|, d + 1);
    LevelAppend(g, b, d, queue, dist, current);
    BandAppend(dist, |ps|, d);
    forall c | c in Level(g, b, d) && c !in visited ensures Queued(queue + ps, dist + labels, c, d) {
      QueuedAppend(queue, dist, ps, labels, c, d);
    }
  }

  /** Unless the walk must move on, the front entry is a real id at distance `d`. */
  lemma LayeredFront(g: Graph, b: CommitId, d: nat, visited: set<CommitId>, queue: seq<CommitId>, dist: seq<nat>)
    requires b != "" && Layered(g, b, d, visited, queue, dist) && queue != [] && dist[0] <= d
    ensures dist[0] == d && queue[0] in Level(g, b, d) && queue[0] != ""
  {
    LevelIds(g, b, d, queue[0]);
  }

  /** The front entry at distance `d` is a nearest common ancestor when nothing visited is an ancestor of `a`. */
  lemma NearestFound(g: Graph, a: CommitId, b: CommitId, d: nat, visited: set<CommitId>, queue: seq<CommitId>, dist: seq<nat>, ancestors: set<CommitId>)
    requires Layered(g, b, d, visited, queue, dist) && queue != [] && dist[0] == d
    requires forall c | c in visited :: c !in ancestors
    requires forall c :: c in ancestors <==> Reachable(g, a, c)
    ensures Nearest(g, a, b, queue[0])
  {
    assert NearestAt(g, a, b, queue[0], d);
  }

  /** A real commit id: present and not the empty string. */
  predicate Given(id: Option<CommitId>) {
    id.Some? && id.value != ""
  }

  /**
   * `findCommonAncestor(a, b)`: null unless both ids are given; otherwise
   * a breadth-first walk from `b` that skips empty or visited ids and
   * returns the first one in the ancestors of `a`.
   */
  method FindCommonAncestor(g: Graph, a: Option<CommitId>, b: Option<CommitId>) returns (r: Option<CommitId>)
    ensures !Given(a) || !Given(b) ==> r == None
    ensures r.Some? ==> Given(a) && Given(b) && Reachable(g, a.value, r.value) && Reachable(g, b.value, r.value)
    ensures r.None? && Given(a) && Given(b) ==> forall c | Reachable(g, b.value, c) :: !Reachable(g, a.value, c)
    ensures Given(a) && Given(b) && Reachable(g, a.value, b.value) ==> r == b
    ensures Given(a) && a == b ==> r == a
    ensures r.Some? ==> Nearest(g, a.value, b.value, r.value)
  {
    if !Given(a) || !Given(b) {
      return None;
    }
    ReachSelf(g, a.value);
    var ancestors, _ := Ancestors(g, a.value);
    var bv := b.value;
    var queue := [bv];
    var visited: set<CommitId> := {};
    ghost var order: seq<CommitId> := [];
    ghost var u := Universe(g, bv);
    ghost var dist: seq<nat> := [0];
    ghost var level: nat := 0;
    WalkStart(g, bv, u);
    LayeredStart(g, bv);
    while |queue| > 0
      invariant WalkState(g, bv, u, visited, order, queue)
      invariant Layered(g, bv, level, visited, queue, dist)
      invariant forall c | c in visited :: c !in ancestors
      invariant bv in ancestors ==> queue == [bv] && visited == {}
      decreases |u - visited|, |queue|
    {
      if dist[0] > level {
        LayeredAdvance(g, bv, level, visited, queue, dist);
        level := level + 1;
      }
      LayeredFront(g, bv, level, visited, queue, dist);
      var current := queue[0];
      ghost var before, beforeDist := queue, dist;
      SplitFirst(queue);
      queue := queue[1..];
      dist := dist[1..];
      if current == "" || current in visited {
        WalkSkip(g, bv, u, visited, order, before, queue, current);
        LayeredPop(g, bv, level, visited, before, beforeDist, visited);
        continue;
      }
      if current in ancestors {
        NearestFound(g, a.value, bv, level, visited, before, beforeDist, ancestors);
        return Some(current);
      }
      WalkVisit(g, bv, u, visited, order, before, queue, current);
      LayeredPop(g, bv, level, visited, before, beforeDist, visited + {current});
      visited := visited + {current};
      order := order + [current];
      LayeredPush(g, bv, level, visited, queue, dist, current);
      queue := queue + ParentList(g, current);
      dist := dist + Labels(|ParentList(g, current)|, level + 1);
    }
    WalkDone(g, bv, u, visited, order);
    return None;
  }
}

=== FILE: json.dfy ===
/**
 * JSON values as the engine sees them after `JSON.parse`, plus JavaScript's
 * `undefined`, which is what a missing key or an out-of-range index reads as
 * and what a three-way array merge may store.
 *
 * Objects are association lists: member order is `Object.keys` order, which
 * fixes the order of diff changes and merge conflicts. A well-formed object
 * has distinct keys; `Get` reads the first member with the key.
 */
module Json {

  datatype Value =
    | Undef
    | Null
    | Bool(b: bool)
    | Num(n: int)
    | Str(s: string)
    | Arr(items: seq<Value>)
    | Obj(members: seq<Member>)

  datatype Member = Member(key: string, val: Value)

  /** `typeof v === "object" && v !== null`: arrays and plain objects. */
  predicate IsContainer(v: Value) {
    v.Arr? || v.Obj?
  }

  /** JavaScript falsiness (`!v`), for the values the model can express. */
  predicate Falsy(v: Value) {
    v == Undef || v == Null || v == Bool(false) || v == Num(0) || v == Str("")
  }

  // ---------------------------------------------------------------------------
  // A size measure; Undef weighs nothing, so a missing key never makes a
  // recursive call bigger than its caller.

  function Size(v: Value): nat {
    match v
    case Undef => 0
    case Arr(items) => 1 + ItemsSize(items)
    case Obj(ms) => 1 + MembersSize(ms)
    case _ => 1
  }

  function ItemsSize(xs: seq<Value>): nat {
    if |xs| == 0 then 0 else Size(xs[0]) + ItemsSize(xs[1..])
  }

  function MembersSize(ms: seq<Member>): nat {
    if |ms| == 0 then 0 else Size(ms[0].val) + MembersSize(ms[1..])
  }

  lemma {:induction false} ItemSizeBound(xs: seq<Value>, i: nat)
    requires i < |xs|
    ensures Size(xs[i]) <= ItemsSize(xs)
  {
    if i > 0 {
      ItemSizeBound(xs[1..], i - 1);
    }
  }

  lemma {:induction false} MemberSizeBound(ms: seq<Member>, i: nat)
    requires i < |ms|
    ensures Size(ms[i].val) <= MembersSize(ms)
  {
    if i > 0 {
      MemberSizeBound(ms[1..], i - 1);
    }
  }

  // ---------------------------------------------------------------------------
  // Array and object access.

  /** `xs[i]`: undefined past the end. */
  function At(xs: seq<Value>, i: nat): (r: Value)
    ensures i < |xs| ==> r == xs[i]
    ensures i >= |xs| ==> r == Undef
    ensures Size(r) <= ItemsSize(xs)
  {
    if i < |xs| then ItemSizeBound(xs, i); xs[i] else Undef
  }

  /** `xs[i] = v` on a JavaScript array: the array grows, and the holes read as undefined. */
  function SetAt(xs: seq<Value>, i: nat, v: Value): (r: seq<Value>)
    ensures |r| == if i < |xs| then |xs| else i + 1
    ensures r[i] == v
    ensures forall j | 0 <= j < |r| && j != i :: r[j] == At(xs, j)
  {
    if i < |xs| then xs[i := v] else xs + seq(i - |xs|, _ => Undef) + [v]
  }

  function Keys(ms: seq<Member>): set<string> {
    set m | m in ms :: m.key
  }

  /** `Object.keys`: the keys in member order. */
  function KeySeq(ms: seq<Member>): (ks: seq<string>)
    ensures |ks| == |ms|
    ensures forall i | 0 <= i < |ms| :: ks[i] == ms[i].key
  {
    if ms == [] then [] else [ms[0].key] + KeySeq(ms[1..])
  }

  /** The first index holding key `k`, if any. */
  function IndexOfKey(ms: seq<Member>, k: string): (r: nat)
    ensures r <= |ms|
    ensures r < |ms| ==> ms[r].key == k
    ensures forall j | 0 <= j < r :: ms[j].key != k
    ensures r == |ms| <==> k !in Keys(ms)
  {
    if ms == [] then 0
    else if ms[0].key == k then 0
    else
      var r := 1 + IndexOfKey(ms[1..], k);
      assert r < |ms| ==> ms[r] == ms[1..][r - 1];
      assert forall m | m in ms[1..] :: m in ms;
      assert k !in Keys(ms[1..]) ==> forall m | m in ms :: m.key != k by {
        assert forall m | m in ms :: m == ms[0] || m in ms[1..];
      }
      r
  }

  /** `obj[k]`: the member's value, or undefined when the key is absent. */
  function Get(ms: seq<Member>, k: string): (r: Value)
    ensures k !in Keys(ms) ==> r == Undef
    ensures Size(r) <= MembersSize(ms)
  {
    var i := IndexOfKey(ms, k);
    if i < |ms| then MemberSizeBound(ms, i); ms[i].val else Undef
  }

  /** Looking a key up in a member list that starts with `m`. */
  lemma GetCons(m: Member, rest: seq<Member>, k: string)
    ensures Get([m] + rest, k) == if m.key == k then m.val else Get(rest, k)
  {
    var ms := [m] + rest;
    assert ms[0] == m;
    assert ms[1..] == rest;
    if m.key != k {
      var j := IndexOfKey(rest, k);
      assert IndexOfKey(ms, k) == 1 + j;
      if j < |rest| {
        assert ms[1 + j] == rest[j];
      }
    }
  }

  /** `obj[k] = v`: overwrite the key in place, or append it at the end. */
  function Put(ms: seq<Member>, k: string, v: Value): (r: seq<Member>)
    ensures Get(r, k) == v
    ensures forall k' | k' != k :: Get(r, k') == Get(ms, k')
    ensures Keys(r) == Keys(ms) + {k}
    ensures DistinctKeys(ms) ==> DistinctKeys(r)
  {
    var i := IndexOfKey(ms, k);
    var r := if i < |ms| then ms[i := Member(k, v)] else ms + [Member(k, v)];
    PutShape(ms, k, v, i, r);
    PutOthers(ms, k, v, i, r);
    r
  }

  /** `Put`'s result reads the value at the key and has the key added to its key set. */
  lemma PutShape(ms: seq<Member>, k: string, v: Value, i: nat, r: seq<Member>)
    requires i == IndexOfKey(ms, k)
    requires r == if i < |ms| then ms[i := Member(k, v)] else ms + [Member(k, v)]
    ensures Get(r, k) == v
    ensures Keys(r) == Keys(ms) + {k}
    ensures DistinctKeys(ms) ==> DistinctKeys(r)
  {
    assert r[i] == Member(k, v);
    assert forall j | 0 <= j < i :: r[j] == ms[j];
    IndexOfKeyUnique(r, k, i);
    PutKeys(ms, k, v, i, r);
    PutDistinct(ms, k, v, i, r);
  }

  lemma PutKeys(ms: seq<Member>, k: string, v: Value, i: nat, r: seq<Member>)
    requires i == IndexOfKey(ms, k)
    requires r == if i < |ms| then ms[i := Member(k, v)] else ms + [Member(k, v)]
    ensures Keys(r) == Keys(ms) + {k}
  {
    assert forall m | m in r :: m in ms || m == Member(k, v);
    assert forall m | m in ms :: m in r || m.key == k;
    assert r[i] == Member(k, v);
  }

  lemma PutDistinct(ms: seq<Member>, k: string, v: Value, i: nat, r: seq<Member>)
    requires i == IndexOfKey(ms, k)
    requires r == if i < |ms| then ms[i := Member(k, v)] else ms + [Member(k, v)]
    ensures DistinctKeys(ms) ==> DistinctKeys(r)
  {
    if DistinctKeys(ms) {
      if i < |ms| {
        assert forall j | 0 <= j < |r| :: r[j].key == ms[j].key;
      } else {
        assert forall j | 0 <= j < |ms| :: r[j] == ms[j] && ms[j] in ms;
      }
    }
  }

  /** `Put` leaves every other key's lookup as it was. */
  lemma PutOthers(ms: seq<Member>, k: string, v: Value, i: nat, r: seq<Member>)
    requires i == IndexOfKey(ms, k)
    requires r == if i < |ms| then ms[i := Member(k, v)] else ms + [Member(k, v)]
    ensures forall k' | k' != k :: Get(r, k') == Get(ms, k')
  {
    assert forall j | 0 <= j < |ms| && j != i :: r[j] == ms[j];
    assert forall m | m in r :: m in ms || m == Member(k, v);
    forall k' | k' != k ensures Get(r, k') == Get(ms, k') {
      var j := IndexOfKey(ms, k');
      if j < |ms| {
        IndexOfKeyUnique(r, k', j);
      } else {
        assert k' !in Keys(r);
      }
    }
  }

  /** The first position holding a key determines `IndexOfKey`. */
  lemma IndexOfKeyUnique(ms: seq<Member>, k: string, j: nat)
    requires j < |ms| && ms[j].key == k
    requires forall i | 0 <= i < j :: ms[i].key != k
    ensures IndexOfKey(ms, k) == j
  {
    assert ms[j] in ms;
  }

  predicate DistinctKeys(ms: seq<Member>) {
    forall i, j | 0 <= i < j < |ms| :: ms[i].key != ms[j].key
  }

  predicate Distinct(ks: seq<string>) {
    forall i, j | 0 <= i < j < |ks| :: ks[i] != ks[j]
  }

  /** Membership in a suffix, one position at a time; in a distinct sequence the first is not repeated. */
  lemma SuffixStep(ks: seq<string>, j: nat, x: string)
    requires j < |ks|
    ensures x in ks[j..] <==> x == ks[j] || x in ks[j + 1..]
    ensures Distinct(ks) ==> ks[j] !in ks[j + 1..]
  {
    assert ks[j..] == [ks[j]] + ks[j + 1..];
    if Distinct(ks) {
      assert forall q | j + 1 <= q < |ks| :: ks[q] != ks[j];
    }
  }

  /**
   * Insertion into a JavaScript `Set`, one element after another: an element
   * already present keeps its place, a new one goes to the end.
   */
  function AppendNew(acc: seq<string>, ys: seq<string>): (r: seq<string>)
    ensures Distinct(acc) ==> Distinct(r)
    ensures forall x :: x in r <==> x in acc || x in ys
    ensures |acc| <= |r| && r[..|acc|] == acc
    decreases |ys|
  {
    if ys == [] then acc
    else if ys[0] in acc then AppendNew(acc, ys[1..])
    else
      var r := AppendNew(acc + [ys[0]], ys[1..]);
      assert r[..|acc|] == (r[..|acc| + 1])[..|acc|];
      r
  }

  /** `new Set([...Object.keys(a), ...Object.keys(b)])`. */
  function KeyUnion(a: seq<Member>, b: seq<Member>): (ks: seq<string>)
    ensures Distinct(ks)
    ensures forall k :: k in ks <==> k in Keys(a) || k in Keys(b)
  {
    KeysAreKeySeq(a);
    KeysAreKeySeq(b);
    AppendNew(AppendNew([], KeySeq(a)), KeySeq(b))
  }

  /** `new Set([...Object.keys(a), ...Object.keys(b), ...Object.keys(c)])`. */
  function KeyUnion3(a: seq<Member>, b: seq<Member>, c: seq<Member>): (ks: seq<string>)
    ensures Distinct(ks)
    ensures forall k :: k in ks <==> k in Keys(a) || k in Keys(b) || k in Keys(c)
  {
    KeysAreKeySeq(a);
    KeysAreKeySeq(b);
    KeysAreKeySeq(c);
    AppendNew(AppendNew(AppendNew([], KeySeq(a)), KeySeq(b)), KeySeq(c))
  }

  lemma KeysAreKeySeq(ms: seq<Member>)
    ensures forall k :: k in KeySeq(ms) <==> k in Keys(ms)
  {
    forall k ensures k in KeySeq(ms) <==> k in Keys(ms) {
      if k in Keys(ms) {
        var m :| m in ms && m.key == k;
        var i :| 0 <= i < |ms| && ms[i] == m;
        assert KeySeq(ms)[i] == k;
      }
    }
  }

  // ---------------------------------------------------------------------------
  // Deep equality (`isEqual` in diff.ts and merge.ts, which are identical).

  /**
   * Arrays are equal when they have the same length and equal items; objects
   * when they agree on every key of either, a missing key reading as
   * undefined; anything else when it is the same primitive (`===`).
   */
  predicate Equal(a: Value, b: Value): (r: bool)
    ensures r ==> a.Arr? == b.Arr? && a.Obj? == b.Obj?
    ensures r && !IsContainer(a) ==> a == b
    decreases Size(a) + Size(b)
  {
    if a.Arr? && b.Arr? then
      |a.items| == |b.items| && forall i | 0 <= i < |a.items| :: Equal(At(a.items, i), At(b.items, i))
    else if a.Obj? && b.Obj? then
      forall k | k in Keys(a.members) + Keys(b.members) :: Equal(Get(a.members, k), Get(b.members, k))
    else
      a == b
  }

  /** Deep-equal objects agree on every key, present or not. */
  lemma EqualGet(a: Value, b: Value, k: string)
    requires a.Obj? && b.Obj? && Equal(a, b)
    ensures Equal(Get(a.members, k), Get(b.members, k))
  {
    if k !in Keys(a.members) + Keys(b.members) {
      assert Get(a.members, k) == Undef == Get(b.members, k);
    }
  }

  /** A member is smaller than the object holding it. */
  lemma GetSmaller(a: Value, k: string)
    requires a.Obj?
    ensures Size(Get(a.members, k)) < Size(a)
  {
  }

  /** Every value is deep-equal to itself, as `a === b` makes it for a shared reference. */
  lemma {:induction false} EqualReflexive(a: Value)
    ensures Equal(a, a)
    decreases Size(a)
  {
    match a
    case Arr(xs) =>
      forall i | 0 <= i < |xs| ensures Equal(At(xs, i), At(xs, i)) {
        EqualReflexive(At(xs, i));
      }
    case Obj(ms) =>
      forall k | k in Keys(ms) + Keys(ms) ensures Equal(Get(ms, k), Get(ms, k)) {
        MemberSizeBound(ms, IndexOfKey(ms, k));
        EqualReflexive(Get(ms, k));
      }
    case _ =>
  }

  /** Deep equality does not depend on argument order. */
  lemma {:induction false} EqualSymmetric(a: Value, b: Value)
    requires Equal(a, b)
    ensures Equal(b, a)
    decreases Size(a) + Size(b)
  {
    if a.Arr? && b.Arr? {
      forall i | 0 <= i < |b.items| ensures Equal(At(b.items, i), At(a.items, i)) {
        EqualSymmetric(At(a.items, i), At(b.items, i));
      }
    } else if a.Obj? && b.Obj? {
      forall k | k in Keys(b.members) + Keys(a.members) ensures Equal(Get(b.members, k), Get(a.members, k)) {
        EqualGet(a, b, k);
        GetSmaller(a, k);
        GetSmaller(b, k);
        EqualSymmetric(Get(a.members, k), Get(b.members, k));
      }
    }
  }

  /** Deep equality is an equivalence: it is also transitive. */
  lemma {:induction false} EqualTransitive(a: Value, b: Value, c: Value)
    requires Equal(a, b) && Equal(b, c)
    ensures Equal(a, c)
    decreases Size(a) + Size(b) + Size(c)
  {
    if a.Arr? && b.Arr? && c.Arr? {
      forall i | 0 <= i < |a.items| ensures Equal(At(a.items, i), At(c.items, i)) {
        EqualTransitive(At(a.items, i), At(b.items, i), At(c.items, i));
      }
    } else if a.Obj? && b.Obj? && c.Obj? {
      forall k | k in Keys(a.members) + Keys(c.members) ensures Equal(Get(a.members, k), Get(c.members, k)) {
        EqualGet(a, b, k);
        EqualGet(b, c, k);
        GetSmaller(a, k);
        GetSmaller(b, k);
        GetSmaller(c, k);
        EqualTransitive(Get(a.members, k), Get(b.members, k), Get(c.members, k));
      }
    }
  }

  /**
   * A value as `JSON.parse` produces it: no container holds undefined. The
   * value itself may be undefined (a missing unit).
   */
  predicate Defined(v: Value)
    decreases Size(v)
  {
    match v
    case Arr(xs) => forall i | 0 <= i < |xs| :: At(xs, i) != Undef && Defined(At(xs, i))
    case Obj(ms) => forall i | 0 <= i < |ms| :: ms[i].val != Undef && (MemberSizeBound(ms, i); Defined(ms[i].val))
    case _ => true
  }
}

=== FILE: merge.dfy ===
/**
 * The three-way merge of src/core/merge.ts: values equal on both sides or
 * changed on one side only merge silently, arrays and objects on all three
 * sides merge position by position, anything else is a conflict that keeps
 * our value.
 */
module Merge {
  import opened Json
  import opened Routes

  /** One conflict: the three values found at the route. */
  datatype Conflict = Conflict(unitId: string, route: seq<Step>, base: Value, ours: Value, theirs: Value) {
    /** The path as `joinPath` builds it. */
    function Path(): string {
      RawPath(route)
    }

    /** The path as an RFC 6901 pointer. */
    function PointerPath(): string {
      PointerOf(route)
    }
  }

  /** A merged value (or list of items or members) with the conflicts met on the way. */
  datatype Merged<T> = Merged(value: T, conflicts: seq<Conflict>)

  function Max3(a: nat, b: nat, c: nat): (m: nat)
    ensures a <= m && b <= m && c <= m
    ensures m == a || m == b || m == c
  {
    if a <= c && b <= c then c else if a <= b then b else a
  }

  /**
   * What every reported conflict satisfies: all three values pairwise
   * different, and not all three arrays or all three objects.
   */
  predicate IsConflict(c: Conflict) {
    && !Equal(c.ours, c.theirs)
    && !Equal(c.base, c.ours)
    && !Equal(c.base, c.theirs)
    && !(c.base.Arr? && c.ours.Arr? && c.theirs.Arr?)
    && !(c.base.Obj? && c.ours.Obj? && c.theirs.Obj?)
  }

  predicate ConflictsUnder(cs: seq<Conflict>, route: seq<Step>, unitId: string) {
    forall c | c in cs :: c.unitId == unitId && IsConflict(c) && route <= c.route
  }

  /** `mergeValues(base, ours, theirs, path, unitId)`. */
  function MergeValues(b: Value, o: Value, t: Value, route: seq<Step>, unitId: string): (r: Merged<Value>)
    ensures ConflictsUnder(r.conflicts, route, unitId)
    ensures o != Undef && t != Undef ==> r.value != Undef
    ensures r.value != Undef ==> o != Undef || t != Undef
    decreases Size(b) + Size(o) + Size(t), 1
  {
    if Equal(o, t) then Merged(o, [])
    else if Equal(b, o) then Merged(t, [])
    else if Equal(b, t) then Merged(o, [])
    else if b.Arr? && o.Arr? && t.Arr? then
      SizeOfArrays(b, o, t);
      var n := Max3(|b.items|, |o.items|, |t.items|);
      var m := MergeItems(b.items, o.items, t.items, 0, n, route, unitId);
      Merged(Arr(m.value), m.conflicts)
    else if b.Obj? && o.Obj? && t.Obj? then
      SizeOfObjects(b, o, t);
      var m := MergeKeys(b.members, o.members, t.members, KeyUnion3(b.members, o.members, t.members), 0, route, unitId);
      Merged(Obj(m.value), m.conflicts)
    else
      var c := Conflict(unitId, route, b, o, t);
      assert IsConflict(c);
      assert forall x | x in [c] :: x == c;
      Merged(o, [c])
  }

  /** The array loop: positions `i .. n - 1`, each merged, holes included. */
  function MergeItems(bs: seq<Value>, os: seq<Value>, ts: seq<Value>, i: nat, n: nat, route: seq<Step>, unitId: string): (r: Merged<seq<Value>>)
    requires i <= n == Max3(|bs|, |os|, |ts|)
    ensures |r.value| == n - i
    ensures ConflictsUnder(r.conflicts, route, unitId)
    decreases ItemsSize(bs) + ItemsSize(os) + ItemsSize(ts) + 1, n - i
  {
    if i == n then Merged([], [])
    else
      var here := MergeValues(At(bs, i), At(os, i), At(ts, i), route + [Index(i)], unitId);
      var rest := MergeItems(bs, os, ts, i + 1, n, route, unitId);
      PrefixStep(here.conflicts, route, Index(i), unitId);
      Merged([here.value] + rest.value, here.conflicts + rest.conflicts)
  }

  /** The object loop over the key union from position `j`; undefined results are left out. */
  function MergeKeys(bm: seq<Member>, om: seq<Member>, tm: seq<Member>, keys: seq<string>, j: nat, route: seq<Step>, unitId: string): (r: Merged<seq<Member>>)
    requires j <= |keys|
    ensures forall m | m in r.value :: m.val != Undef && m.key in keys[j..]
    ensures Distinct(keys) ==> DistinctKeys(r.value)
    ensures ConflictsUnder(r.conflicts, route, unitId)
    decreases MembersSize(bm) + MembersSize(om) + MembersSize(tm) + 1, |keys| - j
  {
    if j == |keys| then Merged([], [])
    else
      var k := keys[j];
      var here := MergeValues(Get(bm, k), Get(om, k), Get(tm, k), route + [Key(k)], unitId);
      var rest := MergeKeys(bm, om, tm, keys, j + 1, route, unitId);
      PrefixStep(here.conflicts, route, Key(k), unitId);
      var head := if here.value != Undef then [Member(k, here.value)] else [];
      assert Distinct(keys) ==> DistinctKeys(head + rest.value) by {
        if Distinct(keys) {
          assert forall m | m in rest.value :: m.key != k;
          ConsDistinct(head, rest.value);
        }
      }
      Merged(head + rest.value, here.conflicts + rest.conflicts)
  }

  lemma PrefixStep(cs: seq<Conflict>, route: seq<Step>, s: Step, unitId: string)
    requires ConflictsUnder(cs, route + [s], unitId)
    ensures ConflictsUnder(cs, route, unitId)
  {
    forall c | c in cs ensures route <= c.route {
      assert c.route[..|route| + 1][..|route|] == c.route[..|route|];
    }
  }

  lemma ConsDistinct(head: seq<Member>, rest: seq<Member>)
    requires |head| <= 1
    requires DistinctKeys(rest)
    requires forall m, n | m in head && n in rest :: m.key != n.key
    ensures DistinctKeys(head + rest)
  {
    if |head| == 1 {
      assert forall i | 1 <= i < |head + rest| :: (head + rest)[i] == rest[i - 1];
    } else {
      assert head + rest == rest;
    }
  }

  /** `mergeUnits(baseUnits, ourUnits, theirUnits)`. */
  function MergeUnits(baseUnits: seq<Member>, ourUnits: seq<Member>, theirUnits: seq<Member>): (r: Merged<seq<Member>>)
    ensures DistinctKeys(r.value)
    ensures forall m | m in r.value :: m.val != Undef && m.key in Keys(baseUnits) + Keys(ourUnits) + Keys(theirUnits)
    ensures forall c | c in r.conflicts :: c.unitId in Keys(baseUnits) + Keys(ourUnits) + Keys(theirUnits) && IsConflict(c)
  {
    MergeEach(baseUnits, ourUnits, theirUnits, KeyUnion3(baseUnits, ourUnits, theirUnits), 0)
  }

  function MergeEach(bu: seq<Member>, ou: seq<Member>, tu: seq<Member>, ids: seq<string>, j: nat): (r: Merged<seq<Member>>)
    requires j <= |ids|
    ensures forall m | m in r.value :: m.val != Undef && m.key in ids[j..]
    ensures Distinct(ids) ==> DistinctKeys(r.value)
    ensures forall c | c in r.conflicts :: c.unitId in ids[j..] && IsConflict(c)
    decreases |ids| - j
  {
    if j == |ids| then Merged([], [])
    else
      var u := ids[j];
      var here := MergeValues(Get(bu, u), Get(ou, u), Get(tu, u), [], u);
      var rest := MergeEach(bu, ou, tu, ids, j + 1);
      var head := if here.value != Undef then [Member(u, here.value)] else [];
      assert Distinct(ids) ==> DistinctKeys(head + rest.value) by {
        if Distinct(ids) {
          assert forall m | m in rest.value :: m.key != u;
          ConsDistinct(head, rest.value);
        }
      }
      Merged(head + rest.value, here.conflicts + rest.conflicts)
  }

  // ---------------------------------------------------------------------------
  // The three trivial merges.

  /** Both sides agree: their value, no conflict, whatever the base. */
  lemma MergeIdentical(b: Value, x: Value, route: seq<Step>, unitId: string)
    ensures MergeValues(b, x, x, route, unitId) == Merged(x, [])
  {
    EqualReflexive(x);
  }

  /**
   * Only theirs changed (ours deep-equal to the base): no conflict, and a
   * result deep-equal to theirs, which is theirs itself unless both sides agree.
   */
  lemma MergeTakesTheirs(b: Value, o: Value, t: Value, route: seq<Step>, unitId: string)
    requires Equal(b, o)
    ensures MergeValues(b, o, t, route, unitId).conflicts == []
    ensures Equal(MergeValues(b, o, t, route, unitId).value, t)
    ensures !Equal(o, t) ==> MergeValues(b, o, t, route, unitId).value == t
  {
    EqualReflexive(t);
  }

  /** Only ours changed (theirs deep-equal to the base): ours, no conflict. */
  lemma MergeKeepsOurs(b: Value, o: Value, t: Value, route: seq<Step>, unitId: string)
    requires Equal(b, t)
    ensures MergeValues(b, o, t, route, unitId) == Merged(o, [])
  {
    if Equal(b, o) {
      EqualSymmetric(b, o);
      EqualTransitive(o, b, t);
    }
  }

  /**
   * A conflict is reported at the route itself exactly when the three
   * values differ pairwise and are not all arrays or all objects; it is
   * then the only conflict, it carries the three values verbatim, and the
   * merge keeps ours.
   */
  lemma ConflictHere(b: Value, o: Value, t: Value, route: seq<Step>, unitId: string)
    ensures (exists c | c in MergeValues(b, o, t, route, unitId).conflicts :: c.route == route)
        <==> IsConflict(Conflict(unitId, route, b, o, t))
    ensures IsConflict(Conflict(unitId, route, b, o, t)) ==>
        MergeValues(b, o, t, route, unitId) == Merged(o, [Conflict(unitId, route, b, o, t)])
  {
    var r := MergeValues(b, o, t, route, unitId);
    if b.Arr? && o.Arr? && t.Arr? && !IsConflict(Conflict(unitId, route, b, o, t)) && !Equal(o, t) && !Equal(b, o) && !Equal(b, t) {
      var n := Max3(|b.items|, |o.items|, |t.items|);
      DeeperConflictsItems(b.items, o.items, t.items, 0, n, route, unitId);
    } else if b.Obj? && o.Obj? && t.Obj? && !Equal(o, t) && !Equal(b, o) && !Equal(b, t) {
      DeeperConflictsKeys(b.members, o.members, t.members, KeyUnion3(b.members, o.members, t.members), 0, route, unitId);
    }
  }

  lemma {:induction false} DeeperConflictsItems(bs: seq<Value>, os: seq<Value>, ts: seq<Value>, i: nat, n: nat, route: seq<Step>, unitId: string)
    requires i <= n == Max3(|bs|, |os|, |ts|)
    ensures forall c | c in MergeItems(bs, os, ts, i, n, route, unitId).conflicts :: |route| < |c.route|
    decreases n - i
  {
    if i < n {
      var here := MergeValues(At(bs, i), At(os, i), At(ts, i), route + [Index(i)], unitId).conflicts;
      var later := MergeItems(bs, os, ts, i + 1, n, route, unitId).conflicts;
      assert MergeItems(bs, os, ts, i, n, route, unitId).conflicts == here + later;
      assert forall c | c in here :: |route + [Index(i)]| <= |c.route|;
      DeeperConflictsItems(bs, os, ts, i + 1, n, route, unitId);
    }
  }

  lemma {:induction false} DeeperConflictsKeys(bm: seq<Member>, om: seq<Member>, tm: seq<Member>, keys: seq<string>, j: nat, route: seq<Step>, unitId: string)
    requires j <= |keys|
    ensures forall c | c in MergeKeys(bm, om, tm, keys, j, route, unitId).conflicts :: |route| < |c.route|
    decreases |keys| - j
  {
    if j < |keys| {
      var k := keys[j];
      var here := MergeValues(Get(bm, k), Get(om, k), Get(tm, k), route + [Key(k)], unitId).conflicts;
      var later := MergeKeys(bm, om, tm, keys, j + 1, route, unitId).conflicts;
      assert MergeKeys(bm, om, tm, keys, j, route, unitId).conflicts == here + later;
      assert forall c | c in here :: |route + [Key(k)]| <= |c.route|;
      DeeperConflictsKeys(bm, om, tm, keys, j + 1, route, unitId);
    }
  }

  // ---------------------------------------------------------------------------
  // Position by position.

  lemma {:induction false} MergeItemsAt(bs: seq<Value>, os: seq<Value>, ts: seq<Value>, i: nat, n: nat, route: seq<Step>, unitId: string)
    requires i <= n == Max3(|bs|, |os|, |ts|)
    ensures forall p | i <= p < n ::
      MergeItems(bs, os, ts, i, n, route, unitId).value[p - i] == MergeValues(At(bs, p), At(os, p), At(ts, p), route + [Index(p)], unitId).value
    decreases n - i
  {
    if i < n {
      var here := MergeValues(At(bs, i), At(os, i), At(ts, i), route + [Index(i)], unitId).value;
      var rest := MergeItems(bs, os, ts, i + 1, n, route, unitId).value;
      var whole := MergeItems(bs, os, ts, i, n, route, unitId).value;
      assert whole == [here] + rest;
      MergeItemsAt(bs, os, ts, i + 1, n, route, unitId);
      forall p | i <= p < n
        ensures whole[p - i] == MergeValues(At(bs, p), At(os, p), At(ts, p), route + [Index(p)], unitId).value
      {
        if p > i {
          assert whole[p - i] == rest[p - (i + 1)];
        }
      }
    }
  }

  lemma {:induction false} MergeKeysGet(bm: seq<Member>, om: seq<Member>, tm: seq<Member>, keys: seq<string>, j: nat, route: seq<Step>, unitId: string, k: string)
    requires Distinct(keys) && j <= |keys|
    ensures Get(MergeKeys(bm, om, tm, keys, j, route, unitId).value, k) ==
      if k in keys[j..] then MergeValues(Get(bm, k), Get(om, k), Get(tm, k), route + [Key(k)], unitId).value else Undef
    decreases |keys| - j
  {
    if j < |keys| {
      var kj := keys[j];
      var here := MergeValues(Get(bm, kj), Get(om, kj), Get(tm, kj), route + [Key(kj)], unitId);
      var rest := MergeKeys(bm, om, tm, keys, j + 1, route, unitId);
      var head := if here.value != Undef then [Member(kj, here.value)] else [];
      assert MergeKeys(bm, om, tm, keys, j, route, unitId).value == head + rest.value;
      SuffixStep(keys, j, k);
      if here.value != Undef {
        GetCons(Member(kj, here.value), rest.value, k);
        if k != kj {
          MergeKeysGet(bm, om, tm, keys, j + 1, route, unitId, k);
        }
      } else {
        assert head + rest.value == rest.value;
        MergeKeysGet(bm, om, tm, keys, j + 1, route, unitId, k);
      }
    } else {
      assert k !in Keys(MergeKeys(bm, om, tm, keys, j, route, unitId).value);
    }
  }

  /**
   * When all three sides are arrays and the merge recurses, the result is an
   * array as long as the longest side whose every position is the merge of
   * the three values at that position.
   */
  lemma MergeArrays(b: Value, o: Value, t: Value, route: seq<Step>, unitId: string)
    requires b.Arr? && o.Arr? && t.Arr?
    requires !Equal(o, t) && !Equal(b, o) && !Equal(b, t)
    ensures MergeValues(b, o, t, route, unitId).value.Arr?
    ensures |MergeValues(b, o, t, route, unitId).value.items| == Max3(|b.items|, |o.items|, |t.items|)
    ensures forall p | 0 <= p < Max3(|b.items|, |o.items|, |t.items|) ::
      MergeValues(b, o, t, route, unitId).value.items[p]
        == MergeValues(At(b.items, p), At(o.items, p), At(t.items, p), route + [Index(p)], unitId).value
  {
    var n := Max3(|b.items|, |o.items|, |t.items|);
    var m := MergeItems(b.items, o.items, t.items, 0, n, route, unitId);
    assert MergeValues(b, o, t, route, unitId).value == Arr(m.value);
    MergeItemsAt(b.items, o.items, t.items, 0, n, route, unitId);
    assert forall p | 0 <= p < n :: m.value[p] == m.value[p - 0];
  }

  /**
   * When all three sides are objects and the merge recurses, every key of
   * the result reads as the merge of the three values under that key, a key
   * whose merge is undefined being absent.
   */
  lemma MergeObjects(b: Value, o: Value, t: Value, route: seq<Step>, unitId: string)
    requires b.Obj? && o.Obj? && t.Obj?
    requires !Equal(o, t) && !Equal(b, o) && !Equal(b, t)
    ensures MergeValues(b, o, t, route, unitId).value.Obj?
    ensures DistinctKeys(MergeValues(b, o, t, route, unitId).value.members)
    ensures forall k ::
      Get(MergeValues(b, o, t, route, unitId).value.members, k)
        == MergeValues(Get(b.members, k), Get(o.members, k), Get(t.members, k), route + [Key(k)], unitId).value
    ensures forall k :: k in Keys(MergeValues(b, o, t, route, unitId).value.members) ==>
        k in Keys(b.members) + Keys(o.members) + Keys(t.members)
  {
    var keys := KeyUnion3(b.members, o.members, t.members);
    forall k ensures Get(MergeValues(b, o, t, route, unitId).value.members, k)
        == MergeValues(Get(b.members, k), Get(o.members, k), Get(t.members, k), route + [Key(k)], unitId).value
    {
      MergeObjectsKey(b, o, t, route, unitId, k);
    }
    var ms := MergeValues(b, o, t, route, unitId).value.members;
    forall k | k in Keys(ms) ensures k in Keys(b.members) + Keys(o.members) + Keys(t.members) {
      var m :| m in ms && m.key == k;
      assert keys[0..] == keys;
    }
  }

  /** `MergeObjects` for one key. */
  lemma MergeObjectsKey(b: Value, o: Value, t: Value, route: seq<Step>, unitId: string, k: string)
    requires b.Obj? && o.Obj? && t.Obj?
    requires !Equal(o, t) && !Equal(b, o) && !Equal(b, t)
    ensures MergeValues(b, o, t, route, unitId).value.Obj?
    ensures Get(MergeValues(b, o, t, route, unitId).value.members, k)
        == MergeValues(Get(b.members, k), Get(o.members, k), Get(t.members, k), route + [Key(k)], unitId).value
  {
    var keys := KeyUnion3(b.members, o.members, t.members);
    MergeKeysGet(b.members, o.members, t.members, keys, 0, route, unitId, k);
    assert keys[0..] == keys;
    if k !in keys {
      EqualReflexive(Undef);
    }
  }

  /** Each conflict carries what `b`, `o` and `t` hold along its route below `route`. */
  ghost predicate SubvaluesBelow(cs: seq<Conflict>, route: seq<Step>, b: Value, o: Value, t: Value) {
    forall c | c in cs ::
      && |route| <= |c.route|
      && Navigate(b, c.route[|route|..]) == c.base
      && Navigate(o, c.route[|route|..]) == c.ours
      && Navigate(t, c.route[|route|..]) == c.theirs
  }

  /**
   * Each conflict carries the three values found along its route below the
   * route of the call.
   */
  lemma {:induction false} ConflictsAreSubvalues(b: Value, o: Value, t: Value, route: seq<Step>, unitId: string)
    ensures SubvaluesBelow(MergeValues(b, o, t, route, unitId).conflicts, route, b, o, t)
    decreases Size(b) + Size(o) + Size(t), 1
  {
    var cs := MergeValues(b, o, t, route, unitId).conflicts;
    if Equal(o, t) || Equal(b, o) || Equal(b, t) {
      assert cs == [];
    } else if b.Arr? && o.Arr? && t.Arr? {
      var n := Max3(|b.items|, |o.items|, |t.items|);
      SizeOfArrays(b, o, t);
      assert cs == MergeItems(b.items, o.items, t.items, 0, n, route, unitId).conflicts;
      ItemsConflictsAreSubvalues(b.items, o.items, t.items, 0, n, route, unitId);
    } else if b.Obj? && o.Obj? && t.Obj? {
      var keys := KeyUnion3(b.members, o.members, t.members);
      SizeOfObjects(b, o, t);
      assert cs == MergeKeys(b.members, o.members, t.members, keys, 0, route, unitId).conflicts;
      KeysConflictsAreSubvalues(b.members, o.members, t.members, keys, 0, route, unitId);
    } else {
      assert cs == [Conflict(unitId, route, b, o, t)];
      assert route[|route|..] == [];
    }
  }

  lemma SizeOfArrays(b: Value, o: Value, t: Value)
    requires b.Arr? && o.Arr? && t.Arr?
    ensures Size(b) + Size(o) + Size(t) == ItemsSize(b.items) + ItemsSize(o.items) + ItemsSize(t.items) + 3
  {
  }

  lemma SizeOfObjects(b: Value, o: Value, t: Value)
    requires b.Obj? && o.Obj? && t.Obj?
    ensures Size(b) + Size(o) + Size(t) == MembersSize(b.members) + MembersSize(o.members) + MembersSize(t.members) + 3
  {
  }

  /** Conflicts found one step below `route` carry what the three values hold along their routes. */
  lemma LiftSubvalues(cs: seq<Conflict>, route: seq<Step>, s: Step, unitId: string, b: Value, o: Value, t: Value)
    requires ConflictsUnder(cs, route + [s], unitId)
    requires SubvaluesBelow(cs, route + [s], Navigate(b, [s]), Navigate(o, [s]), Navigate(t, [s]))
    ensures SubvaluesBelow(cs, route, b, o, t)
  {
    forall c | c in cs
      ensures && |route| <= |c.route|
              && Navigate(b, c.route[|route|..]) == c.base
              && Navigate(o, c.route[|route|..]) == c.ours
              && Navigate(t, c.route[|route|..]) == c.theirs
    {
      NavigatePast(b, route, s, c.route);
      NavigatePast(o, route, s, c.route);
      NavigatePast(t, route, s, c.route);
    }
  }

  /** Subvalue facts of two conflict lists combine. */
  lemma SubvaluesConcat(cs: seq<Conflict>, ds: seq<Conflict>, route: seq<Step>, b: Value, o: Value, t: Value)
    requires SubvaluesBelow(cs, route, b, o, t) && SubvaluesBelow(ds, route, b, o, t)
    ensures SubvaluesBelow(cs + ds, route, b, o, t)
  {
    forall c | c in cs + ds
      ensures && |route| <= |c.route|
              && Navigate(b, c.route[|route|..]) == c.base
              && Navigate(o, c.route[|route|..]) == c.ours
              && Navigate(t, c.route[|route|..]) == c.theirs
    {
      if c in cs {
      } else {
        assert c in ds;
      }
    }
  }

  lemma {:induction false} ItemsConflictsAreSubvalues(bs: seq<Value>, os: seq<Value>, ts: seq<Value>, i: nat, n: nat, route: seq<Step>, unitId: string)
    requires i <= n == Max3(|bs|, |os|, |ts|)
    ensures SubvaluesBelow(MergeItems(bs, os, ts, i, n, route, unitId).conflicts, route, Arr(bs), Arr(os), Arr(ts))
    decreases ItemsSize(bs) + ItemsSize(os) + ItemsSize(ts) + 1, n - i
  {
    if i < n {
      var sub := route + [Index(i)];
      var here := MergeValues(At(bs, i), At(os, i), At(ts, i), sub, unitId).conflicts;
      var later := MergeItems(bs, os, ts, i + 1, n, route, unitId).conflicts;
      assert MergeItems(bs, os, ts, i, n, route, unitId).conflicts == here + later;
      ConflictsAreSubvalues(At(bs, i), At(os, i), At(ts, i), sub, unitId);
      ItemsConflictsAreSubvalues(bs, os, ts, i + 1, n, route, unitId);
      NavigateIndex(bs, i);
      NavigateIndex(os, i);
      NavigateIndex(ts, i);
      LiftSubvalues(here, route, Index(i), unitId, Arr(bs), Arr(os), Arr(ts));
      SubvaluesConcat(here, later, route, Arr(bs), Arr(os), Arr(ts));
    }
  }

  lemma {:induction false} KeysConflictsAreSubvalues(bm: seq<Member>, om: seq<Member>, tm: seq<Member>, keys: seq<string>, j: nat, route: seq<Step>, unitId: string)
    requires j <= |keys|
    ensures SubvaluesBelow(MergeKeys(bm, om, tm, keys, j, route, unitId).conflicts, route, Obj(bm), Obj(om), Obj(tm))
    decreases MembersSize(bm) + MembersSize(om) + MembersSize(tm) + 1, |keys| - j
  {
    if j < |keys| {
      var k := keys[j];
      var sub := route + [Key(k)];
      var here := MergeValues(Get(bm, k), Get(om, k), Get(tm, k), sub, unitId).conflicts;
      var later := MergeKeys(bm, om, tm, keys, j + 1, route, unitId).conflicts;
      assert MergeKeys(bm, om, tm, keys, j, route, unitId).conflicts == here + later;
      ConflictsAreSubvalues(Get(bm, k), Get(om, k), Get(tm, k), sub, unitId);
      KeysConflictsAreSubvalues(bm, om, tm, keys, j + 1, route, unitId);
      NavigateKey(bm, k);
      NavigateKey(om, k);
      NavigateKey(tm, k);
      LiftSubvalues(here, route, Key(k), unitId, Obj(bm), Obj(om), Obj(tm));
      SubvaluesConcat(here, later, route, Obj(bm), Obj(om), Obj(tm));
    }
  }

  /** Each conflict's ours side is what `v` holds along the conflict's route below `route`. */
  ghost predicate OursBelow(cs: seq<Conflict>, route: seq<Step>, v: Value) {
    forall c | c in cs :: |route| <= |c.route| && Navigate(v, c.route[|route|..]) == c.ours
  }

  lemma LiftOurs(cs: seq<Conflict>, route: seq<Step>, s: Step, unitId: string, v: Value)
    requires ConflictsUnder(cs, route + [s], unitId)
    requires OursBelow(cs, route + [s], Navigate(v, [s]))
    ensures OursBelow(cs, route, v)
  {
    forall c | c in cs ensures |route| <= |c.route| && Navigate(v, c.route[|route|..]) == c.ours {
      NavigatePast(v, route, s, c.route);
    }
  }

  lemma OursConcat(cs: seq<Conflict>, ds: seq<Conflict>, route: seq<Step>, v: Value)
    requires OursBelow(cs, route, v) && OursBelow(ds, route, v)
    ensures OursBelow(cs + ds, route, v)
  {
    forall c | c in cs + ds ensures |route| <= |c.route| && Navigate(v, c.route[|route|..]) == c.ours {
      if c !in cs {
        assert c in ds;
      }
    }
  }

  /**
   * The merged value holds the ours side at every conflict: a conflict
   * keeps ours where it arises, and arrays and objects are rebuilt from the
   * merges below them.
   */
  lemma {:induction false} MergedKeepsOurs(b: Value, o: Value, t: Value, route: seq<Step>, unitId: string)
    ensures OursBelow(MergeValues(b, o, t, route, unitId).conflicts, route, MergeValues(b, o, t, route, unitId).value)
    decreases Size(b) + Size(o) + Size(t), 1
  {
    var r := MergeValues(b, o, t, route, unitId);
    if Equal(o, t) || Equal(b, o) || Equal(b, t) {
      assert r.conflicts == [];
    } else if b.Arr? && o.Arr? && t.Arr? {
      var n := Max3(|b.items|, |o.items|, |t.items|);
      SizeOfArrays(b, o, t);
      assert r.conflicts == MergeItems(b.items, o.items, t.items, 0, n, route, unitId).conflicts;
      MergeArrays(b, o, t, route, unitId);
      ItemsKeepOurs(b.items, o.items, t.items, 0, n, route, unitId, r.value.items);
    } else if b.Obj? && o.Obj? && t.Obj? {
      var keys := KeyUnion3(b.members, o.members, t.members);
      SizeOfObjects(b, o, t);
      assert r.conflicts == MergeKeys(b.members, o.members, t.members, keys, 0, route, unitId).conflicts;
      MergeObjects(b, o, t, route, unitId);
      KeysKeepOurs(b.members, o.members, t.members, keys, 0, route, unitId, r.value.members);
    } else {
      assert r.conflicts == [Conflict(unitId, route, b, o, t)];
      assert route[|route|..] == [];
    }
  }

  /** Entry `p` of `full` is the merge of the three entries at `p`. */
  ghost predicate ItemMerged(bs: seq<Value>, os: seq<Value>, ts: seq<Value>, route: seq<Step>, unitId: string, full: seq<Value>, p: nat) {
    p < |full| && full[p] == MergeValues(At(bs, p), At(os, p), At(ts, p), route + [Index(p)], unitId).value
  }

  lemma {:induction false} ItemsKeepOurs(bs: seq<Value>, os: seq<Value>, ts: seq<Value>, i: nat, n: nat, route: seq<Step>, unitId: string, full: seq<Value>)
    requires i <= n == Max3(|bs|, |os|, |ts|) && |full| == n
    requires forall p | 0 <= p < n :: ItemMerged(bs, os, ts, route, unitId, full, p)
    ensures OursBelow(MergeItems(bs, os, ts, i, n, route, unitId).conflicts, route, Arr(full))
    decreases ItemsSize(bs) + ItemsSize(os) + ItemsSize(ts) + 1, n - i
  {
    if i < n {
      var sub := route + [Index(i)];
      var here := MergeValues(At(bs, i), At(os, i), At(ts, i), sub, unitId);
      var later := MergeItems(bs, os, ts, i + 1, n, route, unitId).conflicts;
      assert MergeItems(bs, os, ts, i, n, route, unitId).conflicts == here.conflicts + later;
      assert ItemMerged(bs, os, ts, route, unitId, full, i);
      MergedKeepsOurs(At(bs, i), At(os, i), At(ts, i), sub, unitId);
      ItemsKeepOurs(bs, os, ts, i + 1, n, route, unitId, full);
      LiftItemOurs(here.conflicts, later, route, i, unitId, full);
    }
  }

  /** One step of the array loop: the conflicts at index `i` join those after it. */
  lemma LiftItemOurs(cs: seq<Conflict>, later: seq<Conflict>, route: seq<Step>, i: nat, unitId: string, full: seq<Value>)
    requires i < |full|
    requires ConflictsUnder(cs, route + [Index(i)], unitId)
    requires OursBelow(cs, route + [Index(i)], full[i])
    requires OursBelow(later, route, Arr(full))
    ensures OursBelow(cs + later, route, Arr(full))
  {
    NavigateIndex(full, i);
    LiftOurs(cs, route, Index(i), unitId, Arr(full));
    OursConcat(cs, later, route, Arr(full));
  }

  lemma {:induction false} KeysKeepOurs(bm: seq<Member>, om: seq<Member>, tm: seq<Member>, keys: seq<string>, j: nat, route: seq<Step>, unitId: string, full: seq<Member>)
    requires j <= |keys|
    requires forall k :: Get(full, k) == MergeValues(Get(bm, k), Get(om, k), Get(tm, k), route + [Key(k)], unitId).value
    ensures OursBelow(MergeKeys(bm, om, tm, keys, j, route, unitId).conflicts, route, Obj(full))
    decreases MembersSize(bm) + MembersSize(om) + MembersSize(tm) + 1, |keys| - j
  {
    if j < |keys| {
      var k := keys[j];
      var sub := route + [Key(k)];
      var here := MergeValues(Get(bm, k), Get(om, k), Get(tm, k), sub, unitId);
      var later := MergeKeys(bm, om, tm, keys, j + 1, route, unitId).conflicts;
      assert MergeKeys(bm, om, tm, keys, j, route, unitId).conflicts == here.conflicts + later;
      MergedKeepsOurs(Get(bm, k), Get(om, k), Get(tm, k), sub, unitId);
      KeysKeepOurs(bm, om, tm, keys, j + 1, route, unitId, full);
      NavigateKey(full, k);
      assert Navigate(Obj(full), [Key(k)]) == here.value;
      LiftOurs(here.conflicts, route, Key(k), unitId, Obj(full));
      OursConcat(here.conflicts, later, route, Obj(full));
    }
  }

  /**
   * At every conflict of a unit merge, the merged unit holds, along the
   * conflict's route, exactly what ours holds there.
   */
  lemma UnitConflictsKeepOurs(baseUnits: seq<Member>, ourUnits: seq<Member>, theirUnits: seq<Member>)
    ensures forall c | c in MergeUnits(baseUnits, ourUnits, theirUnits).conflicts ::
      && Navigate(Get(MergeUnits(baseUnits, ourUnits, theirUnits).value, c.unitId), c.route) == c.ours
      && Navigate(Get(ourUnits, c.unitId), c.route) == c.ours
  {
    var m := MergeUnits(baseUnits, ourUnits, theirUnits);
    forall c | c in m.conflicts
      ensures && Navigate(Get(m.value, c.unitId), c.route) == c.ours
              && Navigate(Get(ourUnits, c.unitId), c.route) == c.ours
    {
      var u := c.unitId;
      var b, o, t := Get(baseUnits, u), Get(ourUnits, u), Get(theirUnits, u);
      MergeUnitsOfUnit(baseUnits, ourUnits, theirUnits, u);
      assert c in ConflictsOf(m.conflicts, u);
      assert c in MergeValues(b, o, t, [], u).conflicts;
      MergedKeepsOurs(b, o, t, [], u);
      ConflictsAreSubvalues(b, o, t, [], u);
      assert c.route[0..] == c.route;
    }
  }

  /**
   * Objects whose every key was changed on at most one side merge without
   * conflict: each key changed on one side takes that side's value, and
   * each key changed on neither side stays deep-equal to the base.
   */
  lemma DisjointFieldEdits(b: Value, o: Value, t: Value, route: seq<Step>, unitId: string)
    requires b.Obj? && o.Obj? && t.Obj?
    requires forall k :: Equal(Get(b.members, k), Get(o.members, k)) || Equal(Get(b.members, k), Get(t.members, k))
    ensures MergeValues(b, o, t, route, unitId).conflicts == []
    ensures MergeValues(b, o, t, route, unitId).value.Obj?
    ensures forall k :: KeyTakesChangedSide(b, o, t, MergeValues(b, o, t, route, unitId).value, k)
  {
    var v := MergeValues(b, o, t, route, unitId).value;
    forall k ensures v.Obj? && KeyTakesChangedSide(b, o, t, v, k) {
      DisjointKey(b, o, t, route, unitId, k);
    }
    if !(Equal(o, t) || Equal(b, o) || Equal(b, t)) {
      NoConflictsWhenDisjoint(b.members, o.members, t.members, KeyUnion3(b.members, o.members, t.members), 0, route, unitId);
    }
  }

  /** The per-key claim of `DisjointFieldEdits`, for the value `v` the merge produced. */
  predicate KeyTakesChangedSide(b: Value, o: Value, t: Value, v: Value, k: string)
    requires b.Obj? && o.Obj? && t.Obj? && v.Obj?
  {
    var bk, ok, tk, vk := Get(b.members, k), Get(o.members, k), Get(t.members, k), Get(v.members, k);
    && (!Equal(bk, ok) ==> vk == ok)
    && (!Equal(bk, tk) ==> vk == tk)
    && (Equal(bk, ok) && Equal(bk, tk) ==> Equal(vk, bk))
  }

  lemma DisjointKey(b: Value, o: Value, t: Value, route: seq<Step>, unitId: string, k: string)
    requires b.Obj? && o.Obj? && t.Obj?
    requires Equal(Get(b.members, k), Get(o.members, k)) || Equal(Get(b.members, k), Get(t.members, k))
    ensures MergeValues(b, o, t, route, unitId).value.Obj?
    ensures KeyTakesChangedSide(b, o, t, MergeValues(b, o, t, route, unitId).value, k)
  {
    var bk, ok, tk := Get(b.members, k), Get(o.members, k), Get(t.members, k);
    var v := MergeValues(b, o, t, route, unitId).value;
    if Equal(o, t) {
      assert v == o;
      EqualGet(o, t, k);
      AgreeingSidesKey(bk, ok, tk);
    } else if Equal(b, o) {
      assert v == t;
      EqualGet(b, o, k);
      UnchangedOursKey(bk, ok, tk);
    } else if Equal(b, t) {
      assert v == o;
      EqualGet(b, t, k);
      UnchangedTheirsKey(bk, ok, tk);
    } else {
      RecursedKey(b, o, t, route, unitId, k);
    }
  }

  lemma RecursedKey(b: Value, o: Value, t: Value, route: seq<Step>, unitId: string, k: string)
    requires b.Obj? && o.Obj? && t.Obj?
    requires !Equal(o, t) && !Equal(b, o) && !Equal(b, t)
    requires Equal(Get(b.members, k), Get(o.members, k)) || Equal(Get(b.members, k), Get(t.members, k))
    ensures MergeValues(b, o, t, route, unitId).value.Obj?
    ensures KeyTakesChangedSide(b, o, t, MergeValues(b, o, t, route, unitId).value, k)
  {
    var bk, ok, tk := Get(b.members, k), Get(o.members, k), Get(t.members, k);
    MergeObjectsKey(b, o, t, route, unitId, k);
    var vk := MergeValues(bk, ok, tk, route + [Key(k)], unitId).value;
    if !Equal(bk, ok) {
      MergeKeepsOurs(bk, ok, tk, route + [Key(k)], unitId);
    } else {
      MergeTakesTheirs(bk, ok, tk, route + [Key(k)], unitId);
      if Equal(bk, tk) {
        EqualSymmetric(bk, tk);
        EqualTransitive(vk, tk, bk);
      } else if Equal(ok, tk) {
        EqualTransitive(bk, ok, tk);
      }
    }
  }

  lemma AgreeingSidesKey(bk: Value, ok: Value, tk: Value)
    requires Equal(ok, tk)
    requires Equal(bk, ok) || Equal(bk, tk)
    ensures !Equal(bk, tk) ==> false
    ensures Equal(bk, ok) && Equal(bk, tk) ==> Equal(ok, bk)
    ensures !Equal(bk, ok) ==> Equal(bk, tk)
  {
    if Equal(bk, ok) {
      EqualSymmetric(bk, ok);
      EqualTransitive(bk, ok, tk);
    } else {
      EqualSymmetric(ok, tk);
      EqualTransitive(bk, tk, ok);
    }
  }

  lemma UnchangedOursKey(bk: Value, ok: Value, tk: Value)
    requires Equal(bk, ok)
    ensures Equal(bk, tk) ==> Equal(tk, bk)
  {
    if Equal(bk, tk) {
      EqualSymmetric(bk, tk);
    }
  }

  lemma UnchangedTheirsKey(bk: Value, ok: Value, tk: Value)
    requires Equal(bk, tk)
    ensures Equal(bk, ok) ==> Equal(ok, bk)
  {
    if Equal(bk, ok) {
      EqualSymmetric(bk, ok);
    }
  }

  lemma {:induction false} NoConflictsWhenDisjoint(bm: seq<Member>, om: seq<Member>, tm: seq<Member>, keys: seq<string>, j: nat, route: seq<Step>, unitId: string)
    requires j <= |keys|
    requires forall k :: Equal(Get(bm, k), Get(om, k)) || Equal(Get(bm, k), Get(tm, k))
    ensures MergeKeys(bm, om, tm, keys, j, route, unitId).conflicts == []
    decreases |keys| - j
  {
    if j < |keys| {
      var k := keys[j];
      assert Equal(Get(bm, k), Get(om, k)) || Equal(Get(bm, k), Get(tm, k));
      NoConflictsWhenDisjoint(bm, om, tm, keys, j + 1, route, unitId);
    }
  }

  // ---------------------------------------------------------------------------
  // Units.

  /** The conflicts reported for one unit. */
  function ConflictsOf(cs: seq<Conflict>, u: string): (r: seq<Conflict>)
    ensures forall c | c in r :: c in cs && c.unitId == u
    ensures forall c | c in cs && c.unitId == u :: c in r
  {
    if cs == [] then []
    else (if cs[0].unitId == u then [cs[0]] else []) + ConflictsOf(cs[1..], u)
  }

  /**
   * Each unit of the merge is the merge of its three versions from the
   * root, absent when that merge is undefined; its conflicts are exactly
   * those of that merge.
   */
  lemma MergeUnitsOfUnit(baseUnits: seq<Member>, ourUnits: seq<Member>, theirUnits: seq<Member>, u: string)
    ensures Get(MergeUnits(baseUnits, ourUnits, theirUnits).value, u)
      == MergeValues(Get(baseUnits, u), Get(ourUnits, u), Get(theirUnits, u), [], u).value
    ensures ConflictsOf(MergeUnits(baseUnits, ourUnits, theirUnits).conflicts, u)
      == MergeValues(Get(baseUnits, u), Get(ourUnits, u), Get(theirUnits, u), [], u).conflicts
  {
    var ids := KeyUnion3(baseUnits, ourUnits, theirUnits);
    MergeEachOfUnit(baseUnits, ourUnits, theirUnits, ids, 0, u);
    assert ids[0..] == ids;
    if u !in ids {
      EqualReflexive(Undef);
    }
  }

  lemma MergeEachOfUnit(bu: seq<Member>, ou: seq<Member>, tu: seq<Member>, ids: seq<string>, j: nat, u: string)
    requires Distinct(ids) && j <= |ids|
    ensures Get(MergeEach(bu, ou, tu, ids, j).value, u)
      == if u in ids[j..] then MergeValues(Get(bu, u), Get(ou, u), Get(tu, u), [], u).value else Undef
    ensures ConflictsOf(MergeEach(bu, ou, tu, ids, j).conflicts, u)
      == if u in ids[j..] then MergeValues(Get(bu, u), Get(ou, u), Get(tu, u), [], u).conflicts else []
  {
    MergeEachValueOfUnit(bu, ou, tu, ids, j, u);
    MergeEachConflictsOfUnit(bu, ou, tu, ids, j, u);
  }

  lemma {:induction false} MergeEachValueOfUnit(bu: seq<Member>, ou: seq<Member>, tu: seq<Member>, ids: seq<string>, j: nat, u: string)
    requires Distinct(ids) && j <= |ids|
    ensures Get(MergeEach(bu, ou, tu, ids, j).value, u)
      == if u in ids[j..] then MergeValues(Get(bu, u), Get(ou, u), Get(tu, u), [], u).value else Undef
    decreases |ids| - j
  {
    if j < |ids| {
      var v := ids[j];
      var here := MergeValues(Get(bu, v), Get(ou, v), Get(tu, v), [], v).value;
      var rest := MergeEach(bu, ou, tu, ids, j + 1).value;
      assert MergeEach(bu, ou, tu, ids, j).value == (if here != Undef then [Member(v, here)] else []) + rest;
      SuffixStep(ids, j, u);
      MergeEachValueOfUnit(bu, ou, tu, ids, j + 1, u);
      GetOptionalHead(v, here, rest, u);
    } else {
      assert u !in Keys(MergeEach(bu, ou, tu, ids, j).value);
    }
  }

  /** Looking a key up in a member list whose head is left out when undefined. */
  lemma GetOptionalHead(v: string, x: Value, rest: seq<Member>, u: string)
    ensures Get((if x != Undef then [Member(v, x)] else []) + rest, u) == if x != Undef && v == u then x else Get(rest, u)
  {
    if x != Undef {
      GetCons(Member(v, x), rest, u);
    } else {
      assert [] + rest == rest;
    }
  }

  lemma {:induction false} MergeEachConflictsOfUnit(bu: seq<Member>, ou: seq<Member>, tu: seq<Member>, ids: seq<string>, j: nat, u: string)
    requires Distinct(ids) && j <= |ids|
    ensures ConflictsOf(MergeEach(bu, ou, tu, ids, j).conflicts, u)
      == if u in ids[j..] then MergeValues(Get(bu, u), Get(ou, u), Get(tu, u), [], u).conflicts else []
    decreases |ids| - j
  {
    if j < |ids| {
      var v := ids[j];
      var here := MergeValues(Get(bu, v), Get(ou, v), Get(tu, v), [], v);
      var rest := MergeEach(bu, ou, tu, ids, j + 1);
      assert MergeEach(bu, ou, tu, ids, j).conflicts == here.conflicts + rest.conflicts;
      SuffixStep(ids, j, u);
      MergeEachConflictsOfUnit(bu, ou, tu, ids, j + 1, u);
      EachConflictsStep(here.conflicts, rest.conflicts, v, u);
    } else {
      assert MergeEach(bu, ou, tu, ids, j).conflicts == [];
    }
  }

  lemma EachConflictsStep(here: seq<Conflict>, rest: seq<Conflict>, v: string, u: string)
    requires forall c | c in here :: c.unitId == v
    ensures v != u ==> ConflictsOf(here + rest, u) == ConflictsOf(rest, u)
    ensures v == u && ConflictsOf(rest, u) == [] ==> ConflictsOf(here + rest, u) == here
  {
    ConflictsOfConcat(here, rest, u);
    if v == u {
      ConflictsOfOwn(here, u);
      assert here + [] == here;
    } else {
      ConflictsOfNone(here, u);
      assert [] + ConflictsOf(rest, u) == ConflictsOf(rest, u);
    }
  }

  lemma {:induction false} ConflictsOfConcat(x: seq<Conflict>, y: seq<Conflict>, u: string)
    ensures ConflictsOf(x + y, u) == ConflictsOf(x, u) + ConflictsOf(y, u)
  {
    if x != [] {
      assert (x + y)[1..] == x[1..] + y;
      ConflictsOfConcat(x[1..], y, u);
    } else {
      assert x + y == y;
    }
  }

  lemma {:induction false} ConflictsOfOwn(cs: seq<Conflict>, u: string)
    requires forall c | c in cs :: c.unitId == u
    ensures ConflictsOf(cs, u) == cs
  {
    if cs != [] {
      ConflictsOfOwn(cs[1..], u);
    }
  }

  lemma {:induction false} ConflictsOfNone(cs: seq<Conflict>, u: string)
    requires forall c | c in cs :: c.unitId != u
    ensures ConflictsOf(cs, u) == []
  {
    if cs != [] {
      ConflictsOfNone(cs[1..], u);
    }
  }

  /** A unit deleted on one side and left alone on the other is deleted, without conflict. */
  lemma UnitDeletedOnOneSide(baseUnits: seq<Member>, ourUnits: seq<Member>, theirUnits: seq<Member>, u: string)
    requires (u !in Keys(ourUnits) && Equal(Get(baseUnits, u), Get(theirUnits, u)))
          || (u !in Keys(theirUnits) && Equal(Get(baseUnits, u), Get(ourUnits, u)))
    ensures u !in Keys(MergeUnits(baseUnits, ourUnits, theirUnits).value)
    ensures ConflictsOf(MergeUnits(baseUnits, ourUnits, theirUnits).conflicts, u) == []
  {
    MergeUnitsOfUnit(baseUnits, ourUnits, theirUnits, u);
    var b, o, t := Get(baseUnits, u), Get(ourUnits, u), Get(theirUnits, u);
    if u !in Keys(ourUnits) && Equal(b, t) {
      MergeKeepsOurs(b, o, t, [], u);
    } else {
      MergeTakesTheirs(b, o, t, [], u);
      if Equal(o, t) {
        EqualReflexive(Undef);
      }
    }
  }

  /** A unit created on one side only is taken as created. */
  lemma UnitCreatedOnOneSide(baseUnits: seq<Member>, ourUnits: seq<Member>, theirUnits: seq<Member>, u: string)
    requires u !in Keys(baseUnits)
    requires (u !in Keys(ourUnits) && u in Keys(theirUnits)) || (u in Keys(ourUnits) && u !in Keys(theirUnits))
    ensures Get(MergeUnits(baseUnits, ourUnits, theirUnits).value, u)
      == if u in Keys(ourUnits) then Get(ourUnits, u) else Get(theirUnits, u)
    ensures ConflictsOf(MergeUnits(baseUnits, ourUnits, theirUnits).conflicts, u) == []
  {
    MergeUnitsOfUnit(baseUnits, ourUnits, theirUnits, u);
    var b, o, t := Get(baseUnits, u), Get(ourUnits, u), Get(theirUnits, u);
    if u in Keys(ourUnits) {
      MergeKeepsOurs(b, o, t, [], u);
    } else {
      MergeTakesTheirs(b, o, t, [], u);
    }
  }

  /**
   * Arrays merge by position: when ours edits the first item and theirs
   * drops the last, the merged array keeps the full length with an
   * undefined hole where theirs dropped the item.
   */
  lemma ArrayDropLeavesHole(x: Value, x': Value, y: Value, route: seq<Step>, unitId: string)
    requires !Equal(x, x') && y != Undef
    ensures MergeValues(Arr([x, y]), Arr([x', y]), Arr([x]), route, unitId) == Merged(Arr([x', Undef]), [])
  {
    var b, o, t := Arr([x, y]), Arr([x', y]), Arr([x]);
    assert At(b.items, 0) == x && At(o.items, 0) == x';
    assert !Equal(b, o);
    MergeArrays(b, o, t, route, unitId);
    EqualReflexive(x);
    MergeKeepsOurs(x, x', x, route + [Index(0)], unitId);
    EqualReflexive(y);
    MergeTakesTheirs(y, y, Undef, route + [Index(1)], unitId);
    var m0 := MergeValues(x, x', x, route + [Index(0)], unitId);
    var m1 := MergeValues(y, y, Undef, route + [Index(1)], unitId);
    assert m0 == Merged(x', []);
    assert m1 == Merged(Undef, []);
    assert Max3(|b.items|, |o.items|, |t.items|) == 2;
    assert At(b.items, 0) == x && At(o.items, 0) == x' && At(t.items, 0) == x;
    var tail := MergeItems(b.items, o.items, t.items, 1, 2, route, unitId);
    assert tail == Merged([Undef], []) by {
      assert At(b.items, 1) == y && At(o.items, 1) == y && At(t.items, 1) == Undef;
      var last := MergeItems(b.items, o.items, t.items, 2, 2, route, unitId);
      assert last == Merged([], []);
      assert tail == Merged([m1.value] + last.value, m1.conflicts + last.conflicts);
      assert [m1.value] + last.value == [Undef];
      assert m1.conflicts + last.conflicts == [];
    }
    assert MergeItems(b.items, o.items, t.items, 0, 2, route, unitId) == Merged([m0.value] + tail.value, m0.conflicts + tail.conflicts);
    assert [m0.value] + tail.value == [x', Undef];
    assert m0.conflicts + tail.conflicts == [];
  }
}

=== FILE: paths.dfy ===
/**
 * The token-path helpers the resolution loop uses to read and write inside
 * a unit: the current ones of src/server/app.ts (RFC 6901 first, raw
 * splitting as a fallback, arrays created for index tokens) and the legacy
 * ones of src/server/index.ts (raw splitting only, objects only).
 */
module Paths {
  import opened Wrappers
  import opened Json
  import Decimal
  import Pointer

  /** `isArrayIndex(token)`, taken as a canonical non-negative decimal. */
  predicate IsIndex(t: string) {
    Decimal.IsArrayIndex(t)
  }

  function IndexOf(t: string): nat
    requires IsIndex(t)
  {
    Decimal.ParseIndex(t)
  }

  /** 2^32 - 1, the length limit of a JavaScript array: no element sits at or above it. */
  const MaxArrayLength: nat := 4294967295

  /**
   * An index token `current[Number(token)]` reaches an element with: at or
   * above the length limit it names an ordinary property instead.
   */
  predicate IsElement(t: string) {
    IsIndex(t) && IndexOf(t) < MaxArrayLength
  }

  /**
   * `current[token]` on a container: an array element for an element token,
   * a member for an object; any other property of an array reads as
   * undefined.
   */
  function Child(cur: Value, t: string): (r: Value)
    ensures Size(r) <= Size(cur)
  {
    if cur.Arr? && IsElement(t) then At(cur.items, IndexOf(t))
    else if cur.Obj? then Get(cur.members, t)
    else Undef
  }

  /** `current[token] = x` on a container; any other property of an array is not modelled, so the array is unchanged. */
  function Assign(cur: Value, t: string, x: Value): (r: Value)
    requires IsContainer(cur)
    ensures r.Arr? == cur.Arr? && r.Obj? == cur.Obj?
    ensures (cur.Obj? || IsElement(t)) ==> Child(r, t) == x
    ensures cur.Arr? && !IsElement(t) ==> r == cur
  {
    if cur.Arr? && IsElement(t) then Arr(SetAt(cur.items, IndexOf(t), x))
    else if cur.Obj? then Obj(Put(cur.members, t, x))
    else cur
  }

  /** `getValueAtTokens(target, tokens)`: undefined at the first non-container on the way. */
  function GetAtTokens(cur: Value, tokens: seq<string>): (r: Value)
    ensures tokens != [] && r != Undef ==> IsContainer(cur)
    decreases |tokens|
  {
    if tokens == [] then cur
    else if !IsContainer(cur) then Undef
    else GetAtTokens(Child(cur, tokens[0]), tokens[1..])
  }

  /** Reading along `xs + ys` is reading `ys` from what `xs` reaches. */
  lemma {:induction false} GetAtTokensAppend(cur: Value, xs: seq<string>, ys: seq<string>)
    ensures GetAtTokens(cur, xs + ys) == GetAtTokens(GetAtTokens(cur, xs), ys)
    decreases |xs|
  {
    if xs == [] {
      assert xs + ys == ys;
    } else if !IsContainer(cur) {
      assert GetAtTokens(Undef, ys) == Undef;
    } else {
      assert (xs + ys)[1..] == xs[1..] + ys;
      GetAtTokensAppend(Child(cur, xs[0]), xs[1..], ys);
    }
  }

  /** The container made for a missing intermediate: `[]` before an index token when arrays are made, `{}` otherwise. */
  function Fresh(next: string, makeArrays: bool): (r: Value)
    ensures IsContainer(r)
  {
    if makeArrays && IsIndex(next) then Arr([]) else Obj([])
  }

  /** The node the write loop descends into: the existing child when it is a container, a fresh one otherwise. */
  function Base(cur: Value, t: string, next: string, makeArrays: bool): (r: Value)
    ensures IsContainer(r)
    ensures IsContainer(Child(cur, t)) ==> r == Child(cur, t)
  {
    var child := Child(cur, t);
    if IsContainer(child) then child else Fresh(next, makeArrays)
  }

  /**
   * The write loop of `setValueAtTokens` (`makeArrays`) and of the legacy
   * `setValueAtPath` (not `makeArrays`), for non-empty tokens: descend,
   * replacing a missing or non-container intermediate by a fresh one, and
   * assign at the last token.
   */
  function SetIn(cur: Value, tokens: seq<string>, v: Value, makeArrays: bool): (r: Value)
    requires IsContainer(cur) && tokens != []
    ensures r.Arr? == cur.Arr? && r.Obj? == cur.Obj?
    decreases |tokens|
  {
    var t := tokens[0];
    if |tokens| == 1 then Assign(cur, t, v)
    else Assign(cur, t, SetIn(Base(cur, t, tokens[1], makeArrays), tokens[1..], v, makeArrays))
  }

  /** `setValueAtTokens(target, tokens, value)`: empty tokens give the value itself. */
  function SetAtTokens(target: Value, tokens: seq<string>, v: Value): (r: Value)
    requires IsContainer(target)
    ensures tokens == [] ==> r == v
    ensures tokens != [] ==> r.Arr? == target.Arr? && r.Obj? == target.Obj?
  {
    if tokens == [] then v else SetIn(target, tokens, v, true)
  }

  // ---------------------------------------------------------------------------
  // Paths.

  /** `path.replace(/^\//, "")`. */
  function StripSlash(p: string): string {
    if p != [] && p[0] == '/' then p[1..] else p
  }

  /** `legacySplitTokens(path)`: one leading `/` dropped, the rest split at `/`, nothing unescaped. */
  function LegacyTokens(p: string): (ts: seq<string>)
    ensures p != "" ==> |ts| >= 1
  {
    if p == "" then [] else Pointer.Split(StripSlash(p), '/')
  }

  /** `parsePointerTokens(path)`, `null` standing for the thrown error. */
  function PointerTokens(p: string): Option<seq<string>> {
    match Pointer.FromPointer(p)
    case Ok(ts) => Some(ts)
    case Err(_) => None
  }

  /** `getValueAtPath(target, path)` of src/server/app.ts. */
  function GetValueAtPath(target: Value, p: string): (r: Value)
    ensures Falsy(target) ==> r == Undef
    ensures !Falsy(target) && p == "" ==> r == target
    ensures !Falsy(target) && p != "" ==>
              r == GetAtTokens(target, WriteTokens(p)) || r == GetAtTokens(target, LegacyTokens(p))
  {
    if Falsy(target) then Undef
    else if p == "" then target
    else
      var pt := PointerTokens(p);
      if pt.Some? && (GetAtTokens(target, pt.value) != Undef || Pointer.ContainsEscapes(p)) then
        GetAtTokens(target, pt.value)
      else
        GetAtTokens(target, LegacyTokens(p))
  }

  /** The tokens `setValueAtPath` writes at: the pointer's when it parses, the raw split otherwise. */
  function WriteTokens(p: string): seq<string> {
    var pt := PointerTokens(p);
    if pt.Some? then pt.value else LegacyTokens(p)
  }

  /** `setValueAtPath(target, path, value)` of src/server/app.ts. */
  function SetValueAtPath(target: Value, p: string, v: Value): (r: Value)
    requires IsContainer(target)
    ensures p == "" ==> r == v
    ensures p != "" ==> r.Arr? == target.Arr? && r.Obj? == target.Obj?
  {
    SetAtTokens(target, WriteTokens(p), v)
  }

  /** `getValueAtPath(target, path)` of src/server/index.ts. */
  function LegacyGetValueAtPath(target: Value, p: string): (r: Value)
    ensures Falsy(target) ==> r == Undef
    ensures !Falsy(target) && p == "" ==> r == target
    ensures p != "" && r != Undef ==> IsContainer(target)
  {
    if Falsy(target) then Undef
    else if p == "" then target
    else GetAtTokens(target, LegacyTokens(p))
  }

  /** `setValueAtPath(target, path, value)` of src/server/index.ts: never makes arrays. */
  function LegacySetValueAtPath(target: Value, p: string, v: Value): (r: Value)
    requires IsContainer(target)
    ensures p == "" ==> r == v
    ensures p != "" ==> r.Arr? == target.Arr? && r.Obj? == target.Obj?
  {
    if p == "" then v else SetIn(target, LegacyTokens(p), v, false)
  }

  // ---------------------------------------------------------------------------
  // Properties of the token-level helpers.

  /** Distinct canonical index tokens name distinct positions. */
  lemma IndexInjective(a: string, b: string)
    requires IsIndex(a) && IsIndex(b) && a != b
    ensures IndexOf(a) != IndexOf(b)
  {
    Decimal.NatToStringParse(a);
    Decimal.NatToStringParse(b);
  }

  /** Assigning at one token leaves what every other token reads unchanged. */
  lemma ChildAssignOther(cur: Value, t: string, u: string, x: Value)
    requires IsContainer(cur) && t != u
    ensures Child(Assign(cur, t, x), u) == Child(cur, u)
  {
    if cur.Arr? && IsElement(t) && IsElement(u) {
      IndexInjective(t, u);
    }
  }

  /**
   * A write reaches its target when every array the loop walks through is
   * met with an element token; any other property of an array is not
   * modelled.
   */
  predicate Writable(cur: Value, tokens: seq<string>, makeArrays: bool)
    decreases |tokens|
  {
    tokens == [] || !IsContainer(cur) ||
    ((cur.Arr? ==> IsElement(tokens[0])) &&
     (|tokens| > 1 ==> Writable(Base(cur, tokens[0], tokens[1], makeArrays), tokens[1..], makeArrays)))
  }

  /** Reading back the tokens just written gives the written value. */
  lemma {:induction false} SetGetRoundTrip(cur: Value, tokens: seq<string>, v: Value, makeArrays: bool)
    requires IsContainer(cur) && tokens != []
    requires Writable(cur, tokens, makeArrays)
    ensures GetAtTokens(SetIn(cur, tokens, v, makeArrays), tokens) == v
    decreases |tokens|
  {
    var t := tokens[0];
    var r := SetIn(cur, tokens, v, makeArrays);
    assert GetAtTokens(r, tokens) == GetAtTokens(Child(r, t), tokens[1..]);
    if |tokens| > 1 {
      var base := Base(cur, t, tokens[1], makeArrays);
      SetGetRoundTrip(base, tokens[1..], v, makeArrays);
    }
  }

  /** Every index token among `tokens` is below the array length limit. */
  predicate ElementIndices(tokens: seq<string>) {
    forall i | 0 <= i < |tokens| :: IsIndex(tokens[i]) ==> IsElement(tokens[i])
  }

  /**
   * A write into a fresh empty object always lands: in the legacy loop
   * whatever the tokens, in the current one when no index token reaches the
   * array length limit (`Paths.PropertyIndex` shows what happens otherwise).
   */
  lemma {:induction false} FreshWritable(tokens: seq<string>, makeArrays: bool)
    requires tokens != []
    requires makeArrays ==> ElementIndices(tokens)
    ensures Writable(Fresh(tokens[0], makeArrays), tokens, makeArrays)
    ensures Writable(Obj([]), tokens, makeArrays)
    decreases |tokens|
  {
    if |tokens| > 1 {
      assert makeArrays ==> ElementIndices(tokens[1..]) by {
        if makeArrays {
          forall i | 0 <= i < |tokens[1..]| ensures IsIndex(tokens[1..][i]) ==> IsElement(tokens[1..][i]) {
            assert tokens[1..][i] == tokens[i + 1];
          }
        }
      }
      FreshWritable(tokens[1..], makeArrays);
      assert Child(Fresh(tokens[0], makeArrays), tokens[0]) == Undef;
      assert Child(Obj([]), tokens[0]) == Undef;
    }
  }

  /**
   * An index from the array length limit up to 2^53 passes `isArrayIndex`,
   * so a missing node before it is made an array, but on an array it names
   * an ordinary property: the model reads nothing there and writes nothing.
   */
  lemma PropertyIndex(n: nat, xs: seq<Value>, v: Value)
    requires MaxArrayLength <= n <= Decimal.MaxExact
    ensures IsIndex(Decimal.NatToString(n)) && !IsElement(Decimal.NatToString(n))
    ensures Fresh(Decimal.NatToString(n), true) == Arr([])
    ensures Child(Arr(xs), Decimal.NatToString(n)) == Undef
    ensures Assign(Arr(xs), Decimal.NatToString(n), v) == Arr(xs)
  {
    Decimal.ParseNatToString(n);
  }

  /** A token of 17 or more digits is no index, so a missing node before it is made an object. */
  lemma LongTokenMakesObject(t: string, makeArrays: bool)
    requires Decimal.IsCanonical(t) && |t| >= 17
    ensures !IsIndex(t)
    ensures Fresh(t, makeArrays) == Obj([])
  {
    Decimal.LongTokensRejected(t);
  }

  lemma ZeroIsElement()
    ensures IsIndex("0") && IsElement("0") && IndexOf("0") == 0
  {
    assert Decimal.ParseIndex("0") == Decimal.ParseIndex("") * 10 + Decimal.DigitValue('0');
  }

  /** Two token paths that part ways: neither is a prefix of the other. */
  predicate Diverge(a: seq<string>, b: seq<string>)
    decreases |a|
  {
    a != [] && b != [] && (a[0] != b[0] || Diverge(a[1..], b[1..]))
  }

  /** Nothing at all can be read below a non-container. */
  lemma GetBelowLeaf(cur: Value, tokens: seq<string>)
    requires !IsContainer(cur) && tokens != []
    ensures GetAtTokens(cur, tokens) == Undef
  {
  }

  /** A write changes nothing that is read along a path diverging from the written one. */
  lemma {:induction false} SetInFrame(cur: Value, tokens: seq<string>, v: Value, makeArrays: bool, other: seq<string>)
    requires IsContainer(cur) && tokens != []
    requires Diverge(tokens, other)
    ensures GetAtTokens(SetIn(cur, tokens, v, makeArrays), other) == GetAtTokens(cur, other)
    decreases |tokens|
  {
    var t := tokens[0];
    var r := SetIn(cur, tokens, v, makeArrays);
    assert GetAtTokens(r, other) == GetAtTokens(Child(r, other[0]), other[1..]);
    assert GetAtTokens(cur, other) == GetAtTokens(Child(cur, other[0]), other[1..]);
    if other[0] != t {
      SetInFrameHead(cur, tokens, v, makeArrays, other[0]);
    } else {
      assert |tokens| > 1;
      var base := Base(cur, t, tokens[1], makeArrays);
      if cur.Obj? || IsElement(t) {
        assert Child(r, t) == SetIn(base, tokens[1..], v, makeArrays);
        SetInFrame(base, tokens[1..], v, makeArrays, other[1..]);
        if !IsContainer(Child(cur, t)) {
          FreshReadsNothing(Child(cur, t), base, other[1..]);
        }
      }
    }
  }

  /** A write leaves unchanged the child at every other token of the node it starts from. */
  lemma SetInFrameHead(cur: Value, tokens: seq<string>, v: Value, makeArrays: bool, u: string)
    requires IsContainer(cur) && tokens != [] && u != tokens[0]
    ensures Child(SetIn(cur, tokens, v, makeArrays), u) == Child(cur, u)
  {
    var t := tokens[0];
    if |tokens| == 1 {
      ChildAssignOther(cur, t, u, v);
    } else {
      ChildAssignOther(cur, t, u, SetIn(Base(cur, t, tokens[1], makeArrays), tokens[1..], v, makeArrays));
    }
  }

  /** Below a fresh node, as below a leaf, nothing is read along a path that leaves it. */
  lemma FreshReadsNothing(leaf: Value, base: Value, other: seq<string>)
    requires !IsContainer(leaf) && other != []
    requires base == Obj([]) || base == Arr([])
    ensures GetAtTokens(base, other) == GetAtTokens(leaf, other)
  {
    assert Child(base, other[0]) == Undef;
    assert GetAtTokens(base, other) == GetAtTokens(Undef, other[1..]);
    GetBelowLeaf(leaf, other);
  }

  /**
   * A missing intermediate is created as an array exactly when arrays are
   * made and the following token is an index; the legacy loop always makes
   * an object.
   */
  lemma CreatedContainer(cur: Value, tokens: seq<string>, v: Value, makeArrays: bool)
    requires IsContainer(cur) && |tokens| > 1
    requires cur.Obj? || IsElement(tokens[0])
    requires !IsContainer(Child(cur, tokens[0]))
    ensures Child(SetIn(cur, tokens, v, makeArrays), tokens[0]).Arr? <==> makeArrays && IsIndex(tokens[1])
    ensures Child(SetIn(cur, tokens, v, makeArrays), tokens[0]).Obj? <==> !(makeArrays && IsIndex(tokens[1]))
  {
  }

  // ---------------------------------------------------------------------------
  // Properties of the path-level helpers.

  /** Splitting a pointer without `~` yields tokens that unescape to themselves. */
  lemma PlainTokens(p: string)
    requires p != "" && p[0] == '/' && '~' !in p
    ensures Pointer.FromPointer(p) == Ok(LegacyTokens(p))
  {
    var raw := Pointer.Split(p[1..], '/');
    assert '~' !in p[1..];
    Pointer.SplitKeepsOut(p[1..], '/', '~');
    forall i | 0 <= i < |raw| ensures Pointer.UnescapeAll(raw)[i] == raw[i] {
      Pointer.UnescapeWithoutEscapes(raw[i]);
    }
    assert Pointer.UnescapeAll(raw) == raw;
    assert StripSlash(p) == p[1..];
  }

  /**
   * The pointer reading wins whenever the path parses as a pointer and
   * either finds something or holds an escape `~0` or `~1`.
   */
  lemma PointerReadWins(target: Value, p: string)
    requires !Falsy(target) && p != ""
    ensures p[0] == '/' && Pointer.ContainsEscapes(p) ==> GetValueAtPath(target, p) == GetAtTokens(target, WriteTokens(p))
    ensures PointerTokens(p).Some? && GetAtTokens(target, WriteTokens(p)) != Undef ==>
              GetValueAtPath(target, p) == GetAtTokens(target, WriteTokens(p))
  {
  }

  /**
   * The raw reading is used only as the fallback: when the result is not
   * the pointer reading, the path parsed, the pointer reading found nothing
   * and the path holds no escape; and in exactly that case the result is
   * the raw reading.
   */
  lemma RawReadFallback(target: Value, p: string)
    requires !Falsy(target) && p != ""
    ensures GetValueAtPath(target, p) != GetAtTokens(target, WriteTokens(p)) ==>
              && PointerTokens(p).Some?
              && GetAtTokens(target, WriteTokens(p)) == Undef
              && !Pointer.ContainsEscapes(p)
    ensures PointerTokens(p).Some? && GetAtTokens(target, WriteTokens(p)) == Undef && !Pointer.ContainsEscapes(p) ==>
              GetValueAtPath(target, p) == GetAtTokens(target, LegacyTokens(p))
  {
  }

  /** On a path without `~` the pointer reading and the raw reading agree, so reads and write targets match the legacy helpers. */
  lemma PathsAgreeWithoutTilde(target: Value, p: string)
    requires '~' !in p
    ensures GetValueAtPath(target, p) == LegacyGetValueAtPath(target, p)
    ensures WriteTokens(p) == LegacyTokens(p)
  {
    Pointer.FromPointerErrors(p);
    if p != "" && p[0] == '/' {
      PlainTokens(p);
    }
  }

  /** Reading a path back after writing a defined value at it gives that value (a falsy value written at the root reads back as undefined). */
  lemma PathRoundTrip(target: Value, p: string, v: Value)
    requires IsContainer(target) && v != Undef
    requires p != "" || !Falsy(v)
    requires Writable(target, WriteTokens(p), true)
    ensures GetValueAtPath(SetValueAtPath(target, p, v), p) == v
  {
    Pointer.FromPointerErrors(p);
    var ts := WriteTokens(p);
    if p == "" {
      assert ts == [];
    } else {
      assert ts != [] by {
        if p[0] == '/' {
          assert ts == Pointer.UnescapeAll(Pointer.Split(p[1..], '/'));
        }
      }
      SetGetRoundTrip(target, ts, v, true);
    }
  }

  /** The legacy helpers read back what they wrote along a writable path. */
  lemma LegacyPathRoundTrip(target: Value, p: string, v: Value)
    requires IsContainer(target)
    requires p != "" || !Falsy(v)
    requires Writable(target, LegacyTokens(p), false)
    ensures LegacyGetValueAtPath(LegacySetValueAtPath(target, p, v), p) == v
  {
    if p != "" {
      SetGetRoundTrip(target, LegacyTokens(p), v, false);
    }
  }

  /** The tokens of a one-token path `/k`, as both helpers read it. */
  lemma SingleTokenTokens(k: string)
    requires '/' !in k
    ensures PointerTokens("/" + k) == Some([Pointer.UnescapeToken(k)])
    ensures WriteTokens("/" + k) == [Pointer.UnescapeToken(k)]
    ensures LegacyTokens("/" + k) == [k]
  {
    var p := "/" + k;
    assert p[1..] == k;
    Pointer.SplitWithoutSeparator(k, '/');
    assert Pointer.UnescapeAll([k]) == [Pointer.UnescapeToken(k)];
    assert StripSlash(p) == k;
  }

  /** A path whose token holds an escape holds that escape itself. */
  lemma EscapesOfSlashPath(k: string)
    requires Pointer.ContainsEscapes(k)
    ensures Pointer.ContainsEscapes("/" + k)
  {
    var p := "/" + k;
    var i :| 0 <= i < |k| - 1 && k[i] == '~' && (k[i + 1] == '0' || k[i + 1] == '1');
    assert p[i + 1] == k[i] && p[i + 2] == k[i + 1];
  }

  /** Writing one token into an empty object makes a one-member object. */
  lemma SetOneToken(t: string, v: Value, makeArrays: bool)
    ensures SetIn(Obj([]), [t], v, makeArrays) == Obj([Member(t, v)])
  {
  }

  /** Reading one token from a one-member object finds the member or nothing. */
  lemma GetOneToken(k: string, x: Value, t: string)
    ensures GetAtTokens(Obj([Member(k, x)]), [t]) == if t == k then x else Undef
  {
    assert [t][1..] == [];
  }

  /**
   * A one-token path: the current helpers write and read under the
   * unescaped token, the legacy ones under the token as written; when the
   * path holds an escape that changes the token, a key spelled literally
   * like the token is not found and there is no fallback.
   */
  lemma SingleTokenPaths(k: string, v: Value, x: Value)
    requires '/' !in k
    ensures WriteTokens("/" + k) == [Pointer.UnescapeToken(k)]
    ensures LegacyTokens("/" + k) == [k]
    ensures SetValueAtPath(Obj([]), "/" + k, v) == Obj([Member(Pointer.UnescapeToken(k), v)])
    ensures LegacySetValueAtPath(Obj([]), "/" + k, v) == Obj([Member(k, v)])
    ensures Pointer.ContainsEscapes(k) && Pointer.UnescapeToken(k) != k ==>
              GetValueAtPath(Obj([Member(k, x)]), "/" + k) == Undef
    ensures LegacyGetValueAtPath(Obj([Member(k, x)]), "/" + k) == x
  {
    SingleTokenTokens(k);
    SingleTokenWrites(k, v);
    SingleTokenReads(k, x);
  }

  lemma SingleTokenWrites(k: string, v: Value)
    requires '/' !in k
    ensures SetValueAtPath(Obj([]), "/" + k, v) == Obj([Member(Pointer.UnescapeToken(k), v)])
    ensures LegacySetValueAtPath(Obj([]), "/" + k, v) == Obj([Member(k, v)])
  {
    SingleTokenTokens(k);
    SetOneToken(Pointer.UnescapeToken(k), v, true);
    SetOneToken(k, v, false);
  }

  lemma SingleTokenReads(k: string, x: Value)
    requires '/' !in k
    ensures Pointer.ContainsEscapes(k) && Pointer.UnescapeToken(k) != k ==>
              GetValueAtPath(Obj([Member(k, x)]), "/" + k) == Undef
    ensures LegacyGetValueAtPath(Obj([Member(k, x)]), "/" + k) == x
  {
    var u := Pointer.UnescapeToken(k);
    SingleTokenTokens(k);
    GetOneToken(k, x, k);
    if Pointer.ContainsEscapes(k) && u != k {
      GetOneToken(k, x, u);
      EscapesOfSlashPath(k);
    }
  }

  /**
   * An escaped key is written under its unescaped name by the current
   * helpers and under its literal name by the legacy ones; reading a literal
   * `a~1b` key through the current helpers finds nothing.
   */
  lemma EscapedKeyExample(v: Value, x: Value)
    ensures SetValueAtPath(Obj([]), "/a~1b", v) == Obj([Member("a/b", v)])
    ensures LegacySetValueAtPath(Obj([]), "/a~1b", v) == Obj([Member("a~1b", v)])
    ensures GetValueAtPath(Obj([Member("a~1b", x)]), "/a~1b") == Undef
    ensures LegacyGetValueAtPath(Obj([Member("a~1b", x)]), "/a~1b") == x
  {
    EscapedKeyWrites(v);
    EscapedKeyReads(x);
  }

  lemma EscapedKeyWrites(v: Value)
    ensures SetValueAtPath(Obj([]), "/a~1b", v) == Obj([Member("a/b", v)])
    ensures LegacySetValueAtPath(Obj([]), "/a~1b", v) == Obj([Member("a~1b", v)])
  {
    var k := "a~1b";
    assert "/a~1b" == "/" + k;
    Pointer.UnescapeExamples();
    SingleTokenWrites(k, v);
  }

  lemma EscapedKeyReads(x: Value)
    ensures GetValueAtPath(Obj([Member("a~1b", x)]), "/a~1b") == Undef
    ensures LegacyGetValueAtPath(Obj([Member("a~1b", x)]), "/a~1b") == x
  {
    var k := "a~1b";
    assert "/a~1b" == "/" + k;
    Pointer.UnescapeExamples();
    assert Pointer.ContainsEscapes(k) by {
      assert k[1] == '~' && k[2] == '1';
    }
    SingleTokenReads(k, x);
  }

  /** Writing two or more tokens into an empty object creates the first node fresh. */
  lemma SetInEmptyObject(t: string, rest: seq<string>, v: Value, makeArrays: bool)
    requires rest != []
    ensures SetIn(Obj([]), [t] + rest, v, makeArrays) == Obj([Member(t, SetIn(Fresh(rest[0], makeArrays), rest, v, makeArrays))])
  {
    assert ([t] + rest)[1..] == rest;
    assert Base(Obj([]), t, rest[0], makeArrays) == Fresh(rest[0], makeArrays);
  }

  /** Writing index `0` then one token into an empty array. */
  lemma SetInEmptyArray(b: string, v: Value)
    requires !IsIndex(b)
    ensures SetIn(Arr([]), ["0", b], v, true) == Arr([Obj([Member(b, v)])])
  {
    var leaf := Obj([Member(b, v)]);
    ZeroIsElement();
    assert ["0", b][1..] == [b];
    assert Base(Arr([]), "0", b, true) == Obj([]);
    SetOneToken(b, v, true);
    assert SetAt([], 0, leaf) == [leaf];
  }

  /** The current helpers make an array for a missing node followed by an index token. */
  lemma ArrayCreatedForIndex(a: string, b: string, v: Value)
    requires !IsIndex(b)
    ensures SetAtTokens(Obj([]), [a, "0", b], v) == Obj([Member(a, Arr([Obj([Member(b, v)])]))])
  {
    ZeroIsElement();
    assert [a, "0", b] == [a] + ["0", b];
    SetInEmptyObject(a, ["0", b], v, true);
    SetInEmptyArray(b, v);
  }

  /** The raw split of `/a/0/b`. */
  lemma LegacyThreeTokens(a: string, b: string)
    requires '/' !in a && '/' !in b
    ensures LegacyTokens("/" + a + "/0/" + b) == [a, "0", b]
  {
    var p := "/" + a + "/0/" + b;
    assert StripSlash(p) == a + "/" + ("0" + "/" + b);
    Pointer.SplitAtSeparator(a, '/', "0" + "/" + b);
    Pointer.SplitAtSeparator("0", '/', b);
    Pointer.SplitWithoutSeparator(b, '/');
  }

  /** The legacy helpers make an object keyed `"0"` for the same path. */
  lemma LegacyObjectForIndex(a: string, b: string, v: Value)
    requires '/' !in a && '/' !in b
    ensures LegacySetValueAtPath(Obj([]), "/" + a + "/0/" + b, v) == Obj([Member(a, Obj([Member("0", Obj([Member(b, v)]))]))])
  {
    LegacyThreeTokens(a, b);
    assert [a, "0", b] == [a] + ["0", b];
    SetInEmptyObject(a, ["0", b], v, false);
    assert ["0", b] == ["0"] + [b];
    SetInEmptyObject("0", [b], v, false);
    SetOneToken(b, v, false);
  }
}

=== FILE: pointer.dfy ===
/**
 * The JSON Pointer codec of src/core/jsonPointer.ts: escaping of single
 * reference tokens and conversion between token lists and pointer strings,
 * following sections 3 and 4 of RFC 6901 (encode `~` before `/`, decode
 * `~1` before `~0`).
 */
module Pointer {
  import opened Wrappers

  datatype PointerError = InvalidPointer

  // ---------------------------------------------------------------------------
  // String primitives with JavaScript's semantics.

  /** `s.replace(/c/g, rep)` for a one-character pattern. */
  function ReplaceChar(s: string, c: char, rep: string): string {
    if s == [] then []
    else if s[0] == c then rep + ReplaceChar(s[1..], c, rep)
    else [s[0]] + ReplaceChar(s[1..], c, rep)
  }

  /** `s.replace(/ab/g, rep)`: occurrences are replaced left to right without overlap. */
  function ReplacePair(s: string, a: char, b: char, rep: string): string {
    if |s| >= 2 && s[0] == a && s[1] == b then rep + ReplacePair(s[2..], a, b, rep)
    else if s == [] then []
    else [s[0]] + ReplacePair(s[1..], a, b, rep)
  }

  /** A replacement without `c` leaves no `c`, and a string without `c` is left alone. */
  lemma {:induction false} ReplaceCharOut(s: string, c: char, rep: string)
    ensures c !in rep ==> c !in ReplaceChar(s, c, rep)
    ensures c !in s ==> ReplaceChar(s, c, rep) == s
  {
    if s != [] {
      ReplaceCharOut(s[1..], c, rep);
    }
  }

  /** A replacement of at most two characters never lengthens, and a string without `a` is left alone. */
  lemma {:induction false} ReplacePairShrinks(s: string, a: char, b: char, rep: string)
    ensures |rep| <= 2 ==> |ReplacePair(s, a, b, rep)| <= |s|
    ensures a !in s ==> ReplacePair(s, a, b, rep) == s
  {
    if |s| >= 2 && s[0] == a && s[1] == b {
      ReplacePairShrinks(s[2..], a, b, rep);
    } else if s != [] {
      ReplacePairShrinks(s[1..], a, b, rep);
    }
  }

  /** `ts.join(sep)`. */
  function Join(ts: seq<string>, sep: char): string {
    if |ts| == 0 then ""
    else if |ts| == 1 then ts[0]
    else ts[0] + [sep] + Join(ts[1..], sep)
  }

  /** `s.split(sep)`: always at least one piece, and no piece contains `sep`. */
  function Split(s: string, sep: char): (r: seq<string>)
    ensures |r| >= 1
    ensures forall i | 0 <= i < |r| :: sep !in r[i]
    ensures s != [] && s[0] != sep ==> r[0] != [] && r[0][0] == s[0]
  {
    if s == [] then [""]
    else if s[0] == sep then [""] + Split(s[1..], sep)
    else
      var r := Split(s[1..], sep);
      [[s[0]] + r[0]] + r[1..]
  }

  /** The number of occurrences of `c` in `s`. */
  function Count(s: string, c: char): nat {
    if s == [] then 0 else (if s[0] == c then 1 else 0) + Count(s[1..], c)
  }

  /** Counting distributes over concatenation. */
  lemma {:induction false} CountConcat(x: string, y: string, c: char)
    ensures Count(x + y, c) == Count(x, c) + Count(y, c)
    decreases |x|
  {
    if x == [] {
      assert x + y == y;
    } else {
      assert (x + y)[1..] == x[1..] + y;
      CountConcat(x[1..], y, c);
    }
  }

  /** `s.includes("~0") || s.includes("~1")`. */
  predicate ContainsEscapes(s: string) {
    exists i | 0 <= i < |s| - 1 :: s[i] == '~' && (s[i + 1] == '0' || s[i + 1] == '1')
  }

  /** Section 3 of RFC 6901: every `~` starts one of the escapes `~0` or `~1`. */
  predicate WellEscaped(s: string) {
    forall i | 0 <= i < |s| && s[i] == '~' :: i + 1 < |s| && (s[i + 1] == '0' || s[i + 1] == '1')
  }

  // ---------------------------------------------------------------------------
  // The codec.

  /** `escapeToken`: every `~` becomes `~0`, then every `/` becomes `~1`. */
  function EscapeToken(t: string): (r: string)
    ensures '/' !in r
    ensures '~' !in t && '/' !in t ==> r == t
  {
    var once := ReplaceChar(t, '~', "~0");
    ReplaceCharOut(t, '~', "~0");
    ReplaceCharOut(t, '/', "~1");
    ReplaceCharOut(once, '/', "~1");
    ReplaceChar(once, '/', "~1")
  }

  /** `unescapeToken`: every `~1` becomes `/`, then every `~0` becomes `~`. */
  function UnescapeToken(t: string): (r: string)
    ensures |r| <= |t|
    ensures '~' !in t ==> r == t
  {
    var once := ReplacePair(t, '~', '1', "/");
    ReplacePairShrinks(t, '~', '1', "/");
    ReplacePairShrinks(once, '~', '0', "~");
    ReplacePair(once, '~', '0', "~")
  }

  function EscapeAll(ts: seq<string>): (r: seq<string>)
    ensures |r| == |ts|
  {
    seq(|ts|, i requires 0 <= i < |ts| => EscapeToken(ts[i]))
  }

  function UnescapeAll(ts: seq<string>): (r: seq<string>)
    ensures |r| == |ts|
  {
    seq(|ts|, i requires 0 <= i < |ts| => UnescapeToken(ts[i]))
  }

  /** `toPointer`: `""` for no tokens, otherwise `/` before each escaped token. */
  function ToPointer(tokens: seq<string>): (r: string)
    ensures r == "" <==> tokens == []
    ensures tokens != [] ==> r[0] == '/'
  {
    if |tokens| == 0 then "" else "/" + Join(EscapeAll(tokens), '/')
  }

  /** `fromPointer`: `""` is no tokens, a pointer must start with `/`, and the pieces between `/` are unescaped. */
  function FromPointer(p: string): (r: Result<seq<string>, PointerError>)
    ensures r.Ok? <==> p == "" || p[0] == '/'
    ensures r.Ok? ==> (|r.value| == 0 <==> p == "")
  {
    if p == "" then Ok([])
    else if p[0] != '/' then Err(InvalidPointer)
    else Ok(UnescapeAll(Split(p[1..], '/')))
  }

  /** A pointer `FromPointer` accepts and whose escapes are all of section 3 of RFC 6901. */
  predicate WellFormed(p: string) {
    p == "" || (p[0] == '/' && WellEscaped(p))
  }

  // ---------------------------------------------------------------------------
  // Single-pass descriptions of the two-pass escape and unescape.

  function EscapeChar(c: char): string {
    if c == '~' then "~0" else if c == '/' then "~1" else [c]
  }

  /** Escaping character by character. */
  function EscapeEach(t: string): string {
    if t == [] then [] else EscapeChar(t[0]) + EscapeEach(t[1..])
  }

  /** Decoding a well-escaped token escape by escape. */
  function DecodeEach(r: string): string
    requires WellEscaped(r)
  {
    if r == [] then []
    else if r[0] == '~' then
      assert WellEscaped(r[2..]) by {
        assert forall i | 0 <= i < |r| - 2 :: r[2..][i] == r[i + 2];
      }
      (if r[1] == '0' then "~" else "/") + DecodeEach(r[2..])
    else
      assert WellEscaped(r[1..]) by {
        assert forall i | 0 <= i < |r| - 1 :: r[1..][i] == r[i + 1];
      }
      [r[0]] + DecodeEach(r[1..])
  }

  lemma {:induction false} ReplaceCharConcat(x: string, y: string, c: char, rep: string)
    ensures ReplaceChar(x + y, c, rep) == ReplaceChar(x, c, rep) + ReplaceChar(y, c, rep)
  {
    if x == [] {
      assert x + y == y;
    } else {
      assert (x + y)[0] == x[0];
      assert (x + y)[1..] == x[1..] + y;
      ReplaceCharConcat(x[1..], y, c, rep);
      var h := if x[0] == c then rep else [x[0]];
      assert ReplaceChar(x + y, c, rep) == h + (ReplaceChar(x[1..], c, rep) + ReplaceChar(y, c, rep));
    }
  }

  /** The two replace passes of `escapeToken` escape each character independently. */
  lemma {:induction false} EscapeIsEach(t: string)
    ensures EscapeToken(t) == EscapeEach(t)
  {
    if t != [] {
      var head := if t[0] == '~' then "~0" else [t[0]];
      assert ReplaceChar(t, '~', "~0") == head + ReplaceChar(t[1..], '~', "~0");
      ReplaceCharConcat(head, ReplaceChar(t[1..], '~', "~0"), '/', "~1");
      assert ReplaceChar(head, '/', "~1") == EscapeChar(t[0]);
      EscapeIsEach(t[1..]);
    }
  }

  /** The first decoding pass turns the per-character escape back into tilde-only escaping. */
  lemma {:induction false} DecodeSlashes(t: string)
    ensures ReplacePair(EscapeEach(t), '~', '1', "/") == ReplaceChar(t, '~', "~0")
  {
    if t != [] {
      var rest := EscapeEach(t[1..]);
      DecodeSlashes(t[1..]);
      var s := EscapeChar(t[0]) + rest;
      if t[0] == '~' {
        assert s[2..] == rest;
        assert ReplacePair(s, '~', '1', "/") == "~" + ReplacePair(s[1..], '~', '1', "/");
        assert s[1..][1..] == rest;
      } else if t[0] == '/' {
        assert s[2..] == rest;
      } else {
        assert s[1..] == rest;
      }
    }
  }

  /** The second decoding pass undoes tilde-only escaping. */
  lemma {:induction false} DecodeTildes(t: string)
    ensures ReplacePair(ReplaceChar(t, '~', "~0"), '~', '0', "~") == t
  {
    if t != [] {
      var rest := ReplaceChar(t[1..], '~', "~0");
      DecodeTildes(t[1..]);
      if t[0] == '~' {
        assert ("~0" + rest)[2..] == rest;
      } else {
        assert ([t[0]] + rest)[1..] == rest;
      }
    }
  }

  /** `ReplaceChar` on a string with a known first character. */
  lemma ReplaceCharCons(x: char, s: string, c: char, rep: string)
    ensures ReplaceChar([x] + s, c, rep) == (if x == c then rep else [x]) + ReplaceChar(s, c, rep)
  {
    assert ([x] + s)[1..] == s;
  }

  /** On a well-escaped token the first decoding pass leaves exactly tilde-only escaping. */
  lemma {:induction false} FirstPassOfWellEscaped(r: string)
    requires WellEscaped(r)
    ensures ReplacePair(r, '~', '1', "/") == ReplaceChar(DecodeEach(r), '~', "~0")
  {
    if r != [] {
      if r[0] == '~' {
        var tail := r[2..];
        assert WellEscaped(tail) by {
          assert forall i | 0 <= i < |r| - 2 :: r[2..][i] == r[i + 2];
        }
        FirstPassOfWellEscaped(tail);
        var d := DecodeEach(tail);
        if r[1] == '1' {
          assert ReplacePair(r, '~', '1', "/") == "/" + ReplacePair(tail, '~', '1', "/");
          assert DecodeEach(r) == "/" + d;
          ReplaceCharCons('/', d, '~', "~0");
        } else {
          assert r[1..][1..] == tail;
          assert ReplacePair(r[1..], '~', '1', "/") == "0" + ReplacePair(tail, '~', '1', "/");
          assert ReplacePair(r, '~', '1', "/") == "~0" + ReplacePair(tail, '~', '1', "/");
          assert DecodeEach(r) == "~" + d;
          ReplaceCharCons('~', d, '~', "~0");
        }
      } else {
        assert WellEscaped(r[1..]) by {
          assert forall i | 0 <= i < |r| - 1 :: r[1..][i] == r[i + 1];
        }
        FirstPassOfWellEscaped(r[1..]);
        assert DecodeEach(r) == [r[0]] + DecodeEach(r[1..]);
        ReplaceCharCons(r[0], DecodeEach(r[1..]), '~', "~0");
      }
    }
  }

  lemma {:induction false} EscapeDecodeEach(r: string)
    requires WellEscaped(r) && '/' !in r
    ensures EscapeEach(DecodeEach(r)) == r
  {
    if r != [] {
      if r[0] == '~' {
        assert WellEscaped(r[2..]) by {
          assert forall i | 0 <= i < |r| - 2 :: r[2..][i] == r[i + 2];
        }
        assert '/' !in r[2..];
        EscapeDecodeEach(r[2..]);
        var d := DecodeEach(r);
        assert d[1..] == DecodeEach(r[2..]);
        assert r == r[..2] + r[2..];
      } else {
        assert WellEscaped(r[1..]) by {
          assert forall i | 0 <= i < |r| - 1 :: r[1..][i] == r[i + 1];
        }
        assert '/' !in r[1..];
        EscapeDecodeEach(r[1..]);
        var d := DecodeEach(r);
        assert d[1..] == DecodeEach(r[1..]);
        assert r == [r[0]] + r[1..];
      }
    }
  }

  // ---------------------------------------------------------------------------
  // Token-level properties.

  /** An escaped token holds no `/`, and every `~` in it starts `~0` or `~1`. */
  lemma {:induction false} EscapeTokenShape(t: string)
    ensures '/' !in EscapeToken(t)
    ensures WellEscaped(EscapeToken(t))
  {
    EscapeIsEach(t);
    EscapeEachShape(t);
  }

  lemma {:induction false} EscapeEachShape(t: string)
    ensures '/' !in EscapeEach(t)
    ensures WellEscaped(EscapeEach(t))
  {
    if t != [] {
      EscapeEachShape(t[1..]);
      var h := EscapeChar(t[0]);
      var s := h + EscapeEach(t[1..]);
      forall i | 0 <= i < |s| && s[i] == '~' ensures i + 1 < |s| && (s[i + 1] == '0' || s[i + 1] == '1') {
        if i >= |h| {
          assert s[i] == EscapeEach(t[1..])[i - |h|];
          assert s[i + 1] == EscapeEach(t[1..])[i + 1 - |h|];
        }
      }
    }
  }

  lemma EscapeExamples()
    ensures EscapeToken("a/b") == "a~1b"
    ensures EscapeToken("x~y") == "x~0y"
  {
    EscapeIsEach("x~y");
    assert EscapeEach("y") == "y";
    assert EscapeEach("~y") == "~0y";
  }

  lemma UnescapeExamples()
    ensures UnescapeToken("a~1b") == "a/b"
    ensures UnescapeToken("x~0y") == "x~y"
  {
    EscapeExamples();
    UnescapeEscape("a/b");
    UnescapeEscape("x~y");
  }

  /** A token with neither `~` nor `/` is its own escape. */
  lemma {:induction false} EscapePlain(t: string)
    requires '~' !in t && '/' !in t
    ensures EscapeToken(t) == t
  {
    EscapeIsEach(t);
    PlainEach(t);
  }

  lemma {:induction false} PlainEach(t: string)
    requires '~' !in t && '/' !in t
    ensures EscapeEach(t) == t
  {
    if t != [] {
      assert '~' !in t[1..] && '/' !in t[1..];
      PlainEach(t[1..]);
      assert t == [t[0]] + t[1..];
    }
  }

  /** Decoding undoes encoding, for every token. */
  lemma {:induction false} UnescapeEscape(t: string)
    ensures UnescapeToken(EscapeToken(t)) == t
  {
    EscapeIsEach(t);
    DecodeSlashes(t);
    DecodeTildes(t);
  }

  /** Encoding undoes decoding, for every well-escaped token without `/`. */
  lemma {:induction false} EscapeUnescape(r: string)
    requires WellEscaped(r) && '/' !in r
    ensures EscapeToken(UnescapeToken(r)) == r
  {
    FirstPassOfWellEscaped(r);
    DecodeTildes(DecodeEach(r));
    assert UnescapeToken(r) == DecodeEach(r);
    EscapeIsEach(DecodeEach(r));
    EscapeDecodeEach(r);
  }

  /** A token without `~0` or `~1` in it, such as `~2`, decodes to itself. */
  lemma {:induction false} UnescapeWithoutEscapes(r: string)
    requires !ContainsEscapes(r)
    ensures UnescapeToken(r) == r
  {
    NoPairUnchanged(r, '~', '1', "/");
    NoPairUnchanged(r, '~', '0', "~");
  }

  lemma {:induction false} NoPairUnchanged(s: string, a: char, b: char, rep: string)
    requires forall i | 0 <= i < |s| - 1 :: !(s[i] == a && s[i + 1] == b)
    ensures ReplacePair(s, a, b, rep) == s
  {
    if s != [] {
      forall i | 0 <= i < |s| - 2 ensures !(s[1..][i] == a && s[1..][i + 1] == b) {
        assert s[1..][i] == s[i + 1] && s[1..][i + 1] == s[i + 2];
      }
      NoPairUnchanged(s[1..], a, b, rep);
    }
  }

  // ---------------------------------------------------------------------------
  // Split and join.

  lemma {:induction false} JoinSplit(s: string, sep: char)
    ensures Join(Split(s, sep), sep) == s
  {
    if s != [] {
      JoinSplit(s[1..], sep);
      var r := Split(s[1..], sep);
      if s[0] != sep && |r| > 1 {
        assert Join(r, sep) == r[0] + [sep] + Join(r[1..], sep);
        assert ([[s[0]] + r[0]] + r[1..])[1..] == r[1..];
      } else if s[0] == sep {
        assert ([""] + r)[1..] == r;
      }
    }
  }

  /** Splitting introduces no character: a character absent from `s` is absent from every piece. */
  lemma {:induction false} SplitKeepsOut(s: string, sep: char, c: char)
    requires c !in s
    ensures forall i | 0 <= i < |Split(s, sep)| :: c !in Split(s, sep)[i]
    decreases |s|
  {
    if s != [] {
      assert c !in s[1..];
      SplitKeepsOut(s[1..], sep, c);
    }
  }

  lemma {:induction false} SplitWithoutSeparator(t: string, sep: char)
    requires sep !in t
    ensures Split(t, sep) == [t]
  {
    if t != [] {
      assert sep !in t[1..];
      SplitWithoutSeparator(t[1..], sep);
      assert t == [t[0]] + t[1..];
    }
  }

  lemma {:induction false} SplitAtSeparator(t: string, sep: char, rest: string)
    requires sep !in t
    ensures Split(t + [sep] + rest, sep) == [t] + Split(rest, sep)
  {
    if t == [] {
      assert (t + [sep] + rest)[1..] == rest;
    } else {
      assert (t + [sep] + rest)[0] == t[0] && t[0] != sep;
      assert (t + [sep] + rest)[1..] == t[1..] + [sep] + rest;
      assert sep !in t[1..];
      SplitAtSeparator(t[1..], sep, rest);
      assert t == [t[0]] + t[1..];
    }
  }

  lemma {:induction false} SplitJoin(ts: seq<string>, sep: char)
    requires |ts| >= 1
    requires forall i | 0 <= i < |ts| :: sep !in ts[i]
    ensures Split(Join(ts, sep), sep) == ts
  {
    if |ts| == 1 {
      SplitWithoutSeparator(ts[0], sep);
    } else {
      SplitJoin(ts[1..], sep);
      SplitAtSeparator(ts[0], sep, Join(ts[1..], sep));
    }
  }

  lemma {:induction false} SplitCount(s: string, sep: char)
    ensures |Split(s, sep)| == Count(s, sep) + 1
  {
    if s != [] {
      SplitCount(s[1..], sep);
    }
  }

  /** The pieces of a well-escaped string are well-escaped. */
  lemma {:induction false} SplitWellEscaped(s: string, sep: char)
    requires WellEscaped(s)
    requires sep != '0' && sep != '1'
    ensures forall i | 0 <= i < |Split(s, sep)| :: WellEscaped(Split(s, sep)[i])
  {
    if s != [] {
      assert WellEscaped(s[1..]) by {
        assert forall i | 0 <= i < |s| - 1 :: s[1..][i] == s[i + 1];
      }
      SplitWellEscaped(s[1..], sep);
      if s[0] != sep {
        var r := Split(s[1..], sep);
        var p := [s[0]] + r[0];
        forall i | 0 <= i < |p| && p[i] == '~' ensures i + 1 < |p| && (p[i + 1] == '0' || p[i + 1] == '1') {
          if i == 0 {
            assert s[1] != sep;
          } else {
            assert WellEscaped(r[0]);
            assert p[i] == r[0][i - 1];
          }
        }
      }
    }
  }

  // ---------------------------------------------------------------------------
  // Pointer-level properties.

  /** No tokens give `""`; one token gives `/` followed by the escaped token. */
  lemma ToPointerOne(t: string)
    ensures ToPointer([]) == ""
    ensures ToPointer([t]) == "/" + EscapeToken(t)
  {
    assert EscapeAll([t]) == [EscapeToken(t)];
  }

  /** Each further token contributes `/` and its escape: `/t1/t2/...`. */
  lemma ToPointerCons(t: string, rest: seq<string>)
    requires rest != []
    ensures ToPointer([t] + rest) == "/" + EscapeToken(t) + ToPointer(rest)
  {
    var ts := [t] + rest;
    assert EscapeAll(ts)[1..] == EscapeAll(rest);
    assert EscapeAll(ts)[0] == EscapeToken(t);
  }

  /** Three tokens are written as three escaped segments. */
  lemma ToPointerThree(a: string, b: string, c: string)
    ensures ToPointer([a, b, c]) == "/" + EscapeToken(a) + "/" + EscapeToken(b) + "/" + EscapeToken(c)
  {
    ToPointerOne(c);
    assert [b, c] == [b] + [c];
    ToPointerCons(b, [c]);
    assert [a, b, c] == [a] + [b, c];
    ToPointerCons(a, [b, c]);
  }

  /** The three-token example: `fields`, `a/b` and `x~y` encode to `/fields/a~1b/x~0y` and decode back. */
  lemma ThreeTokenExample()
    ensures ToPointer(["fields", "a/b", "x~y"]) == "/" + "fields" + "/" + "a~1b" + "/" + "x~0y"
    ensures FromPointer("/" + "fields" + "/" + "a~1b" + "/" + "x~0y") == Ok(["fields", "a/b", "x~y"])
  {
    var ts := ["fields", "a/b", "x~y"];
    EscapeExamples();
    EscapePlain("fields");
    ToPointerThree("fields", "a/b", "x~y");
    assert ToPointer(ts) == "/" + "fields" + "/" + "a~1b" + "/" + "x~0y";
    FromToPointer(ts);
  }

  /** The empty pointer is the empty token list; a pointer not starting with `/` is refused. */
  lemma FromPointerErrors(p: string)
    ensures FromPointer("") == Ok([])
    ensures p != "" && p[0] != '/' ==> FromPointer(p) == Err(InvalidPointer)
    ensures FromPointer(p).Ok? <==> p == "" || p[0] == '/'
  {
  }

  /** A pointer decodes to as many tokens as it has `/` characters. */
  lemma {:induction false} FromPointerTokenCount(p: string)
    requires FromPointer(p).Ok?
    ensures |FromPointer(p).value| == Count(p, '/')
  {
    if p != "" {
      SplitCount(p[1..], '/');
    }
  }

  /** `fromPointer(toPointer(ts)) == ts` for every token list, `[""]` and `"/"` included. */
  lemma {:induction false} FromToPointer(ts: seq<string>)
    ensures FromPointer(ToPointer(ts)) == Ok(ts)
  {
    if |ts| > 0 {
      var es := EscapeAll(ts);
      forall i | 0 <= i < |es| ensures '/' !in es[i] {
        EscapeTokenShape(ts[i]);
      }
      var p := ToPointer(ts);
      assert p[1..] == Join(es, '/');
      SplitJoin(es, '/');
      forall i | 0 <= i < |ts| ensures UnescapeAll(es)[i] == ts[i] {
        UnescapeEscape(ts[i]);
      }
      assert UnescapeAll(es) == ts;
    }
  }

  /** `toPointer(fromPointer(p)) == p` for every well-formed pointer. */
  lemma {:induction false} ToFromPointer(p: string)
    requires WellFormed(p)
    ensures FromPointer(p).Ok? && ToPointer(FromPointer(p).value) == p
  {
    if p != "" {
      var raw := Split(p[1..], '/');
      assert WellEscaped(p[1..]) by {
        assert forall i | 0 <= i < |p| - 1 :: p[1..][i] == p[i + 1];
      }
      SplitWellEscaped(p[1..], '/');
      var ts := UnescapeAll(raw);
      forall i | 0 <= i < |ts| ensures EscapeAll(ts)[i] == raw[i] {
        EscapeUnescape(raw[i]);
      }
      assert EscapeAll(ts) == raw;
      JoinSplit(p[1..], '/');
    }
  }
}

=== FILE: ref.dfy ===
/**
 * The ref grammar of src/server/ref.ts: `branch:<name>` or `commit:<id>`,
 * split at the first colon.
 */
module Refs {
  import opened Wrappers

  datatype RefKind = Branch | Commit

  datatype Ref = Ref(kind: RefKind, id: string)

  function KindName(k: RefKind): string {
    match k
    case Branch => "branch"
    case Commit => "commit"
  }

  /** The text form `type:id` of a ref. */
  function Format(r: Ref): string {
    KindName(r.kind) + ":" + r.id
  }

  /** `indexOf(c)`: the first position holding `c`, or the length when there is none (-1 in the source). */
  function IndexOf(s: string, c: char): (i: nat)
    ensures i <= |s|
    ensures i < |s| ==> s[i] == c
    ensures c !in s[..i]
    ensures i == |s| <==> c !in s
  {
    if s == [] then 0
    else if s[0] == c then 0
    else
      var i := 1 + IndexOf(s[1..], c);
      assert s[..i] == [s[0]] + s[1..][..i - 1];
      i
  }

  /** `parseRef(value)`. */
  function ParseRef(value: Option<string>): (r: Option<Ref>)
    ensures r.Some? ==> value.Some? && r.value.id != "" && ':' in value.value
  {
    if value.None? || value.value == "" then None
    else
      var s := value.value;
      var i := IndexOf(s, ':');
      if i == |s| then None
      else
        var kind, id := s[..i], s[i + 1..];
        if kind == "" || id == "" then None
        else if kind == "branch" then Some(Ref(Branch, id))
        else if kind == "commit" then Some(Ref(Commit, id))
        else None
  }

  // ---------------------------------------------------------------------------
  // Properties.

  /** An absent or empty string, or one with no colon, is not a ref. */
  lemma ParseRefRejects(s: string)
    ensures ParseRef(None) == None
    ensures ParseRef(Some("")) == None
    ensures ':' !in s ==> ParseRef(Some(s)) == None
  {
  }

  /**
   * The split is at the first colon: the part before it must be `branch` or
   * `commit`, and everything after it, colons included, is the id, which must
   * not be empty.
   */
  lemma ParseRefSplit(t: string, id: string)
    requires ':' !in t
    ensures ParseRef(Some(t + ":" + id)) ==
      if t == "branch" && id != "" then Some(Ref(Branch, id))
      else if t == "commit" && id != "" then Some(Ref(Commit, id))
      else None
  {
    var s := t + ":" + id;
    FirstColonAt(t, id);
    assert s[..|t|] == t;
    assert s[|t| + 1..] == id;
  }

  lemma FirstColonAt(t: string, id: string)
    requires ':' !in t
    ensures IndexOf(t + ":" + id, ':') == |t|
  {
    var s := t + ":" + id;
    assert s[|t|] == ':';
    assert s[..|t|] == t;
  }

  /** Formatting a ref with a non-empty id and parsing it back gives the ref. */
  lemma ParseFormat(r: Ref)
    requires r.id != ""
    ensures ParseRef(Some(Format(r))) == Some(r)
  {
    ParseRefSplit(KindName(r.kind), r.id);
    if r.kind == Commit {
      assert "commit"[0] != "branch"[0];
    }
  }

  /** Whatever parses is the format of its result. */
  lemma FormatParse(s: string)
    requires ParseRef(Some(s)).Some?
    ensures Format(ParseRef(Some(s)).value) == s
  {
    var i := IndexOf(s, ':');
    assert s == s[..i] + ":" + s[i + 1..];
  }

  /** A branch ref. */
  lemma ParseRefBranch()
    ensures ParseRef(Some("branch:main")) == Some(Ref(Branch, "main"))
  {
    ParseFormat(Ref(Branch, "main"));
    assert Format(Ref(Branch, "main")) == "branch:main";
  }

  /** A commit ref. */
  lemma ParseRefCommit()
    ensures ParseRef(Some("commit:commit_123")) == Some(Ref(Commit, "commit_123"))
  {
    ParseFormat(Ref(Commit, "commit_123"));
    assert Format(Ref(Commit, "commit_123")) == "commit:commit_123";
  }

  /** An id may itself hold colons. */
  lemma ParseRefColonInId()
    ensures ParseRef(Some("commit:a:b")) == Some(Ref(Commit, "a:b"))
  {
    ParseFormat(Ref(Commit, "a:b"));
    assert Format(Ref(Commit, "a:b")) == "commit:a:b";
  }

  lemma TagMain()
    ensures "tag:main" == "tag" + ":" + "main"
  {
    var s, c := "tag:main", "tag" + ":" + "main";
    assert |s| == |c| == 8;
    assert forall i | 0 <= i < 8 :: s[i] == c[i];
  }

  /** The rejected examples: no colon, an empty id, an unknown type. */
  lemma ParseRefRejectsExamples()
    ensures ParseRef(Some("main")) == None
    ensures ParseRef(Some("branch:")) == None
    ensures ParseRef(Some("tag:main")) == None
  {
    assert ParseRef(Some("main")) == None by {
      ParseRefRejects("main");
    }
    assert ParseRef(Some("branch:")) == None by {
      assert "branch:" == "branch" + ":" + "";
      ParseRefSplit("branch", "");
    }
    assert ParseRef(Some("tag:main")) == None by {
      TagMain();
      ParseRefSplit("tag", "main");
    }
  }
}

=== FILE: resolve.dfy ===
/**
 * The merge endpoint's last pure step in src/server/app.ts: the preview
 * gate and the in-order application of conflict resolutions to the merged
 * unit map before it is committed.
 */
module Resolve {
  import opened Wrappers
  import opened Json
  import Decimal
  import Merge
  import Routes
  import Paths

  datatype Choice = Ours | Theirs | Manual

  /** One entry of the request's `resolutions`; `value` is undefined when the request leaves it out. */
  datatype Resolution = Resolution(unitId: string, path: string, choice: Choice, value: Value)

  /** `{ ...x }` on a unit: an object is copied, the elements of an array or a string become index-keyed members, anything else spreads to `{}`. */
  function Spread(x: Value): (r: Value)
    ensures r.Obj?
    ensures x.Obj? ==> r == x
    ensures x.Arr? ==> forall i | 0 <= i < |x.items| :: Get(r.members, Decimal.NatToString(i)) == x.items[i]
  {
    match x
    case Obj(_) => x
    case Arr(items) =>
      var r := Obj(seq(|items|, i requires 0 <= i < |items| => Member(Decimal.NatToString(i), items[i])));
      assert forall i | 0 <= i < |items| :: Get(r.members, Decimal.NatToString(i)) == items[i] by {
        forall i | 0 <= i < |items| ensures Get(r.members, Decimal.NatToString(i)) == items[i] {
          IndexKeysDistinct(|items|);
          GetDistinctAt(r.members, i);
        }
      }
      r
    case Str(s) => Obj(seq(|s|, i requires 0 <= i < |s| => Member(Decimal.NatToString(i), Str([s[i]]))))
    case _ => Obj([])
  }

  /** Different positions have different decimal keys. */
  lemma IndexKeysDistinct(n: nat)
    ensures forall i, j | 0 <= i < j < n :: Decimal.NatToString(i) != Decimal.NatToString(j)
  {
    forall i, j | 0 <= i < j < n ensures Decimal.NatToString(i) != Decimal.NatToString(j) {
      Decimal.ParseNatToString(i);
      Decimal.ParseNatToString(j);
    }
  }

  /** In a member list whose keys are pairwise distinct, looking up the key at position `i` finds position `i`. */
  lemma {:induction false} GetDistinctAt(ms: seq<Member>, i: nat)
    requires i < |ms|
    requires forall a, b | 0 <= a < b < |ms| :: ms[a].key != ms[b].key
    ensures Get(ms, ms[i].key) == ms[i].val
  {
    var k := ms[i].key;
    GetCons(ms[0], ms[1..], k);
    assert ms == [ms[0]] + ms[1..];
    if i > 0 {
      assert ms[0].key != k;
      var rest := ms[1..];
      forall a, b | 0 <= a < b < |rest| ensures rest[a].key != rest[b].key {
        assert rest[a] == ms[a + 1] && rest[b] == ms[b + 1];
      }
      assert rest[i - 1] == ms[i];
      GetDistinctAt(rest, i - 1);
    }
  }

  /** `resolvedUnits[unitId] ?? {}`. */
  function CurrentUnit(resolved: seq<Member>, u: string): (r: Value)
    ensures r != Undef && r != Null
    ensures Get(resolved, u) != Undef && Get(resolved, u) != Null ==> r == Get(resolved, u)
  {
    var x := Get(resolved, u);
    if x == Undef || x == Null then Obj([]) else x
  }

  /** The units of the head a resolution picks. */
  function HeadUnits(ourUnits: seq<Member>, theirUnits: seq<Member>, choice: Choice): seq<Member> {
    if choice == Ours then ourUnits else theirUnits
  }

  /** The value a resolution settles on: `value` for a manual one, the value at the path in the chosen head's unit otherwise. */
  function ResolvedValue(resolved: seq<Member>, ourUnits: seq<Member>, theirUnits: seq<Member>, r: Resolution): (v: Value)
    ensures r.choice == Manual ==> v == r.value
    ensures r.choice != Manual && Falsy(Get(HeadUnits(ourUnits, theirUnits, r.choice), r.unitId)) ==> v == Undef
    ensures r.choice != Manual && r.path == "" && !Falsy(Get(HeadUnits(ourUnits, theirUnits, r.choice), r.unitId)) ==>
              v == Get(HeadUnits(ourUnits, theirUnits, r.choice), r.unitId)
  {
    match r.choice
    case Manual => r.value
    case Ours => Paths.GetValueAtPath(Get(ourUnits, r.unitId), r.path)
    case Theirs => Paths.GetValueAtPath(Get(theirUnits, r.unitId), r.path)
  }

  /** One turn of the resolution loop: the root path replaces the unit, any other path is written into a copy of it. */
  function ApplyOne(resolved: seq<Member>, ourUnits: seq<Member>, theirUnits: seq<Member>, r: Resolution): (out: seq<Member>)
    ensures forall u | u != r.unitId :: Get(out, u) == Get(resolved, u)
    ensures Keys(out) == Keys(resolved) + {r.unitId}
    ensures DistinctKeys(resolved) ==> DistinctKeys(out)
  {
    var value := ResolvedValue(resolved, ourUnits, theirUnits, r);
    if r.path == "" then Put(resolved, r.unitId, value)
    else Put(resolved, r.unitId, Paths.SetValueAtPath(Spread(CurrentUnit(resolved, r.unitId)), r.path, value))
  }

  /** The whole loop, in the order the resolutions are given. */
  function ApplyAll(resolved: seq<Member>, ourUnits: seq<Member>, theirUnits: seq<Member>, rs: seq<Resolution>): (out: seq<Member>)
    ensures DistinctKeys(resolved) ==> DistinctKeys(out)
    ensures Keys(out) == Keys(resolved) + set r | r in rs :: r.unitId
    decreases |rs|
  {
    if rs == [] then resolved
    else ApplyAll(ApplyOne(resolved, ourUnits, theirUnits, rs[0]), ourUnits, theirUnits, rs[1..])
  }

  /** What the merge endpoint answers before its transaction: a preview, or the units to commit. */
  datatype Outcome = Preview(conflicts: seq<Merge.Conflict>, previewUnits: seq<Member>) | Commit(units: seq<Member>)

  /** The preview gate followed by the resolution loop; absent `resolutions` is `None`. */
  function Decide(merged: Merge.Merged<seq<Member>>, ourUnits: seq<Member>, theirUnits: seq<Member>, resolutions: Option<seq<Resolution>>): (o: Outcome)
    ensures o.Preview? <==> merged.conflicts != [] && resolutions == None
    ensures o.Preview? ==> o == Preview(merged.conflicts, merged.value)
    ensures resolutions == Some([]) || (merged.conflicts == [] && resolutions == None) ==> o == Commit(merged.value)
  {
    if |merged.conflicts| > 0 && resolutions.None? then Preview(merged.conflicts, merged.value)
    else Commit(ApplyAll(merged.value, ourUnits, theirUnits, resolutions.GetOr([])))
  }

  // ---------------------------------------------------------------------------
  // Properties.

  /** Applying resolutions one list after another is applying the concatenation. */
  lemma {:induction false} ApplyAllConcat(m: seq<Member>, ourUnits: seq<Member>, theirUnits: seq<Member>, xs: seq<Resolution>, ys: seq<Resolution>)
    ensures ApplyAll(m, ourUnits, theirUnits, xs + ys) == ApplyAll(ApplyAll(m, ourUnits, theirUnits, xs), ourUnits, theirUnits, ys)
    decreases |xs|
  {
    if xs == [] {
      assert xs + ys == ys;
    } else {
      assert (xs + ys)[1..] == xs[1..] + ys;
      var next := ApplyOne(m, ourUnits, theirUnits, xs[0]);
      assert ApplyAll(m, ourUnits, theirUnits, xs + ys) == ApplyAll(next, ourUnits, theirUnits, xs[1..] + ys);
      assert ApplyAll(m, ourUnits, theirUnits, xs) == ApplyAll(next, ourUnits, theirUnits, xs[1..]);
      ApplyAllConcat(ApplyOne(m, ourUnits, theirUnits, xs[0]), ourUnits, theirUnits, xs[1..], ys);
    }
  }

  /** A unit no resolution names keeps its merged value. */
  lemma {:induction false} UntouchedUnitKeepsMerged(m: seq<Member>, ourUnits: seq<Member>, theirUnits: seq<Member>, rs: seq<Resolution>, u: string)
    requires forall i | 0 <= i < |rs| :: rs[i].unitId != u
    ensures Get(ApplyAll(m, ourUnits, theirUnits, rs), u) == Get(m, u)
    decreases |rs|
  {
    if rs != [] {
      UntouchedUnitKeepsMerged(ApplyOne(m, ourUnits, theirUnits, rs[0]), ourUnits, theirUnits, rs[1..], u);
    }
  }

  /** A root resolution stores its value as the whole unit: verbatim when manual, the chosen head's unit otherwise (absent, or falsy, reads as undefined). */
  lemma RootResolution(m: seq<Member>, ourUnits: seq<Member>, theirUnits: seq<Member>, r: Resolution)
    requires r.path == ""
    ensures r.choice == Manual ==> Get(ApplyOne(m, ourUnits, theirUnits, r), r.unitId) == r.value
    ensures r.choice == Ours && !Falsy(Get(ourUnits, r.unitId)) ==>
              Get(ApplyOne(m, ourUnits, theirUnits, r), r.unitId) == Get(ourUnits, r.unitId)
    ensures r.choice == Theirs && !Falsy(Get(theirUnits, r.unitId)) ==>
              Get(ApplyOne(m, ourUnits, theirUnits, r), r.unitId) == Get(theirUnits, r.unitId)
    ensures r.choice != Manual && r.unitId !in Keys(if r.choice == Ours then ourUnits else theirUnits) ==>
              Get(ApplyOne(m, ourUnits, theirUnits, r), r.unitId) == Undef
  {
  }

  /**
   * A resolution below the root leaves its settled value readable at its
   * path in the unit, provided it is defined and the path can be written.
   */
  lemma PathResolution(m: seq<Member>, ourUnits: seq<Member>, theirUnits: seq<Member>, r: Resolution)
    requires r.path != ""
    requires ResolvedValue(m, ourUnits, theirUnits, r) != Undef
    requires Paths.Writable(Spread(CurrentUnit(m, r.unitId)), Paths.WriteTokens(r.path), true)
    ensures Paths.GetValueAtPath(Get(ApplyOne(m, ourUnits, theirUnits, r), r.unitId), r.path)
            == ResolvedValue(m, ourUnits, theirUnits, r)
  {
    Paths.PathRoundTrip(Spread(CurrentUnit(m, r.unitId)), r.path, ResolvedValue(m, ourUnits, theirUnits, r));
  }

  /** Later resolutions win: a manual root resolution at the end fixes the unit whatever came before. */
  lemma LastRootResolutionWins(m: seq<Member>, ourUnits: seq<Member>, theirUnits: seq<Member>, xs: seq<Resolution>, u: string, v: Value)
    ensures Get(ApplyAll(m, ourUnits, theirUnits, xs + [Resolution(u, "", Manual, v)]), u) == v
  {
    var r := Resolution(u, "", Manual, v);
    ApplyAllConcat(m, ourUnits, theirUnits, xs, [r]);
    var before := ApplyAll(m, ourUnits, theirUnits, xs);
    assert ApplyAll(before, ourUnits, theirUnits, [r]) == ApplyAll(ApplyOne(before, ourUnits, theirUnits, r), ourUnits, theirUnits, []);
  }

  /** Later resolutions win below the root too, when the last one's path can be written into the unit the earlier ones left. */
  lemma LastPathResolutionWins(m: seq<Member>, ourUnits: seq<Member>, theirUnits: seq<Member>, xs: seq<Resolution>, r: Resolution)
    requires r.path != ""
    requires ResolvedValue(ApplyAll(m, ourUnits, theirUnits, xs), ourUnits, theirUnits, r) != Undef
    requires Paths.Writable(Spread(CurrentUnit(ApplyAll(m, ourUnits, theirUnits, xs), r.unitId)), Paths.WriteTokens(r.path), true)
    ensures Paths.GetValueAtPath(Get(ApplyAll(m, ourUnits, theirUnits, xs + [r]), r.unitId), r.path)
            == ResolvedValue(ApplyAll(m, ourUnits, theirUnits, xs), ourUnits, theirUnits, r)
  {
    ApplyAllConcat(m, ourUnits, theirUnits, xs, [r]);
    var before := ApplyAll(m, ourUnits, theirUnits, xs);
    assert ApplyAll(before, ourUnits, theirUnits, [r]) == ApplyAll(ApplyOne(before, ourUnits, theirUnits, r), ourUnits, theirUnits, []);
    PathResolution(before, ourUnits, theirUnits, r);
  }

  /**
   * Committing with an empty resolution list keeps `ours` at every
   * conflict: the committed units are the merged units, which hold, along
   * each conflict's route, what ours holds there.
   */
  lemma EmptyResolutionsKeepOurs(baseUnits: seq<Member>, ourUnits: seq<Member>, theirUnits: seq<Member>)
    ensures Decide(Merge.MergeUnits(baseUnits, ourUnits, theirUnits), ourUnits, theirUnits, Some([])).Commit?
    ensures forall c | c in Merge.MergeUnits(baseUnits, ourUnits, theirUnits).conflicts ::
      && Routes.Navigate(Get(Decide(Merge.MergeUnits(baseUnits, ourUnits, theirUnits), ourUnits, theirUnits, Some([])).units, c.unitId), c.route) == c.ours
      && Routes.Navigate(Get(ourUnits, c.unitId), c.route) == c.ours
  {
    var m := Merge.MergeUnits(baseUnits, ourUnits, theirUnits);
    assert Decide(m, ourUnits, theirUnits, Some([])) == Commit(m.value);
    Merge.UnitConflictsKeepOurs(baseUnits, ourUnits, theirUnits);
  }

  /** A conflict on a whole unit, such as a delete against an edit, commits the ours unit under an empty list. */
  lemma RootConflictKeepsOurs(baseUnits: seq<Member>, ourUnits: seq<Member>, theirUnits: seq<Member>, u: string)
    requires Merge.IsConflict(Merge.Conflict(u, [], Get(baseUnits, u), Get(ourUnits, u), Get(theirUnits, u)))
    ensures Decide(Merge.MergeUnits(baseUnits, ourUnits, theirUnits), ourUnits, theirUnits, Some([])).Commit?
    ensures Get(Decide(Merge.MergeUnits(baseUnits, ourUnits, theirUnits), ourUnits, theirUnits, Some([])).units, u)
            == Get(ourUnits, u)
  {
    var m := Merge.MergeUnits(baseUnits, ourUnits, theirUnits);
    assert Get(m.value, u) == Get(ourUnits, u) by {
      Merge.MergeUnitsOfUnit(baseUnits, ourUnits, theirUnits, u);
      Merge.ConflictHere(Get(baseUnits, u), Get(ourUnits, u), Get(theirUnits, u), [], u);
    }
    assert ApplyAll(m.value, ourUnits, theirUnits, []) == m.value;
    assert Decide(m, ourUnits, theirUnits, Some([])) == Commit(m.value);
  }
}

=== FILE: route.dfy ===
/**
 * Routes into a value: the keys and indices that diff and merge descend
 * through, and the path string that `joinPath` (src/core/diff.ts:27-28,
 * src/core/merge.ts:27-28) builds from them.
 */
module Routes {
  import opened Json
  import Decimal
  import Pointer

  datatype Step = Key(key: string) | Index(index: nat)

  /** `String(key)`: a key as is, an index in decimal. */
  function StepToken(s: Step): string {
    match s
    case Key(k) => k
    case Index(i) => Decimal.NatToString(i)
  }

  function Tokens(route: seq<Step>): (ts: seq<string>)
    ensures |ts| == |route|
    ensures forall i | 0 <= i < |route| :: ts[i] == StepToken(route[i])
  {
    seq(|route|, i requires 0 <= i < |route| => StepToken(route[i]))
  }

  /** `joinPath`: the base, a `/`, and the key, with no escaping. */
  function JoinPath(base: string, key: string): (r: string)
    ensures Pointer.Count(r, '/') == Pointer.Count(base, '/') + 1 + Pointer.Count(key, '/')
    ensures base == "" || base[0] == '/' ==> r[0] == '/'
  {
    var prefix := if base == "" then "/" else base + "/";
    Pointer.CountConcat(base, "/", '/');
    Pointer.CountConcat(prefix, key, '/');
    prefix + key
  }

  /** The path string the recursion has built after descending `route` from the root. */
  function RawPath(route: seq<Step>): string {
    if route == [] then "" else JoinPath(RawPath(route[..|route| - 1]), StepToken(route[|route| - 1]))
  }

  /** The value reached by following `route`; a step that does not fit reads as undefined. */
  function Navigate(v: Value, route: seq<Step>): Value
    decreases |route|
  {
    if route == [] then v
    else
      var next :=
        match (v, route[0])
        case (Arr(xs), Index(i)) => At(xs, i)
        case (Obj(ms), Key(k)) => Get(ms, k)
        case _ => Undef;
      Navigate(next, route[1..])
  }

  lemma NavigateStep(v: Value, s: Step, rest: seq<Step>)
    ensures Navigate(v, [s] + rest) == Navigate(Navigate(v, [s]), rest)
  {
    assert ([s] + rest)[1..] == rest;
    assert ([s] + rest)[0] == s;
    assert [s][1..] == [];
  }

  /** Following a route that extends `route` by `s`: the part past `route` starts with `s`. */
  lemma NavigatePast(v: Value, route: seq<Step>, s: Step, longer: seq<Step>)
    requires route + [s] <= longer
    ensures Navigate(v, longer[|route|..]) == Navigate(Navigate(v, [s]), longer[|route| + 1..])
  {
    assert longer[..|route| + 1] == route + [s];
    assert longer[|route|..] == [s] + longer[|route| + 1..];
    NavigateStep(v, s, longer[|route| + 1..]);
  }

  /** One key step reads the member. */
  lemma NavigateKey(ms: seq<Member>, k: string)
    ensures Navigate(Obj(ms), [Key(k)]) == Get(ms, k)
  {
    assert [Key(k)][1..] == [];
  }

  /** One index step reads the element. */
  lemma NavigateIndex(xs: seq<Value>, i: nat)
    ensures Navigate(Arr(xs), [Index(i)]) == At(xs, i)
  {
    assert [Index(i)][1..] == [];
  }

  /**
   * A path is `/` followed by the raw tokens joined by `/`: `joinPath`
   * escapes nothing, so it is a JSON Pointer only when no token holds `~` or `/`.
   */
  lemma {:induction false} RawPathIsJoin(route: seq<Step>)
    requires route != []
    ensures RawPath(route) == "/" + Pointer.Join(Tokens(route), '/')
    decreases |route|
  {
    var n := |route|;
    var init := route[..n - 1];
    var last := StepToken(route[n - 1]);
    TokensSnoc(route);
    assert RawPath(route) == JoinPath(RawPath(init), last);
    if n > 1 {
      RawPathIsJoin(init);
      JoinSnoc(Tokens(init), last);
      JoinPathStep(RawPath(init), Pointer.Join(Tokens(init), '/'), last);
    } else {
      assert Tokens(route) == [last];
    }
  }

  /** Extending a path of the form `/` + `j` by one key. */
  lemma JoinPathStep(p: string, j: string, key: string)
    requires p == "/" + j
    ensures JoinPath(p, key) == "/" + (j + "/" + key)
  {
    assert JoinPath(p, key) == (("/" + j) + "/") + key;
  }

  /** The tokens of a route are those of its prefix followed by the last step's. */
  lemma TokensSnoc(route: seq<Step>)
    requires route != []
    ensures Tokens(route) == Tokens(route[..|route| - 1]) + [StepToken(route[|route| - 1])]
  {
  }

  lemma {:induction false} JoinSnoc(ts: seq<string>, t: string)
    requires ts != []
    ensures Pointer.Join(ts + [t], '/') == Pointer.Join(ts, '/') + "/" + t
    decreases |ts|
  {
    if |ts| == 1 {
      assert (ts + [t])[1..] == [t];
    } else {
      assert (ts + [t])[1..] == ts[1..] + [t];
      JoinSnoc(ts[1..], t);
    }
  }

  /** The raw path agrees with the RFC 6901 pointer exactly when escaping changes no token. */
  lemma RawPathIsPointerWhenPlain(route: seq<Step>)
    requires forall i | 0 <= i < |route| :: '~' !in StepToken(route[i]) && '/' !in StepToken(route[i])
    ensures RawPath(route) == Pointer.ToPointer(Tokens(route))
  {
    if route != [] {
      RawPathIsJoin(route);
      var ts := Tokens(route);
      forall i | 0 <= i < |ts| ensures Pointer.EscapeAll(ts)[i] == ts[i] {
        Pointer.EscapePlain(ts[i]);
      }
      assert Pointer.EscapeAll(ts) == ts;
    }
  }

  /** The RFC 6901 pointer of a route: each token escaped, then joined. */
  function PointerOf(route: seq<Step>): string {
    Pointer.ToPointer(Tokens(route))
  }

  /** The raw path of two keys. */
  lemma RawPathTwoKeys(a: string, b: string)
    ensures RawPath([Key(a), Key(b)]) == "/" + a + "/" + b
  {
    assert [Key(a), Key(b)][..1] == [Key(a)];
    assert [Key(a)][..0] == [];
    assert RawPath([Key(a)]) == "/" + a;
    assert RawPath([Key(a), Key(b)]) == JoinPath("/" + a, b);
  }

  /** The raw path of three keys. */
  lemma RawPathThreeKeys(a: string, b: string, c: string)
    ensures RawPath([Key(a), Key(b), Key(c)]) == "/" + a + "/" + b + "/" + c
  {
    assert [Key(a), Key(b), Key(c)][..2] == [Key(a), Key(b)];
    RawPathTwoKeys(a, b);
    assert RawPath([Key(a), Key(b), Key(c)]) == JoinPath(RawPath([Key(a), Key(b)]), c);
  }

  lemma Assoc(x: string, y: string, z: string)
    ensures x + (y + z) == (x + y) + z
  {
  }

  /** The escaped path of two keys. */
  lemma PointerOfTwoKeys(a: string, b: string)
    ensures PointerOf([Key(a), Key(b)]) == "/" + Pointer.EscapeToken(a) + "/" + Pointer.EscapeToken(b)
  {
    assert Tokens([Key(a), Key(b)]) == [a] + [b];
    Pointer.ToPointerCons(a, [b]);
    Pointer.ToPointerOne(b);
  }

  /** A route's pointer reads back as the route's own tokens. */
  lemma PointerOfRoundTrip(route: seq<Step>)
    ensures Pointer.FromPointer(PointerOf(route)).Ok?
    ensures Pointer.FromPointer(PointerOf(route)).value == Tokens(route)
  {
    Pointer.FromToPointer(Tokens(route));
  }
}

=== FILE: store.dfy ===
/**
 * The commit and merge-commit writes of src/server/app.ts as single atomic
 * steps over an abstract store (branch heads, commit records, per-commit
 * unit snapshots, per-branch unit states), guarded by an optional expected
 * head, and the older unguarded step sequences of src/server/index.ts.
 * Each id `nanoid()` would draw is a parameter assumed fresh.
 */
module Repo {
  import opened Wrappers
  import opened Json
  import CommitGraph

  type Id = string

  datatype Branch = Branch(name: string, head: Option<Id>)

  datatype CommitRec = CommitRec(message: string, parent: Option<Id>, parent2: Option<Id>)

  /** Unit contents are keyed by unit id; a missing entry is a missing row. */
  type Units = map<Id, Value>

  datatype Store = Store(
    branches: map<Id, Branch>,
    commits: map<Id, CommitRec>,
    snapshots: map<Id, Units>,
    states: map<Id, Units>,
    units: set<Id>)

  /** The branch as the handler read it before its transaction began. */
  datatype BranchRef = BranchRef(id: Id, name: string, head: Option<Id>)

  /** `expectedHeadCommitId`: absent, or a commit id or `null` (`Expect(None)`). */
  datatype Expectation = NoExpectation | Expect(head: Option<Id>)

  datatype TxError =
    | HeadChanged(branchName: string, expected: Option<Id>, actual: Option<Id>)
    | BranchNotFound
    | RecordNotFound
    | InvalidUnit

  /** The store after the step, and the reply: the new commit's id or the error. */
  datatype TxResult = TxResult(store: Store, reply: Result<Id, TxError>)

  /** The unit states of a branch, `{}` when it has none. */
  function StatesOf(s: Store, b: Id): Units {
    if b in s.states then s.states[b] else map[]
  }

  /** The commit records as the graph the ancestor walks read. */
  function GraphOf(s: Store): (g: CommitGraph.Graph)
    ensures g.Keys == s.commits.Keys
  {
    map c | c in s.commits :: CommitGraph.Parents(s.commits[c].parent, s.commits[c].parent2)
  }

  /** Every parent and every branch head names an existing commit. */
  predicate WellFormed(s: Store) {
    && (forall c | c in s.commits :: Known(s, s.commits[c].parent) && Known(s, s.commits[c].parent2))
    && (forall b | b in s.branches :: Known(s, s.branches[b].head))
  }

  predicate Known(s: Store, id: Option<Id>) {
    id.Some? ==> id.value in s.commits
  }

  /**
   * The guard shared by both transactions: with an expectation the branch is
   * read again and its head must equal the expected one; without one the
   * head read before the transaction is used as it is.
   */
  function GuardedHead(s: Store, b: BranchRef, guard: Expectation): (r: Result<Option<Id>, TxError>)
    ensures guard.NoExpectation? ==> r == Ok(b.head)
    ensures guard.Expect? && b.id !in s.branches ==> r == Err(BranchNotFound)
    ensures guard.Expect? && b.id in s.branches ==>
              (r.Ok? <==> guard.head == s.branches[b.id].head) &&
              (r.Ok? ==> r.value == guard.head) &&
              (r.Err? ==> r.error == HeadChanged(b.name, guard.head, s.branches[b.id].head))
  {
    match guard
    case NoExpectation => Ok(b.head)
    case Expect(expected) =>
      if b.id !in s.branches then Err(BranchNotFound)
      else
        var current := s.branches[b.id].head;
        if expected != current then Err(HeadChanged(b.name, expected, current)) else Ok(current)
  }

  /** The branch's head moved to the new commit; `update` of a missing branch fails. */
  function MoveHead(s: Store, b: Id, newId: Id): (r: Option<Store>)
    ensures r.Some? <==> b in s.branches
    ensures r.Some? ==> r.value.branches == s.branches[b := s.branches[b].(head := Some(newId))]
    ensures r.Some? ==> r.value.(branches := s.branches) == s
  {
    if b in s.branches then Some(s.(branches := s.branches[b := s.branches[b].(head := Some(newId))])) else None
  }

  /** The commit transaction: a record whose parent is the guarded head, snapshots of the branch's unit states, and the head moved. */
  function CommitTx(s: Store, b: BranchRef, message: string, guard: Expectation, newId: Id): (r: TxResult)
    requires newId !in s.commits
    ensures r.reply.Err? ==> r.store == s
    ensures r.reply.Ok? ==> r.reply.value == newId && newId in r.store.commits
  {
    match GuardedHead(s, b, guard)
    case Err(e) => TxResult(s, Err(e))
    case Ok(parent) =>
      var s1 := s.(commits := s.commits[newId := CommitRec(message, parent, None)],
                   snapshots := s.snapshots[newId := StatesOf(s, b.id)]);
      match MoveHead(s1, b.id, newId)
      case None => TxResult(s, Err(RecordNotFound))
      case Some(s2) => TxResult(s2, Ok(newId))
  }

  /** `unit.id` of every resolved unit, later units overwriting earlier ones; `None` when some unit is not an object with a string id. */
  function UnitsById(ms: seq<Member>): (r: Option<Units>)
    ensures r.Some? <==> AllHaveIds(ms)
    ensures r.Some? ==> forall k | k in r.value :: UnitIdOf(r.value[k]) == Some(k)
    ensures r.Some? ==> forall i | 0 <= i < |ms| :: UnitIdOf(ms[i].val).value in r.value
    decreases |ms|
  {
    if ms == [] then Some(map[])
    else
      AllHaveIdsCons(ms);
      match UnitIdOf(ms[0].val)
      case None => None
      case Some(id) =>
        match UnitsById(ms[1..])
        case None => None
        case Some(rest) =>
          var r := map[id := ms[0].val] + rest;
          KeysOfTail(ms, id, rest, r);
          Some(r)
  }

  /** Every resolved unit is an object with a string id. */
  predicate AllHaveIds(ms: seq<Member>) {
    forall i | 0 <= i < |ms| :: UnitIdOf(ms[i].val).Some?
  }

  lemma AllHaveIdsCons(ms: seq<Member>)
    requires ms != []
    ensures AllHaveIds(ms) <==> UnitIdOf(ms[0].val).Some? && AllHaveIds(ms[1..])
  {
    if UnitIdOf(ms[0].val).Some? && AllHaveIds(ms[1..]) {
      forall i | 0 < i < |ms| ensures UnitIdOf(ms[i].val).Some? {
        assert ms[i] == ms[1..][i - 1];
      }
    }
  }

  lemma KeysOfTail(ms: seq<Member>, id: Id, rest: Units, r: Units)
    requires ms != [] && UnitIdOf(ms[0].val) == Some(id)
    requires forall i | 0 <= i < |ms[1..]| :: UnitIdOf(ms[1..][i].val).Some? && UnitIdOf(ms[1..][i].val).value in rest
    requires r == map[id := ms[0].val] + rest
    ensures forall i | 0 <= i < |ms| :: UnitIdOf(ms[i].val).Some? && UnitIdOf(ms[i].val).value in r
  {
    forall i | 0 < i < |ms| ensures UnitIdOf(ms[i].val).Some? && UnitIdOf(ms[i].val).value in r {
      assert ms[i] == ms[1..][i - 1];
    }
  }

  /** The unit's own `id` when it is an object with a string `id`. */
  function UnitIdOf(v: Value): Option<Id> {
    if v.Obj? && Get(v.members, "id").Str? then Some(Get(v.members, "id").s) else None
  }

  function MergeMessage(ours: string, theirs: string): string {
    "Merge " + ours + " <- " + theirs
  }

  /** The writes of a merge commit once the record exists: snapshots and states of the resolved units, and the units themselves. */
  function WriteUnits(s: Store, branchId: Id, commitId: Id, byId: Units): Store {
    s.(snapshots := s.snapshots[commitId := byId],
       states := s.states[branchId := StatesOf(s, branchId) + byId],
       units := s.units + byId.Keys)
  }

  /**
   * The merge-commit transaction: a record with parents (guarded ours head,
   * theirs head), snapshots of exactly the resolved units, those units
   * written over the ours branch's states, and the head moved.
   */
  function MergeCommitTx(s: Store, ours: BranchRef, theirsName: string, theirsHead: Option<Id>, resolved: seq<Member>,
                         guard: Expectation, newId: Id): (r: TxResult)
    requires newId !in s.commits
    ensures r.reply.Err? ==> r.store == s
    ensures r.reply.Ok? ==> r.reply.value == newId && newId in r.store.commits
  {
    match GuardedHead(s, ours, guard)
    case Err(e) => TxResult(s, Err(e))
    case Ok(parent) =>
      var s1 := s.(commits := s.commits[newId := CommitRec(MergeMessage(ours.name, theirsName), parent, theirsHead)]);
      match UnitsById(resolved)
      case None => TxResult(s, Err(InvalidUnit))
      case Some(byId) =>
        match MoveHead(WriteUnits(s1, ours.id, newId, byId), ours.id, newId)
        case None => TxResult(s, Err(RecordNotFound))
        case Some(s2) => TxResult(s2, Ok(newId))
  }

  // ---------------------------------------------------------------------------
  // The unguarded sequences of src/server/index.ts: separate writes, no rollback.

  /** `createCommit`, then snapshots of the states, then `updateBranchHead`, each taking effect as it runs. */
  function LegacyCommit(s: Store, b: BranchRef, message: string, newId: Id): (t: TxResult)
    ensures newId in t.store.commits && t.store.commits[newId] == CommitRec(message, b.head, None)
    ensures newId in t.store.snapshots && t.store.snapshots[newId] == StatesOf(s, b.id)
    ensures t.reply.Ok? <==> b.id in s.branches
    ensures t.reply.Ok? ==> t.reply.value == newId && t.store.branches == s.branches[b.id := s.branches[b.id].(head := Some(newId))]
    ensures t.reply.Err? ==> t.store.branches == s.branches
  {
    var s1 := s.(commits := s.commits[newId := CommitRec(message, b.head, None)]);
    var s2 := s1.(snapshots := s1.snapshots[newId := StatesOf(s1, b.id)]);
    match MoveHead(s2, b.id, newId)
    case None => TxResult(s2, Err(RecordNotFound))
    case Some(s3) => TxResult(s3, Ok(newId))
  }

  /** `createCommit`, then the snapshots, the state upserts and `updateBranchHead`, each taking effect as it runs. */
  function LegacyMerge(s: Store, ours: BranchRef, theirsName: string, theirsHead: Option<Id>, resolved: seq<Member>, newId: Id): (t: TxResult)
    ensures newId in t.store.commits && t.store.commits[newId] == CommitRec(MergeMessage(ours.name, theirsName), ours.head, theirsHead)
    ensures t.reply.Ok? <==> AllHaveIds(resolved) && ours.id in s.branches
    ensures t.reply.Ok? ==> t.reply.value == newId && ours.id in t.store.branches && t.store.branches[ours.id].head == Some(newId)
    ensures !AllHaveIds(resolved) ==> t.reply == Err(InvalidUnit) && t.store.branches == s.branches && t.store.snapshots == s.snapshots
  {
    var s1 := s.(commits := s.commits[newId := CommitRec(MergeMessage(ours.name, theirsName), ours.head, theirsHead)]);
    match UnitsById(resolved)
    case None => TxResult(s1, Err(InvalidUnit))
    case Some(byId) =>
      var s2 := WriteUnits(s1, ours.id, newId, byId);
      match MoveHead(s2, ours.id, newId)
      case None => TxResult(s2, Err(RecordNotFound))
      case Some(s3) => TxResult(s3, Ok(newId))
  }

  // ---------------------------------------------------------------------------
  // Properties of the transactions.

  /** The head a commit takes as its first parent: the re-read head under a guard, the earlier read otherwise. */
  function ParentHead(s: Store, b: BranchRef, guard: Expectation): Option<Id>
    requires guard.Expect? ==> b.id in s.branches
  {
    if guard.Expect? then s.branches[b.id].head else b.head
  }

  /**
   * A commit succeeds exactly when the branch exists and any expected head
   * is the current one; it then records the parent head and no second
   * parent, snapshots exactly the branch's states, moves only this branch's
   * head, and writes nothing else.
   */
  lemma CommitOutcome(s: Store, b: BranchRef, message: string, guard: Expectation, newId: Id)
    requires newId !in s.commits
    ensures CommitTx(s, b, message, guard, newId).reply.Ok? <==>
              b.id in s.branches && (guard.Expect? ==> guard.head == s.branches[b.id].head)
    ensures CommitTx(s, b, message, guard, newId).reply.Ok? ==>
              var t := CommitTx(s, b, message, guard, newId).store;
              && t.commits == s.commits[newId := CommitRec(message, ParentHead(s, b, guard), None)]
              && t.snapshots == s.snapshots[newId := StatesOf(s, b.id)]
              && t.branches == s.branches[b.id := s.branches[b.id].(head := Some(newId))]
              && t.states == s.states && t.units == s.units
  {
  }

  /**
   * A stale expected head is refused with `HEAD_CHANGED`, naming the
   * branch, the expected head and the current one, and nothing is written.
   */
  lemma StaleHeadRefused(s: Store, b: BranchRef, message: string, expected: Option<Id>, newId: Id)
    requires newId !in s.commits
    requires b.id in s.branches && expected != s.branches[b.id].head
    ensures CommitTx(s, b, message, Expect(expected), newId)
            == TxResult(s, Err(HeadChanged(b.name, expected, s.branches[b.id].head)))
  {
  }

  /** Recording a commit whose parents exist and moving one head to it keeps every reference resolvable. */
  lemma RecordKeepsWellFormed(s: Store, t: Store, b: Id, newId: Id, rec: CommitRec)
    requires WellFormed(s) && b in s.branches
    requires Known(s, rec.parent) && Known(s, rec.parent2)
    requires t.commits == s.commits[newId := rec]
    requires t.branches == s.branches[b := s.branches[b].(head := Some(newId))]
    ensures WellFormed(t)
  {
    forall c | c in t.commits ensures Known(t, t.commits[c].parent) && Known(t, t.commits[c].parent2) {
      if c != newId {
        assert Known(s, s.commits[c].parent) && Known(s, s.commits[c].parent2);
      }
    }
    forall x | x in t.branches ensures Known(t, t.branches[x].head) {
      if x != b {
        assert Known(s, s.branches[x].head);
      }
    }
  }

  /** Commits keep the store well formed when the head read earlier names an existing commit. */
  lemma CommitKeepsWellFormed(s: Store, b: BranchRef, message: string, guard: Expectation, newId: Id)
    requires newId !in s.commits && WellFormed(s) && Known(s, b.head)
    ensures WellFormed(CommitTx(s, b, message, guard, newId).store)
  {
    var r := CommitTx(s, b, message, guard, newId);
    if r.reply.Ok? {
      CommitOutcome(s, b, message, guard, newId);
      RecordKeepsWellFormed(s, r.store, b.id, newId, CommitRec(message, ParentHead(s, b, guard), None));
    }
  }

  /**
   * Two commits that both expect the head they read: the first succeeds,
   * and the second is refused with `HEAD_CHANGED` whose actual head is the
   * first commit, leaving the store as the first left it.
   */
  lemma GuardedRace(s: Store, b: BranchRef, m1: string, m2: string, id1: Id, id2: Id)
    requires WellFormed(s)
    requires b.id in s.branches && b.head == s.branches[b.id].head
    requires id1 !in s.commits && id2 !in s.commits && id1 != id2
    ensures CommitTx(s, b, m1, Expect(b.head), id1).reply == Ok(id1)
    ensures var s1 := CommitTx(s, b, m1, Expect(b.head), id1).store;
            CommitTx(s1, b, m2, Expect(b.head), id2) == TxResult(s1, Err(HeadChanged(b.name, b.head, Some(id1))))
  {
    CommitOutcome(s, b, m1, Expect(b.head), id1);
    var s1 := CommitTx(s, b, m1, Expect(b.head), id1).store;
    assert Known(s, b.head);
    StaleHeadRefused(s1, b, m2, b.head, id2);
  }

  /**
   * Two commits without an expected head, both working from the head read
   * before either ran: both succeed, the branch ends at the second, and the
   * first is not among its ancestors — the first commit is lost from the
   * branch's history.
   */
  lemma UnguardedRaceLosesCommit(s: Store, b: BranchRef, m1: string, m2: string, id1: Id, id2: Id)
    requires WellFormed(s)
    requires b.id in s.branches && b.head == s.branches[b.id].head
    requires id1 !in s.commits && id2 !in s.commits && id1 != id2 && id1 != "" && id2 != ""
    ensures var r1 := CommitTx(s, b, m1, NoExpectation, id1);
            var r2 := CommitTx(r1.store, b, m2, NoExpectation, id2);
            && r1.reply == Ok(id1) && r2.reply == Ok(id2)
            && r2.store.branches[b.id].head == Some(id2)
            && !CommitGraph.Reachable(GraphOf(r2.store), id2, id1)
  {
    CommitOutcome(s, b, m1, NoExpectation, id1);
    var s1 := CommitTx(s, b, m1, NoExpectation, id1).store;
    CommitOutcome(s1, b, m2, NoExpectation, id2);
    var s2 := CommitTx(s1, b, m2, NoExpectation, id2).store;
    var g := GraphOf(s2);
    var keep := s.commits.Keys + {id2};
    assert CommitGraph.Closed(g, keep) by {
      forall c, p | c in keep && p in CommitGraph.ParentList(g, c) ensures p in keep {
        if c == id2 {
          assert s2.commits[c] == CommitRec(m2, b.head, None);
        } else {
          assert s2.commits[c] == s.commits[c];
        }
      }
    }
    if CommitGraph.Reachable(g, id2, id1) {
      CommitGraph.ClosedHoldsReachable(g, keep, id2, id1);
      assert false;
    }
  }

  /**
   * A merge commit succeeds exactly when the guard passes, every resolved
   * unit has a string id and the branch exists; it then records parents
   * (ours head, theirs head), snapshots exactly the resolved units, writes
   * them over the ours branch's states, and leaves every other branch's
   * states and every other commit as they were.
   */
  lemma MergeCommitOutcome(s: Store, ours: BranchRef, theirsName: string, theirsHead: Option<Id>, resolved: seq<Member>,
                           guard: Expectation, newId: Id)
    requires newId !in s.commits
    ensures MergeCommitTx(s, ours, theirsName, theirsHead, resolved, guard, newId).reply.Ok? <==>
              && ours.id in s.branches
              && (guard.Expect? ==> guard.head == s.branches[ours.id].head)
              && UnitsById(resolved).Some?
    ensures MergeCommitTx(s, ours, theirsName, theirsHead, resolved, guard, newId).reply.Ok? ==>
              var t := MergeCommitTx(s, ours, theirsName, theirsHead, resolved, guard, newId).store;
              var byId := UnitsById(resolved).value;
              && t.commits == s.commits[newId := CommitRec(MergeMessage(ours.name, theirsName), ParentHead(s, ours, guard), theirsHead)]
              && t.snapshots == s.snapshots[newId := byId]
              && t.branches == s.branches[ours.id := s.branches[ours.id].(head := Some(newId))]
              && (forall u | u in byId :: StatesOf(t, ours.id)[u] == byId[u])
              && (forall u | u !in byId && u in StatesOf(s, ours.id) :: StatesOf(t, ours.id)[u] == StatesOf(s, ours.id)[u])
              && StatesOf(t, ours.id).Keys == StatesOf(s, ours.id).Keys + byId.Keys
              && (forall other | other != ours.id :: StatesOf(t, other) == StatesOf(s, other))
  {
    MergeCommitRecords(s, ours, theirsName, theirsHead, resolved, guard, newId);
    MergeCommitStates(s, ours, theirsName, theirsHead, resolved, guard, newId);
    if UnitsById(resolved).Some? {
      OverlayFacts(StatesOf(s, ours.id), UnitsById(resolved).value);
    }
  }

  /** A successful merge commit records the commit, its snapshots and the moved head. */
  lemma MergeCommitRecords(s: Store, ours: BranchRef, theirsName: string, theirsHead: Option<Id>, resolved: seq<Member>,
                           guard: Expectation, newId: Id)
    requires newId !in s.commits
    ensures MergeCommitTx(s, ours, theirsName, theirsHead, resolved, guard, newId).reply.Ok? ==>
              var t := MergeCommitTx(s, ours, theirsName, theirsHead, resolved, guard, newId).store;
              && t.commits == s.commits[newId := CommitRec(MergeMessage(ours.name, theirsName), ParentHead(s, ours, guard), theirsHead)]
              && t.snapshots == s.snapshots[newId := UnitsById(resolved).value]
              && t.branches == s.branches[ours.id := s.branches[ours.id].(head := Some(newId))]
  {
  }

  /** A successful merge commit overlays the resolved units on the ours branch's states and no other branch's. */
  lemma MergeCommitStates(s: Store, ours: BranchRef, theirsName: string, theirsHead: Option<Id>, resolved: seq<Member>,
                          guard: Expectation, newId: Id)
    requires newId !in s.commits
    ensures MergeCommitTx(s, ours, theirsName, theirsHead, resolved, guard, newId).reply.Ok? ==>
              var t := MergeCommitTx(s, ours, theirsName, theirsHead, resolved, guard, newId).store;
              var byId := UnitsById(resolved).value;
              && StatesOf(t, ours.id) == StatesOf(s, ours.id) + byId
              && (forall other | other != ours.id :: StatesOf(t, other) == StatesOf(s, other))
  {
    var r := MergeCommitTx(s, ours, theirsName, theirsHead, resolved, guard, newId);
    if r.reply.Ok? {
      var byId := UnitsById(resolved).value;
      var s1 := s.(commits := s.commits[newId := CommitRec(MergeMessage(ours.name, theirsName), ParentHead(s, ours, guard), theirsHead)]);
      var w := WriteUnits(s1, ours.id, newId, byId);
      assert r.store.states == w.states;
      WriteUnitsStates(s1, ours.id, newId, byId);
    }
  }

  /** Writing units changes the states of the one branch written to, by overlaying them. */
  lemma WriteUnitsStates(s: Store, branchId: Id, commitId: Id, byId: Units)
    ensures StatesOf(WriteUnits(s, branchId, commitId, byId), branchId) == StatesOf(s, branchId) + byId
    ensures forall other | other != branchId :: StatesOf(WriteUnits(s, branchId, commitId, byId), other) == StatesOf(s, other)
  {
  }

  /** An overlay reads the new entries where it has them and the old ones elsewhere. */
  lemma OverlayFacts(old_: Units, new_: Units)
    ensures forall u | u in new_ :: (old_ + new_)[u] == new_[u]
    ensures forall u | u !in new_ && u in old_ :: (old_ + new_)[u] == old_[u]
    ensures (old_ + new_).Keys == old_.Keys + new_.Keys
  {
  }

  /** A merge applied against a stale expected head is refused the same way, whatever the resolved units, and writes nothing. */
  lemma MergeStaleHeadRefused(s: Store, ours: BranchRef, theirsName: string, theirsHead: Option<Id>, resolved: seq<Member>,
                              expected: Option<Id>, newId: Id)
    requires newId !in s.commits
    requires ours.id in s.branches && expected != s.branches[ours.id].head
    ensures MergeCommitTx(s, ours, theirsName, theirsHead, resolved, Expect(expected), newId)
            == TxResult(s, Err(HeadChanged(ours.name, expected, s.branches[ours.id].head)))
  {
  }

  /** Merge commits keep the store well formed when both heads read earlier name existing commits. */
  lemma MergeKeepsWellFormed(s: Store, ours: BranchRef, theirsName: string, theirsHead: Option<Id>, resolved: seq<Member>,
                             guard: Expectation, newId: Id)
    requires newId !in s.commits && WellFormed(s) && Known(s, ours.head) && Known(s, theirsHead)
    ensures WellFormed(MergeCommitTx(s, ours, theirsName, theirsHead, resolved, guard, newId).store)
  {
    var r := MergeCommitTx(s, ours, theirsName, theirsHead, resolved, guard, newId);
    if r.reply.Ok? {
      MergeCommitOutcome(s, ours, theirsName, theirsHead, resolved, guard, newId);
      RecordKeepsWellFormed(s, r.store, ours.id, newId, CommitRec(MergeMessage(ours.name, theirsName), ParentHead(s, ours, guard), theirsHead));
    }
  }

  /** On an existing branch the legacy commit sequence ends where the unguarded transaction does. */
  lemma LegacyCommitIsUnguarded(s: Store, b: BranchRef, message: string, newId: Id)
    requires newId !in s.commits && b.id in s.branches
    ensures LegacyCommit(s, b, message, newId) == CommitTx(s, b, message, NoExpectation, newId)
  {
  }

  /** With valid units on an existing branch the legacy merge sequence ends where the unguarded transaction does. */
  lemma LegacyMergeIsUnguarded(s: Store, ours: BranchRef, theirsName: string, theirsHead: Option<Id>, resolved: seq<Member>, newId: Id)
    requires newId !in s.commits && ours.id in s.branches && UnitsById(resolved).Some?
    ensures LegacyMerge(s, ours, theirsName, theirsHead, resolved, newId)
            == MergeCommitTx(s, ours, theirsName, theirsHead, resolved, NoExpectation, newId)
  {
  }

  /**
   * A resolved unit without a string id fails the merge after the legacy
   * sequence has already created the commit: the record stays, and no
   * branch head reaches it; the transaction writes nothing instead.
   */
  lemma LegacyMergeLeavesOrphan(s: Store, ours: BranchRef, theirsName: string, theirsHead: Option<Id>, resolved: seq<Member>,
                                guard: Expectation, newId: Id)
    requires newId !in s.commits && WellFormed(s)
    requires exists i | 0 <= i < |resolved| :: UnitIdOf(resolved[i].val).None?
    ensures var r := LegacyMerge(s, ours, theirsName, theirsHead, resolved, newId);
            && r.reply == Err(InvalidUnit)
            && newId in r.store.commits
            && forall b | b in r.store.branches :: r.store.branches[b].head != Some(newId)
    ensures MergeCommitTx(s, ours, theirsName, theirsHead, resolved, guard, newId).store == s
  {
    var r := LegacyMerge(s, ours, theirsName, theirsHead, resolved, newId);
    assert UnitsById(resolved).None?;
    forall b | b in r.store.branches ensures r.store.branches[b].head != Some(newId) {
      assert Known(s, s.branches[b].head);
    }
  }
}

=== FILE: wrappers.dfy ===
/** Failure-carrying result types shared by every module of the model. */
module Wrappers {

  /** A value that may be absent: the source's `null` / `undefined` for ids and heads. */
  datatype Option<+T> = None | Some(value: T) {
    /** The value, or `default` when absent: the source's `x ?? default`. */
    function GetOr(default: T): T {
      match this
      case Some(v) => v
      case None => default
    }
  }

  /** Either a result or an error: replaces a thrown error payload. */
  datatype Result<+R, +E> = Ok(value: R) | Err(error: E) {
    predicate IsFailure() {
      Err?
    }

    function PropagateFailure<U>(): Result<U, E>
      requires Err?
    {
      Err(error)
    }

    function Extract(): R
      requires Ok?
    {
      value
    }
  }
}
